=== FILE: README.md ===
# frequenz-sdk core, modelled in Dafny

This project models the decision-making core of the Frequenz microgrid SDK. Every part is a pure function over immutable values.

- **Power arbitration.** The Matryoshka algorithm collects power proposals from actors of different priorities. It narrows the system's bounds proposal by proposal and picks one target power per set of batteries. The power-managing actor adds the shifting/non-shifting split and the algorithm check.
- **Battery status.** Battery and inverter messages are judged usable or not. A failed battery is blocked for a duration that doubles up to a maximum. A pool of batteries is split into working and uncertain components.
- **Resampling.** This covers the resampler configuration and its checks, and the alignment of the first window. It also covers the per-source buffer: bounded length, sample-period estimate, buffer resizing, and choosing the samples relevant to a window. The source registry is included, as is the simpler metric resampler with its group and its pruning of outdated samples.
- **Base types.** Samples, three-phase samples, and their `max`, `min` and `map`.
- **Grid.** Finding the grid connection point and its fuse among the components.
- **Formula generators.** The token sequences generated for EV-charger power and current, grid current and battery power.

Conventions:

- Time is an integer number of microseconds, and durations use the same unit.
- Power, current and sample values are mathematical reals.
- A Python `set`, `dict` or graph query is iterated in some order; a Dafny `seq` stands for that order.
- A clock reading (`now`) is always a parameter.
- The stored state of an object (buckets and targets, blocking status, stored grid) is passed in and returned.

## Model

| member | source | states |
|---|---|---|
| PowerBase.NewProposal | src/frequenz/sdk/actor/_power_managing/_base_classes.py:60-83 | a proposal's defaults: a 5 s request timeout and broken batteries excluded |
| PowerBase.GetChannelName | src/frequenz/sdk/actor/_power_managing/_base_classes.py:34-41 | the channel of a report request is named by its battery ids and priority only; see ChannelNameIgnoresSource |
| PowerBase.ProposalLess | src/frequenz/sdk/actor/_power_managing/_base_classes.py:85-98 | proposal order: lower priority first, ties broken by Python's string order on source ids; the four order lemmas below make it a strict total order |
| PowerBase.ChannelNameIgnoresSource | src/frequenz/sdk/actor/_power_managing/_base_classes.py:34-41 | two report requests share a channel exactly when their battery ids and priority agree; the source id plays no part |
| PowerBase.StrLessTotal | src/frequenz/sdk/actor/_power_managing/_base_classes.py:96-98 | Python's string order on source ids is total on distinct strings |
| PowerBase.StrLessTransitive | src/frequenz/sdk/actor/_power_managing/_base_classes.py:96-98 | Python's string order on source ids is transitive |
| PowerBase.StrLessIrreflexive | src/frequenz/sdk/actor/_power_managing/_base_classes.py:96-98 | no string is below itself |
| PowerBase.ProposalLessTransitive | src/frequenz/sdk/actor/_power_managing/_base_classes.py:85-98 | proposal order (priority, then source id) is transitive |
| PowerBase.ProposalLessConnected | src/frequenz/sdk/actor/_power_managing/_base_classes.py:85-98 | proposals with different (priority, source id) are ordered one way or the other, and higher priority sorts later |
| PowerBase.ProposalLessAsymmetric | src/frequenz/sdk/actor/_power_managing/_base_classes.py:85-98 | proposal order is asymmetric |
| PowerBase.ProposalLessIrreflexive | src/frequenz/sdk/actor/_power_managing/_base_classes.py:85-98 | no proposal is below itself |
| Matryoshka.CheckExclusionBoundsOverlap | src/frequenz/sdk/actor/_power_managing/_matryoshka.py:93-121 | flags each bound that lies strictly inside the exclusion zone; without a zone, neither is flagged |
| Matryoshka.ClampToBounds | src/frequenz/sdk/actor/_power_managing/_matryoshka.py:41-90 | an ordinary clamp without exclusion; 0 when both bounds are trapped in the zone; the zone edge on one-sided overlap; with the zone inside the bounds, a result in bounds and never inside the zone, with an interior value going to the nearer edge (ties go up) |
| Matryoshka.AdjustExclusionBounds | src/frequenz/sdk/actor/_power_managing/_matryoshka.py:124-154 | the five overlap cases; the result is (0, 0) or has neither end inside the zone, and it only trims the interval |
| Matryoshka.EffectiveExclusion | src/frequenz/sdk/actor/_power_managing/_matryoshka.py:193-198 | an all-zero exclusion zone counts as no zone |
| Matryoshka.RemoveSource | src/frequenz/sdk/actor/_power_managing/_matryoshka.py:291-292 | exactly the proposals of other sources remain |
| Matryoshka.RemoveSourceValid | src/frequenz/sdk/actor/_power_managing/_matryoshka.py:291-292 | removing a source keeps a bucket sorted and one-per-source |
| Matryoshka.InsertSorted | src/frequenz/sdk/actor/_power_managing/_matryoshka.py:291-292 | insertion adds exactly the new proposal (as a multiset) |
| Matryoshka.InsertSortedSorted | src/frequenz/sdk/actor/_power_managing/_matryoshka.py:291-292 | insertion into a sorted bucket keeps it sorted |
| Matryoshka.InsertProposal | src/frequenz/sdk/actor/_power_managing/_matryoshka.py:291-292 | the new proposal replaces its source's old one, and every other proposal stays |
| Matryoshka.InsertProposalValid | src/frequenz/sdk/actor/_power_managing/_matryoshka.py:291-292 | the bucket stays sorted with one proposal per source |
| Matryoshka.Init | src/frequenz/sdk/actor/_power_managing/_matryoshka.py:160-163 | a new algorithm has no buckets and no targets |
| Matryoshka.WalkTarget | src/frequenz/sdk/actor/_power_managing/_matryoshka.py:200-228 | the target walk: proposals from highest priority down while the interval is non-empty; a preferred power is clamped into the current interval; bounds wholly inside the exclusion zone are skipped, others narrow the interval and are trimmed to the zone; the lemmas below state its properties |
| Matryoshka.CalcTargetPower | src/frequenz/sdk/actor/_power_managing/_matryoshka.py:165-229 | the target of a bucket: the walk starting at 0 from the system inclusion bounds, or from [0, 0] when there are none, with an all-zero exclusion zone read as none |
| Matryoshka.WalkTargetWithin | src/frequenz/sdk/actor/_power_managing/_matryoshka.py:193-228 | without an exclusion zone, the walk over proposals never leaves the bounds it started from; it returns the start value or a value in those bounds |
| Matryoshka.WalkTargetInside | src/frequenz/sdk/actor/_power_managing/_matryoshka.py:193-228 | without an exclusion zone, a start value inside the bounds stays inside |
| Matryoshka.CalcTargetPowerWithinSystemBounds | src/frequenz/sdk/actor/_power_managing/_matryoshka.py:165-229 | without an exclusion zone, the target power is 0 or inside the system inclusion bounds, and inside them whenever the last proposal has a preferred power |
| Matryoshka.CalcTargetPowerSingle | src/frequenz/sdk/actor/_power_managing/_matryoshka.py:165-229 | one proposal's target is its preferred power clamped to the system bounds |
| Matryoshka.WalkTargetZero | src/frequenz/sdk/actor/_power_managing/_matryoshka.py:179-191 | zero or empty bounds force a target of 0 |
| Matryoshka.CalcTargetPowerZeroWithoutBounds | src/frequenz/sdk/actor/_power_managing/_matryoshka.py:179-191 | without inclusion bounds the target is 0 |
| Matryoshka.WalkTargetLowestWins | src/frequenz/sdk/actor/_power_managing/_matryoshka.py:201-228 | without an exclusion zone, a value the first proposal prefers and every proposal admits is the result |
| Matryoshka.CalcTargetPowerLowestPriorityWins | src/frequenz/sdk/actor/_power_managing/_matryoshka.py:201-228 | without an exclusion zone, the lowest-priority proposal's preferred power wins when every higher-priority proposal admits it |
| Matryoshka.NarrowLower | src/frequenz/sdk/actor/_power_managing/_matryoshka.py:211-224 | the lower bound after the higher-priority proposals narrow it, taken from the end as the walk does: never below the start and never below any proposal's own lower bound |
| Matryoshka.NarrowUpper | src/frequenz/sdk/actor/_power_managing/_matryoshka.py:211-224 | the upper bound after narrowing: never above the start and never above any proposal's own upper bound |
| Matryoshka.WalkTargetClosest | src/frequenz/sdk/actor/_power_managing/_matryoshka.py:200-228 | without an exclusion zone, when the higher-priority proposals leave a non-empty interval, the target is the lowest-priority preference clamped into that interval |
| Matryoshka.CalcTargetPowerClosest | src/frequenz/sdk/actor/_power_managing/_matryoshka.py:10-13 | without an exclusion zone, a lowest-priority preference outside the bounds the others leave gives the value within those bounds closest to it; inside them, the preference itself |
| Matryoshka.ValidateBatteryIds | src/frequenz/sdk/actor/_power_managing/_matryoshka.py:231-260 | a known bucket passes; with no system bounds an unknown bucket is quietly refused; otherwise it fails exactly when it overlaps an existing bucket |
| Matryoshka.AddToBucket | src/frequenz/sdk/actor/_power_managing/_matryoshka.py:291-292 | the bucket gains the proposal and drops its source's old one; other buckets are untouched |
| Matryoshka.CalculateTargetPower | src/frequenz/sdk/actor/_power_managing/_matryoshka.py:263-309 | no-op without bounds; overlap is an error; an accepted proposal is added to its bucket (replacing its source's earlier one) and nothing else changes in the buckets; the remembered target of the bucket is the target power of its proposals under the system bounds, and that is what is returned; unforced calls return only a change; forced calls on a known bucket always return; other buckets and their targets are untouched |
| Matryoshka.CalculateTargetPowerPreservesInvariant | src/frequenz/sdk/actor/_power_managing/_matryoshka.py:263-309 | buckets stay sorted, one-per-source and pairwise disjoint, and targets belong to buckets |
| Matryoshka.AddToBucketPreservesInvariant | src/frequenz/sdk/actor/_power_managing/_matryoshka.py:288-292 | adding to a known or non-overlapping bucket keeps the state invariant |
| Matryoshka.GetStatus | src/frequenz/sdk/actor/_power_managing/_matryoshka.py:312-377 | reports the remembered target and the system exclusion; inclusion bounds exist iff the system has them, and are unchanged for a priority at or above all proposals |
| Matryoshka.WalkStatus | src/frequenz/sdk/actor/_power_managing/_matryoshka.py:350-369 | the status walk: only proposals of strictly higher priority narrow the bounds; bounds wholly inside the exclusion zone are skipped; an empty intersection stops the walk with the bounds so far |
| Matryoshka.WalkStatusNarrows | src/frequenz/sdk/actor/_power_managing/_matryoshka.py:350-369 | without an exclusion zone, the reported bounds stay a non-empty sub-interval of the system bounds |
| Matryoshka.GetStatusNested | src/frequenz/sdk/actor/_power_managing/_matryoshka.py:312-377 | without an exclusion zone, a lower priority sees bounds nested inside a higher priority's, which are inside the system bounds |
| Matryoshka.WalkStatusAbove | src/frequenz/sdk/actor/_power_managing/_matryoshka.py:350-369 | without an exclusion zone, when every proposal is above the asked priority and they leave a non-empty interval, the walk reports exactly the bounds those proposals narrow to |
| Matryoshka.WalkStatusStopsAtPriority | src/frequenz/sdk/actor/_power_managing/_matryoshka.py:350-352 | the walk stops at the first proposal, from the end, that is not above the asked priority; nothing before it affects the report |
| Matryoshka.GetStatusReportsHigherBounds | src/frequenz/sdk/actor/_power_managing/_matryoshka.py:312-377 | without an exclusion zone, the inclusion bounds reported to a priority are the system bounds narrowed by exactly the proposals above it, when these leave a non-empty interval |
| Matryoshka.WalkStatusExample | tests/actor/_power_managing/test_matryoshka.py:145-148 | under [-200, 200] with priority 2 bounded to [25, 50] and priority 3 to [10, 15], priority 3 sees [-200, 200] and priorities 2 and 1 see [10, 15] |
| PowerManagingActor.CheckAlgorithm | src/frequenz/sdk/actor/_power_managing/_power_managing_actor.py:73-76 | only the Matryoshka algorithm is accepted; any other is refused by name |
| PowerManagingActor.RemainingBounds | src/frequenz/sdk/actor/_power_managing/_power_managing_actor.py:211-245 | a shift x is admissible in the remaining bounds exactly when x + target was admissible; no target leaves the bounds unchanged |
| PowerManagingActor.RemainingBoundsRoundTrip | src/frequenz/sdk/actor/_power_managing/_power_managing_actor.py:235-245 | shifting by t and then by −t restores the bounds |
| PowerManagingActor.RemainingBoundsCompose | src/frequenz/sdk/actor/_power_managing/_power_managing_actor.py:235-245 | shifting twice is shifting by the sum |
| PowerManagingActor.RemainingBoundsExamples | src/frequenz/sdk/actor/_power_managing/_power_managing_actor.py:219-223 | the documented table: −100..100 shifted by 70 is −170..30, and by −50 is −50..150 |
| PowerManagingActor.CombineTargets | src/frequenz/sdk/actor/_power_managing/_power_managing_actor.py:315-319 | the sum when both are present, the present one otherwise, none when neither is |
| PowerManagingActor.CombineTargetsAsSum | src/frequenz/sdk/actor/_power_managing/_power_managing_actor.py:315-319 | the combination is the sum with a missing target read as 0, and it is symmetric |
| PowerManagingActor.CombinedTargetWithinSystemBounds | src/frequenz/sdk/actor/_power_managing/_power_managing_actor.py:300-319 | a shifting target inside the remaining bounds gives a total inside the system bounds |
| BatteryStatus.NewBlockingStatus | src/frequenz/sdk/microgrid/_battery/_status.py:55-61 | a new blocking status is unblocked, with the last duration at the minimum |
| BatteryStatus.Block | src/frequenz/sdk/microgrid/_battery/_status.py:63-92 | the first block uses the minimum; a still-running block changes nothing and returns 0; an expired block doubles the last duration, capped at the maximum |
| BatteryStatus.Unblock | src/frequenz/sdk/microgrid/_battery/_status.py:94-101 | unblocks and keeps the durations |
| BatteryStatus.IsBlocked | src/frequenz/sdk/microgrid/_battery/_status.py:103-113 | blocked exactly while the block end lies strictly after `now`; see BlockThenBlocked |
| BatteryStatus.BlockThenBlocked | src/frequenz/sdk/microgrid/_battery/_status.py:63-113 | after a block with positive duration the battery is blocked; blocking a blocked battery changes nothing; after unblocking it is not blocked |
| BatteryStatus.BlockKeepsDurationInRange | src/frequenz/sdk/microgrid/_battery/_status.py:63-101 | the last duration stays between the minimum and the maximum |
| BatteryStatus.DurationsAfterExpiry | src/frequenz/sdk/microgrid/_battery/_status.py:85-92 | repeated expired blocks give min·2^k capped at max |
| BatteryStatus.BlockingBackoff | src/frequenz/sdk/microgrid/_battery/_status.py:63-92 | from unblocked, the i-th block lasts min·2^i capped at max |
| BatteryStatus.BlockingBackoffExample | tests/actor/test_battery_status.py:428-451 | with 1 s and 30 s the blocks last 1, 2, 4, 8, 16, 30, 30 seconds |
| BatteryStatus.OlderTimestamp | src/frequenz/sdk/microgrid/_battery/_status.py:377-397 | the older of the battery and inverter timestamps |
| BatteryStatus.OlderMessageDecides | src/frequenz/sdk/microgrid/_battery/_status.py:377-397 | data is fresh exactly when both messages are fresh |
| BatteryStatus.NoCriticalError | src/frequenz/sdk/microgrid/_battery/_status.py:299-319 | no error of critical level is reported |
| BatteryStatus.IsInverterStateCorrect | src/frequenz/sdk/microgrid/_battery/_status.py:321-341 | the inverter is in standby, idle or charging |
| BatteryStatus.IsBatteryStateCorrect | src/frequenz/sdk/microgrid/_battery/_status.py:343-375 | the battery is idle, charging or discharging, with its relay closed |
| BatteryStatus.IsMessageReliable | src/frequenz/sdk/microgrid/_battery/_status.py:377-397 | a message is reliable unless it is strictly older than the maximum data age |
| BatteryStatus.IsMsgOk | src/frequenz/sdk/microgrid/_battery/_status.py:226-233 | the older message is reliable, both states are correct and neither component reports a critical error; see UsableMeansValid |
| BatteryStatus.NewTracker | src/frequenz/sdk/microgrid/_battery/_status.py:149-189 | a tracker starts working, with blocking from 1 s up to the maximum |
| BatteryStatus.GetCurrentStatus | src/frequenz/sdk/microgrid/_battery/_status.py:239-258 | bad data means not working; recovery unblocks and is working; otherwise uncertain exactly while blocked |
| BatteryStatus.GetStatus | src/frequenz/sdk/microgrid/_battery/_status.py:200-237 | not working exactly when a message is missing or fails a check; uncertain only while blocked; the status is remembered; blocking changes exactly on a recovery from not working to working, by unblocking, and is otherwise kept |
| BatteryStatus.UsableMeansValid | src/frequenz/sdk/microgrid/_battery/_status.py:299-375 | a usable battery has fresh data from both, valid battery and inverter states, a closed relay and no critical error |
| ComponentStatus.GetWorkingComponents | src/frequenz/sdk/actor/power_distributing/_component_status.py:21-33 | the working ones among the requested if any, else the uncertain ones |
| ComponentStatus.GetWorkingComponentsPrefersWorking | src/frequenz/sdk/actor/power_distributing/_component_status.py:30-33 | a requested working component is always returned; an uncertain one only when none is working |
| ComponentStatus.InitialPoolStatus | src/frequenz/sdk/actor/power_distributing/_component_pool_status_tracker.py:57-59 | the pool starts with nothing working or uncertain |
| ComponentStatus.UpdateStatus | src/frequenz/sdk/actor/power_distributing/_component_pool_status_tracker.py:116-129 | the component moves to the set of its new status; every other component keeps its place; working and uncertain stay disjoint |
| ComponentStatus.ApplyEventsFollowsLastEvent | src/frequenz/sdk/actor/power_distributing/_component_pool_status_tracker.py:116-129 | after any stream of events a component is working (or uncertain) exactly when its last event said so |
| ComponentStatus.TrackerUpdate | src/frequenz/sdk/actor/power_distributing/_component_pool_status_tracker.py:116-129 | the tracker applies the update and publishes the new pool status |
| ComponentStatus.NewPoolTracker | src/frequenz/sdk/actor/power_distributing/_component_pool_status_tracker.py:28-59 | a tracker watches the given components and starts from the empty pool status |
| ComponentStatus.TrackerGetWorkingComponents | src/frequenz/sdk/actor/power_distributing/_component_pool_status_tracker.py:149-158 | delegates to the pool status, and is a subset of the request |
| ComponentStatus.NewTrackerHasNoWorking | src/frequenz/sdk/actor/power_distributing/_component_pool_status_tracker.py:57-59 | a fresh tracker reports no usable components |
| BaseTypes.SampleOrderIgnoresValue | src/frequenz/sdk/timeseries/_base_types.py:22-34 | samples compare by timestamp only |
| BaseTypes.Phases | src/frequenz/sdk/timeseries/_base_types.py:58-66 | iteration yields the three phases in order |
| BaseTypes.Max | src/frequenz/sdk/timeseries/_base_types.py:76-91 | as written: the largest non-zero phase, or the default when no phase is non-zero |
| BaseTypes.Min | src/frequenz/sdk/timeseries/_base_types.py:101-116 | as written: the smallest non-zero phase, or the default |
| BaseTypes.MaxCorrected | src/frequenz/sdk/timeseries/_base_types.py:76-91 | the largest present phase, or the default when none is present |
| BaseTypes.MinCorrected | src/frequenz/sdk/timeseries/_base_types.py:101-116 | the smallest present phase, or the default |
| BaseTypes.MaxMinAgreeWithoutZeros | src/frequenz/sdk/timeseries/_base_types.py:76-116 | without a zero phase, the as-written and corrected max/min agree |
| BaseTypes.MaxSkipsZeroPhase | src/frequenz/sdk/timeseries/_base_types.py:85-91 | the max of (−1, 0, none) is −1 as written and 0 corrected |
| BaseTypes.MinSkipsZeroPhase | src/frequenz/sdk/timeseries/_base_types.py:110-116 | the min of (1, 0, none) is 1 as written and 0 corrected |
| BaseTypes.MaxOfAllZeroIsDefault | src/frequenz/sdk/timeseries/_base_types.py:85-91 | the max of three zero phases is the default as written, and 0 corrected |
| BaseTypes.Map | src/frequenz/sdk/timeseries/_base_types.py:118-138 | each present phase is mapped; a missing phase becomes the default; the timestamp is kept |
| BaseTypes.MapIdentityAndComposition | src/frequenz/sdk/timeseries/_base_types.py:118-138 | mapping the identity changes nothing, and mapping twice is mapping the composition |
| ResamplingConfig.DefaultConfig | src/frequenz/sdk/timeseries/_resampling.py:129-210 | the defaults: max age 3 periods, buffer 16/128/1024, aligned to the epoch |
| ResamplingConfig.ValidateConfig | src/frequenz/sdk/timeseries/_resampling.py:211-254 | accepts exactly the valid configurations, and reports a negative period and a too-small max age |
| ResamplingConfig.DefaultConfigValid | src/frequenz/sdk/timeseries/_resampling.py:129-254 | the defaults are valid exactly for a non-negative period |
| ResamplingConfig.PyMod | src/frequenz/sdk/timeseries/_resampling.py:546 | Python's floored remainder: for a positive divisor it lies in [0, b), for a negative one in (b, 0], and in both cases a − r is a multiple of b |
| ResamplingConfig.CalculateWindowEnd | src/frequenz/sdk/timeseries/_resampling.py:522-558 | one period ahead when unaligned or already aligned; otherwise the aligned end, between one and two periods ahead, with the delay; a zero period fails |
| ResamplingConfig.WindowEndIsAligned | src/frequenz/sdk/timeseries/_resampling.py:522-558 | the window end is a whole number of periods after `align_to` |
| ResamplingConfig.ZeroPeriodAccepted | src/frequenz/sdk/timeseries/_resampling.py:211-254 | a zero period passes validation and then makes the window computation fail |
| ResamplingConfig.ValidateConfigCorrected | src/frequenz/sdk/timeseries/_resampling.py:211-254 | accepts exactly the valid configurations with a positive period |
| ResamplingConfig.CorrectedConfigHasWindowEnd | src/frequenz/sdk/timeseries/_resampling.py:522-558 | every configuration accepted by the corrected check has a window end |
| ResamplingHelper.NewHelper | src/frequenz/sdk/timeseries/_resampling.py:571-581 | an empty buffer of the initial length, with no source properties yet |
| ResamplingHelper.BoundedAppend | src/frequenz/sdk/timeseries/_resampling.py:580 | a bounded deque append keeps the newest `maxlen` samples, ending with the new one |
| ResamplingHelper.AddSample | src/frequenz/sdk/timeseries/_resampling.py:592-601 | the sample is appended, counted, and starts the sampling if first |
| ResamplingHelper.AddSampleKeepsSorted | src/frequenz/sdk/timeseries/_resampling.py:592-601 | appending in time order keeps the buffer sorted |
| ResamplingHelper.UpdateSourceSamplePeriod | src/frequenz/sdk/timeseries/_resampling.py:603-642 | estimates the period only when all conditions hold, once, as elapsed time over samples received; otherwise nothing changes |
| ResamplingHelper.ClampBufferLen | src/frequenz/sdk/timeseries/_resampling.py:675-683 | the length is clamped to between 1 and the maximum |
| ResamplingHelper.WantedBufferLen | src/frequenz/sdk/timeseries/_resampling.py:658-673 | when upsampling, the ceiling of the source period (in seconds) times the maximum age; when downsampling, the ceiling of resampling period over source period times the maximum age |
| ResamplingHelper.UpdateBufferLen | src/frequenz/sdk/timeseries/_resampling.py:644-703 | the new length is the clamped wanted length; it reports a change exactly when the length changed, and resizing keeps the newest samples |
| ResamplingHelper.BisectRight | src/frequenz/sdk/timeseries/_resampling.py:735-739 | a binary search that stays within the searched range; see BisectRightCorrect |
| ResamplingHelper.BisectRightCorrect | src/frequenz/sdk/timeseries/_resampling.py:735-747 | bisect_right on a time-sorted buffer splits it at the given time |
| ResamplingHelper.RelevancePeriod | src/frequenz/sdk/timeseries/_resampling.py:725-733 | the larger of the resampling period and the source's sampling period |
| ResamplingHelper.RelevantSamples | src/frequenz/sdk/timeseries/_resampling.py:734-747 | the buffer between the split points of the threshold and the timestamp; see RelevantSamplesWindow |
| ResamplingHelper.RelevantSamplesWindow | src/frequenz/sdk/timeseries/_resampling.py:735-747 | the relevant samples are a contiguous slice: exactly those after the threshold and at or before the timestamp |
| ResamplingHelper.Resample | src/frequenz/sdk/timeseries/_resampling.py:705-755 | the buffer is resized only when the period estimate is made at this call, to the length the resize computes, keeping the newest samples; name and configuration are kept; the sample is stamped with the window end; no value iff no sample is relevant, else the function over exactly the relevant samples |
| Resampler.NewResampler | src/frequenz/sdk/timeseries/_resampling.py:361-395 | no sources, and the first window end when it can be computed |
| Resampler.AddTimeseries | src/frequenz/sdk/timeseries/_resampling.py:421-441 | a known source is refused and nothing changes; a new one gets a fresh helper |
| Resampler.RemoveTimeseries | src/frequenz/sdk/timeseries/_resampling.py:443-458 | succeeds exactly for a known source, dropping only that source |
| Resampler.AddRemoveRoundTrip | src/frequenz/sdk/timeseries/_resampling.py:421-458 | adding a new source and removing it restores the resampler |
| IngestionResampler.NewMetricResampler | src/frequenz/sdk/timeseries/resampler.py:27-46 | a metric resampler starts with an empty buffer |
| IngestionResampler.AddSample | src/frequenz/sdk/data_ingestion/resampling/component_metric_resampler.py:49-55 | appends one sample at the end and leaves the earlier ones untouched |
| IngestionResampler.DropOutdated | src/frequenz/sdk/data_ingestion/resampling/component_metric_resampler.py:57-79 | reference definition of pruning: outdated samples are dropped from the front up to the first fresh one; the loop and the lemmas below are checked against it |
| IngestionResampler.RemoveOutdatedSamples | src/frequenz/sdk/data_ingestion/resampling/component_metric_resampler.py:57-79 | drops the outdated prefix and stops at the first fresh sample; the rest is a suffix |
| IngestionResampler.DropOutdatedIsSuffix | src/frequenz/sdk/timeseries/resampler.py:56-78 | only outdated samples are removed, and only from the front |
| IngestionResampler.DropOutdatedOnSorted | src/frequenz/sdk/timeseries/resampler.py:56-78 | on a time-sorted buffer, exactly the fresh samples remain |
| IngestionResampler.DropOutdatedIdempotent | src/frequenz/sdk/timeseries/resampler.py:56-78 | pruning twice is pruning once |
| IngestionResampler.Threshold | src/frequenz/sdk/timeseries/resampler.py:90-92 | `now` minus the maximum age in microseconds |
| IngestionResampler.Resample | src/frequenz/sdk/data_ingestion/resampling/component_metric_resampler.py:81-97 | prunes with the threshold; no value iff nothing remains, else the function over exactly the remaining samples |
| IngestionResampler.NewGroup | src/frequenz/sdk/timeseries/resampler.py:102-124 | a group starts with no resamplers |
| IngestionResampler.AddTimeSeries | src/frequenz/sdk/data_ingestion/resampling/component_metric_group_resampler.py:49-65 | a known id is a no-op; a new id gets a fresh resampler |
| IngestionResampler.AddTimeSeriesIdempotent | src/frequenz/sdk/timeseries/resampler.py:126-142 | adding an id twice is adding it once |
| IngestionResampler.RemoveTimeseries | src/frequenz/sdk/data_ingestion/resampling/component_metric_group_resampler.py:67-81 | an unknown id is a key error; a known one deletes only that entry |
| IngestionResampler.GroupAddSample | src/frequenz/sdk/data_ingestion/resampling/component_metric_group_resampler.py:83-98 | the sample goes to the named series only; an unknown id is a key error |
| IngestionResampler.AddRemoveRoundTrip | src/frequenz/sdk/timeseries/resampler.py:126-158 | adding a new id and removing it restores the group |
| IngestionResampler.ResampleOne | src/frequenz/sdk/timeseries/resampler.py:80-96 | one series' sample at `now`, with its pruned buffer |
| IngestionResampler.GroupResample | src/frequenz/sdk/data_ingestion/resampling/component_metric_group_resampler.py:100-108 | exactly one sample per registered id, all stamped `now` |
| Components.Successors | src/frequenz/sdk/timeseries/_formula_engine/_formula_generators/_grid_current_formula.py:41-45 | exactly the components the given one connects to |
| Components.Predecessors | src/frequenz/sdk/timeseries/_formula_engine/_formula_generators/_battery_power_formula.py:59-63 | exactly the components connecting to the given one |
| Components.OfCategory | src/frequenz/sdk/timeseries/grid.py:65-69 | exactly the components of the category; empty iff there are none |
| Components.FirstOfCategory | src/frequenz/sdk/timeseries/_formula_engine/_formula_generators/_grid_current_formula.py:27-39 | the first component of the category, or none iff there is none |
| Grid.Initialize | src/frequenz/sdk/timeseries/grid.py:44-97 | no grid point keeps the stored grid; more than one is an error with the count; exactly one installs its fuse or reports the missing metadata or fuse |
| Grid.AfterInitialize | src/frequenz/sdk/timeseries/grid.py:44-97 | the stored grid is unchanged when initialization fails |
| Grid.Get | src/frequenz/sdk/timeseries/grid.py:100-109 | returns what is stored |
| Grid.InitializeIdempotent | src/frequenz/sdk/timeseries/grid.py:44-97 | initializing twice with the same components is initializing once |
| Grid.InitializeForgetsPrior | src/frequenz/sdk/timeseries/grid.py:77-97 | with a grid point present, the result does not depend on what was stored |
| Grid.InitializeExamples | tests/microgrid/test_grid.py:15-65 | island gives none; two grid points give an error and keep none; one fused grid point gives its fuse |
| FormulaGenerators.Join | src/frequenz/sdk/timeseries/_formula_engine/_formula_generators/_ev_charger_power_formula.py:41-45 | n operands give 2n−1 tokens: operands at even places, "+" at odd places |
| FormulaGenerators.JoinOperandsRoundTrip | src/frequenz/sdk/timeseries/_formula_engine/_formula_generators/_ev_charger_power_formula.py:41-45 | parsing a joined sum gives back its operands |
| FormulaGenerators.OperandsJoinRoundTrip | src/frequenz/sdk/timeseries/_formula_engine/_formula_generators/_ev_charger_power_formula.py:41-45 | every well-formed sum is the join of its operands |
| FormulaGenerators.SumFormula | src/frequenz/sdk/timeseries/_formula_engine/_formula_generators/_ev_charger_current_formula.py:69-83 | a formula whose operands are exactly the given components' metrics |
| FormulaGenerators.NonExistingFormula | src/frequenz/sdk/timeseries/_formula_engine/_formula_generators/_ev_charger_power_formula.py:27-39 | a single metric of the non-existing component, with missing values read as zero |
| FormulaGenerators.EvChargerPower | src/frequenz/sdk/timeseries/_formula_engine/_formula_generators/_ev_charger_power_formula.py:18-47 | no chargers give the non-existing formula; otherwise the sum of every charger's active power |
| FormulaGenerators.EvChargerCurrent | src/frequenz/sdk/timeseries/_formula_engine/_formula_generators/_ev_charger_current_formula.py:21-67 | no chargers give three non-existing formulas; otherwise each phase sums that phase's current over every charger |
| FormulaGenerators.EvChargerCurrentSameComponents | src/frequenz/sdk/timeseries/_formula_engine/_formula_generators/_ev_charger_current_formula.py:48-67 | the three phase formulas range over the same chargers, in order |
| FormulaGenerators.SuccessorMetric | src/frequenz/sdk/timeseries/_formula_engine/_formula_generators/_grid_current_formula.py:77-89 | inverters and EV chargers read missing values as zero, meters do not, and other components contribute nothing |
| FormulaGenerators.MetricTokensAppend | src/frequenz/sdk/timeseries/_formula_engine/_formula_generators/_grid_current_formula.py:58-91 | metric and "+" counts split over concatenation |
| FormulaGenerators.GridPhaseTokensMetrics | src/frequenz/sdk/timeseries/_formula_engine/_formula_generators/_grid_current_formula.py:58-91 | as written: the metrics are exactly those of the contributing successors |
| FormulaGenerators.GridPhaseTokensPluses | src/frequenz/sdk/timeseries/_formula_engine/_formula_generators/_grid_current_formula.py:67-69 | as written: one "+" per successor after the first, contributing or not |
| FormulaGenerators.GridPhaseDanglingPlus | src/frequenz/sdk/timeseries/_formula_engine/_formula_generators/_grid_current_formula.py:67-89 | a meter then a battery give a metric and a dangling "+" as written, and the single metric corrected |
| FormulaGenerators.GridPhaseTokensCorrected | src/frequenz/sdk/timeseries/_formula_engine/_formula_generators/_grid_current_formula.py:58-91 | a well-formed sum of exactly the contributing successors, with one "+" fewer than operands |
| FormulaGenerators.GridPhaseAgreesWhenAllContribute | src/frequenz/sdk/timeseries/_formula_engine/_formula_generators/_grid_current_formula.py:58-91 | when every successor contributes, the as-written and corrected formulas agree |
| FormulaGenerators.GridCurrent | src/frequenz/sdk/timeseries/_formula_engine/_formula_generators/_grid_current_formula.py:17-56 | fails with component-not-found iff there is no grid point; otherwise one formula per phase over the first grid point's successors |
| FormulaGenerators.GridCurrentCorrected | src/frequenz/sdk/timeseries/_formula_engine/_formula_generators/_grid_current_formula.py:17-56 | fails exactly as the original, and every phase with a contributing successor is well formed |
| FormulaGenerators.FirstPredecessors | src/frequenz/sdk/timeseries/_formula_engine/_formula_generators/_battery_power_formula.py:59-63 | each battery's first predecessor, or none iff some battery has no predecessor |
| FormulaGenerators.BatteryPower | src/frequenz/sdk/timeseries/_formula_engine/_formula_generators/_battery_power_formula.py:23-75 | as written: no batteries give the non-existing formula; a battery without a predecessor fails with a stop-iteration error; otherwise the sum of the first predecessors' power |
| FormulaGenerators.BatteryPowerNeverReportsNotFound | src/frequenz/sdk/timeseries/_formula_engine/_formula_generators/_battery_power_formula.py:59-68 | the as-written generator never reports component-not-found; a lone battery gives the stop-iteration error |
| FormulaGenerators.BatteryPowerCorrected | src/frequenz/sdk/timeseries/_formula_engine/_formula_generators/_battery_power_formula.py:23-75 | component-not-found iff some battery has no predecessor; a generation error iff some first predecessor is not an inverter; on success, each operand is an inverter feeding its battery |
| FormulaGenerators.BatteryPowerAgreesWithInverters | src/frequenz/sdk/timeseries/_formula_engine/_formula_generators/_battery_power_formula.py:23-75 | when every battery is fed by an inverter, the two versions agree and succeed |

`ResamplingHelper`'s operations require `Valid(h)`. This is the invariant every helper reachable from `NewHelper` keeps, and each operation re-establishes it in its `ensures`. It is not an extra demand on callers.

## Left out

- Actors, channels, async receivers, timers, logging and the channel registry: only the decisions they drive are modelled, with messages and clock readings as parameters.
- Floating point: power, values and periods are reals, so NaN, infinities and rounding are not modelled.
- The text of a report channel name: it is modelled as the (battery ids, priority) pair the text is built from.
- The value of the non-existing component id: it is a distinct reference, `NonExisting`.
- The `SortedSet` behind each bucket (`_sorted_set.py`) is not part of this model. A bucket is a sequence sorted by proposal order, holding one proposal per source; a re-proposal from the same source replaces the earlier one.
- Python set and dict iteration order: each is a sequence or a map in the model.
- `max_proposal_age` and the expiry of old proposals in the actor, and the actor's routing between the shifting and non-shifting groups beyond combining their targets.
- The naive-datetime check in `_resampling.py` and the timer start-up delay workaround (`_resampling.py:390-395`).
- The resampler's per-source clock reads in `timeseries/resampler.py`: one `now` is shared by the whole group.
- The battery status tracker's inverter lookup, stream handling and forwarding of power-distribution results: only the status decision is modelled.
- Protocol enum codes of component states, relay states and error levels: the model uses the named cases only.
- The formula builder and formula engine, the formula engine pool and its UUID namespaces: formulas are token sequences.
- Resampling functions such as the average: any function is a parameter.
- ResamplingHelper.UpdateBufferLen: the wanted length uses an exact real ceiling instead of a floating-point one.
- Matryoshka.WalkTargetWithin, Matryoshka.WalkTargetInside, Matryoshka.CalcTargetPowerWithinSystemBounds, Matryoshka.WalkTargetLowestWins, Matryoshka.CalcTargetPowerLowestPriorityWins, Matryoshka.WalkTargetClosest, Matryoshka.CalcTargetPowerClosest, Matryoshka.WalkStatusNarrows, Matryoshka.GetStatusNested, Matryoshka.WalkStatusAbove and Matryoshka.GetStatusReportsHigherBounds are proved only without an exclusion zone: with a zone, trimming can collapse the interval to (0, 0) outside the current bounds, so these whole-walk properties do not hold in that form; only the single-step clamp and trim properties are proved with a zone.
- Matryoshka.GetStatusReportsHigherBounds: when the higher-priority proposals leave an empty intersection, the walk stops early with the bounds reached so far; that case is stated for the test-suite example only (Matryoshka.WalkStatusExample), not in general.
- Matryoshka.GetStatus: the `distribution_result` that `get_status` copies into the report is not modelled; a report holds the target and the bounds only.
- Power truthiness: the quantity classes (`_quantities.py`) are not part of this model. A present preferred power or bound is always used, including a value of zero.
- ResamplingHelper.Resample: the resampling function is a parameter, so only the samples handed to it are specified, not its value.

## Findings

| source | as written | input that shows it | evidently intended | confidence | as-written member | corrected member |
|---|---|---|---|---|---|---|
| src/frequenz/sdk/timeseries/_base_types.py:85-91 | `max`/`min` keep a phase only if it is truthy, so a phase of 0.0 is skipped like a missing one | phases (−1.0, 0.0, None): max is −1.0; three zero phases give the default | only missing phases are skipped, so max is 0.0 | not executed | BaseTypes.MaxSkipsZeroPhase | BaseTypes.MaxCorrected |
| src/frequenz/sdk/timeseries/_resampling.py:211-254 | the configuration refuses only a negative period, but the window-end computation takes a remainder modulo the period | period 0 with the default `align_to` (the epoch) is accepted, then the remainder divides by zero | a zero period is refused | not executed | ResamplingConfig.ZeroPeriodAccepted | ResamplingConfig.ValidateConfigCorrected |
| src/frequenz/sdk/timeseries/_formula_engine/_formula_generators/_grid_current_formula.py:67-89 | "+" is pushed before each successor after the first, even one whose category adds no metric | a grid point with a meter and then a battery as successors gives `meter +` | "+" only between contributing metrics | not executed | FormulaGenerators.GridPhaseDanglingPlus | FormulaGenerators.GridPhaseTokensCorrected |
| src/frequenz/sdk/timeseries/_formula_engine/_formula_generators/_battery_power_formula.py:59-68 | `next(iter(...))` inside a generator expression raises StopIteration for a battery with no predecessor, so the ComponentNotFound check after it cannot fire | one battery, id 7, with no connections | ComponentNotFound for a battery with no inverter | not executed | FormulaGenerators.BatteryPowerNeverReportsNotFound | FormulaGenerators.BatteryPowerCorrected |

=== FILE: base_types.dfy ===
/** Timestamped samples: the single-value `Sample`, ordered by timestamp
    alone, and the three-phase `Sample3Phase` with its per-phase reductions.
    Timestamps are integers in microseconds since the UNIX epoch. */
module BaseTypes {
  import opened Wrappers

  type Time = int

  /** The UNIX epoch. */
  const UnixEpoch: Time := 0

  datatype Sample = Sample(timestamp: Time, value: Option<real>)

  /** Equality of samples as the dataclass defines it: the value takes no part. */
  predicate SampleEq(a: Sample, b: Sample) {
    a.timestamp == b.timestamp
  }

  /** The dataclass ordering: by timestamp only. */
  predicate SampleLess(a: Sample, b: Sample) {
    a.timestamp < b.timestamp
  }

  /** Samples are totally preordered by timestamp: exactly one of less,
      equal, greater holds, whatever their values. */
  lemma SampleOrderIgnoresValue(a: Sample, b: Sample)
    ensures SampleEq(a, b) <==> a.timestamp == b.timestamp
    ensures SampleEq(a, b) ==> !SampleLess(a, b) && !SampleLess(b, a)
    ensures !SampleEq(a, b) ==> SampleLess(a, b) != SampleLess(b, a)
    ensures forall v :: SampleEq(a, a.(value := v)) && !SampleLess(a, a.(value := v))
  {
  }

  // ---------------------------------------------------------------------
  // Three-phase samples

  datatype Sample3Phase = Sample3Phase(
    timestamp: Time,
    valueP1: Option<real>,
    valueP2: Option<real>,
    valueP3: Option<real>)

  /** The phases in order p1, p2, p3. */
  function Phases(s: Sample3Phase): (r: seq<Option<real>>)
    ensures |r| == 3
    ensures r[0] == s.valueP1 && r[1] == s.valueP2 && r[2] == s.valueP3
  {
    [s.valueP1, s.valueP2, s.valueP3]
  }

  /** Python truthiness of an optional float: present and non-zero. */
  predicate Truthy(v: Option<real>) {
    v.Some? && v.value != 0.0
  }

  /** Python's filtering of falsy values: the truthy values, in order. */
  function FilterTruthy(vs: seq<Option<real>>): (r: seq<real>)
    ensures forall x :: x in r <==> Some(x) in vs && x != 0.0
    ensures |r| == 0 <==> forall i :: 0 <= i < |vs| ==> !Truthy(vs[i])
  {
    if |vs| == 0 then []
    else (if Truthy(vs[0]) then [vs[0].value] else []) + FilterTruthy(vs[1..])
  }

  /** The present values, in order. */
  function FilterPresent(vs: seq<Option<real>>): (r: seq<real>)
    ensures forall x :: x in r <==> Some(x) in vs
    ensures |r| == 0 <==> forall i :: 0 <= i < |vs| ==> vs[i].None?
  {
    if |vs| == 0 then []
    else (if vs[0].Some? then [vs[0].value] else []) + FilterPresent(vs[1..])
  }

  /** A left fold that keeps the larger of the accumulator and each value;
      on a tie the later value is kept. */
  function ReduceMax(xs: seq<real>): (r: real)
    requires |xs| > 0
    ensures r in xs && forall x :: x in xs ==> x <= r
  {
    assert xs == [xs[0]] + xs[1..];
    ReduceMaxFrom(xs[0], xs[1..])
  }

  function ReduceMaxFrom(acc: real, xs: seq<real>): (r: real)
    ensures r == acc || r in xs
    ensures acc <= r && forall x :: x in xs ==> x <= r
    decreases |xs|
  {
    if |xs| == 0 then acc
    else
      assert xs == [xs[0]] + xs[1..];
      ReduceMaxFrom(if acc > xs[0] then acc else xs[0], xs[1..])
  }

  /** A left fold that keeps the smaller of the accumulator and each value;
      on a tie the later value is kept. */
  function ReduceMin(xs: seq<real>): (r: real)
    requires |xs| > 0
    ensures r in xs && forall x :: x in xs ==> r <= x
  {
    assert xs == [xs[0]] + xs[1..];
    ReduceMinFrom(xs[0], xs[1..])
  }

  function ReduceMinFrom(acc: real, xs: seq<real>): (r: real)
    ensures r == acc || r in xs
    ensures r <= acc && forall x :: x in xs ==> r <= x
    decreases |xs|
  {
    if |xs| == 0 then acc
    else
      assert xs == [xs[0]] + xs[1..];
      ReduceMinFrom(if acc < xs[0] then acc else xs[0], xs[1..])
  }

  /** `Sample3Phase.max` as written: `default` unless some phase is truthy,
      otherwise the largest truthy phase.  A zero phase is skipped. */
  function Max(s: Sample3Phase, default: Option<real>): (r: Option<real>)
    ensures (forall i :: 0 <= i < 3 ==> !Truthy(Phases(s)[i])) ==> r == default
    ensures (exists i :: 0 <= i < 3 && Truthy(Phases(s)[i])) ==>
              r.Some? && Truthy(Some(r.value)) && Some(r.value) in Phases(s)
              && forall i :: 0 <= i < 3 && Truthy(Phases(s)[i]) ==> Phases(s)[i].value <= r.value
  {
    var truthy := FilterTruthy(Phases(s));
    if |truthy| == 0 then default
    else
      var m := ReduceMax(truthy);
      assert forall i :: 0 <= i < 3 && Truthy(Phases(s)[i]) ==> Phases(s)[i].value in truthy;
      Some(m)
  }

  /** `Sample3Phase.min` as written, symmetric to `Max`. */
  function Min(s: Sample3Phase, default: Option<real>): (r: Option<real>)
    ensures (forall i :: 0 <= i < 3 ==> !Truthy(Phases(s)[i])) ==> r == default
    ensures (exists i :: 0 <= i < 3 && Truthy(Phases(s)[i])) ==>
              r.Some? && Truthy(Some(r.value)) && Some(r.value) in Phases(s)
              && forall i :: 0 <= i < 3 && Truthy(Phases(s)[i]) ==> r.value <= Phases(s)[i].value
  {
    var truthy := FilterTruthy(Phases(s));
    if |truthy| == 0 then default
    else
      var m := ReduceMin(truthy);
      assert forall i :: 0 <= i < 3 && Truthy(Phases(s)[i]) ==> Phases(s)[i].value in truthy;
      Some(m)
  }

  /** The documented meaning of `max`: the largest present phase, `default`
      only when every phase is absent. */
  function MaxCorrected(s: Sample3Phase, default: Option<real>): (r: Option<real>)
    ensures (forall i :: 0 <= i < 3 ==> Phases(s)[i].None?) ==> r == default
    ensures (exists i :: 0 <= i < 3 && Phases(s)[i].Some?) ==>
              r.Some? && Some(r.value) in Phases(s)
              && forall i :: 0 <= i < 3 && Phases(s)[i].Some? ==> Phases(s)[i].value <= r.value
  {
    var present := FilterPresent(Phases(s));
    if |present| == 0 then default
    else
      assert forall i :: 0 <= i < 3 && Phases(s)[i].Some? ==> Phases(s)[i].value in present;
      Some(ReduceMax(present))
  }

  /** The documented meaning of `min`: the smallest present phase. */
  function MinCorrected(s: Sample3Phase, default: Option<real>): (r: Option<real>)
    ensures (forall i :: 0 <= i < 3 ==> Phases(s)[i].None?) ==> r == default
    ensures (exists i :: 0 <= i < 3 && Phases(s)[i].Some?) ==>
              r.Some? && Some(r.value) in Phases(s)
              && forall i :: 0 <= i < 3 && Phases(s)[i].Some? ==> r.value <= Phases(s)[i].value
  {
    var present := FilterPresent(Phases(s));
    if |present| == 0 then default
    else
      assert forall i :: 0 <= i < 3 && Phases(s)[i].Some? ==> Phases(s)[i].value in present;
      Some(ReduceMin(present))
  }

  /** Without a zero value, keeping the truthy values keeps the present ones. */
  lemma {:induction false} FilterTruthyIsFilterPresent(vs: seq<Option<real>>)
    requires forall i :: 0 <= i < |vs| ==> vs[i] != Some(0.0)
    ensures FilterTruthy(vs) == FilterPresent(vs)
    decreases |vs|
  {
    if |vs| > 0 {
      assert vs[0] != Some(0.0);
      FilterTruthyIsFilterPresent(vs[1..]);
    }
  }

  /** When no phase is exactly zero, the code as written and the documented
      meaning agree. */
  lemma MaxMinAgreeWithoutZeros(s: Sample3Phase, default: Option<real>)
    requires forall i :: 0 <= i < 3 ==> Phases(s)[i] != Some(0.0)
    ensures Max(s, default) == MaxCorrected(s, default)
    ensures Min(s, default) == MinCorrected(s, default)
  {
    FilterTruthyIsFilterPresent(Phases(s));
  }

  /** A zero phase is treated as missing: the maximum of (-1, 0, absent)
      comes out as -1 instead of 0. */
  lemma MaxSkipsZeroPhase()
    ensures Max(Sample3Phase(0, Some(-1.0), Some(0.0), None), None) == Some(-1.0)
    ensures MaxCorrected(Sample3Phase(0, Some(-1.0), Some(0.0), None), None) == Some(0.0)
  {
    var ps := Phases(Sample3Phase(0, Some(-1.0), Some(0.0), None));
    assert ps == [Some(-1.0), Some(0.0), None];
    assert ps[1..][1..] == [None];
    assert FilterTruthy(ps) == [-1.0];
    assert ReduceMax([-1.0]) == ReduceMaxFrom(-1.0, []);
    assert FilterPresent(ps) == [-1.0, 0.0];
    assert ReduceMax([-1.0, 0.0]) == ReduceMaxFrom(-1.0, [0.0]) == ReduceMaxFrom(0.0, []);
  }

  /** Likewise the minimum of (1, 0, absent) comes out as 1 instead of 0. */
  lemma MinSkipsZeroPhase()
    ensures Min(Sample3Phase(0, Some(1.0), Some(0.0), None), None) == Some(1.0)
    ensures MinCorrected(Sample3Phase(0, Some(1.0), Some(0.0), None), None) == Some(0.0)
  {
    var ps := Phases(Sample3Phase(0, Some(1.0), Some(0.0), None));
    assert ps == [Some(1.0), Some(0.0), None];
    assert ps[1..][1..] == [None];
    assert FilterTruthy(ps) == [1.0];
    assert ReduceMin([1.0]) == ReduceMinFrom(1.0, []);
    assert FilterPresent(ps) == [1.0, 0.0];
    assert ReduceMin([1.0, 0.0]) == ReduceMinFrom(1.0, [0.0]) == ReduceMinFrom(0.0, []);
  }

  /** An all-zero sample has no maximum at all as written. */
  lemma MaxOfAllZeroIsDefault()
    ensures Max(Sample3Phase(0, Some(0.0), Some(0.0), Some(0.0)), None) == None
    ensures MaxCorrected(Sample3Phase(0, Some(0.0), Some(0.0), Some(0.0)), None) == Some(0.0)
  {
  }

  /** `Sample3Phase.map`: the timestamp is kept, present phases are mapped
      and absent ones replaced by `default`. */
  function Map(s: Sample3Phase, f: real -> real, default: Option<real>): (r: Sample3Phase)
    ensures r.timestamp == s.timestamp
    ensures forall i :: 0 <= i < 3 ==>
              Phases(r)[i] == (if Phases(s)[i].Some? then Some(f(Phases(s)[i].value)) else default)
  {
    Sample3Phase(
      s.timestamp,
      if s.valueP1.None? then default else Some(f(s.valueP1.value)),
      if s.valueP2.None? then default else Some(f(s.valueP2.value)),
      if s.valueP3.None? then default else Some(f(s.valueP3.value)))
  }

  /** Mapping the identity with no default gives the sample back; mapping
      twice (with no default) is mapping the composition. */
  lemma MapIdentityAndComposition(s: Sample3Phase, f: real -> real, g: real -> real)
    ensures Map(s, x => x, None) == s
    ensures Map(Map(s, f, None), g, None) == Map(s, x => g(f(x)), None)
  {
  }
}

=== FILE: battery_status.dfy ===
/** Whether a battery can be used: a blocking timer with exponential backoff
    and a three-valued status derived from the latest battery and inverter
    messages.  Time and durations are integers in microseconds; the clock is
    passed in as `now`. */
module BatteryStatus {
  import opened Wrappers

  type Time = int

  datatype Status = NotWorking | Uncertain | Working

  // ---------------------------------------------------------------------
  // Blocking with exponential backoff

  datatype BlockingStatus = BlockingStatus(
    minDuration: nat,
    maxDuration: nat,
    lastDuration: nat,
    blockedUntil: Option<Time>)

  /** A fresh blocking status: not blocked, the next block lasts `minDuration`. */
  function NewBlockingStatus(minDuration: nat, maxDuration: nat): (s: BlockingStatus)
    ensures s.blockedUntil.None? && s.lastDuration == minDuration
    ensures s.minDuration == minDuration && s.maxDuration == maxDuration
  {
    BlockingStatus(minDuration, maxDuration, minDuration, None)
  }

  /** Block the battery at `now`; returns the new status and how long the
      battery is blocked (zero when it already was). */
  function Block(s: BlockingStatus, now: Time): (r: (BlockingStatus, nat))
    // First block: the minimum duration.
    ensures s.blockedUntil.None? ==>
              r.1 == s.minDuration && r.0.lastDuration == s.minDuration
              && r.0.blockedUntil == Some(now + s.minDuration)
    // Still blocked: nothing changes.
    ensures s.blockedUntil.Some? && s.blockedUntil.value > now ==> r == (s, 0)
    // Expired: twice the previous duration, capped at the maximum.
    ensures s.blockedUntil.Some? && s.blockedUntil.value <= now ==>
              r.1 == Min(2 * s.lastDuration, s.maxDuration)
              && r.0.lastDuration == r.1 && r.0.blockedUntil == Some(now + r.1)
    ensures r.0.minDuration == s.minDuration && r.0.maxDuration == s.maxDuration
    ensures r.0.blockedUntil.Some?
  {
    if s.blockedUntil.None? then
      (s.(lastDuration := s.minDuration, blockedUntil := Some(now + s.minDuration)), s.minDuration)
    else if s.blockedUntil.value > now then (s, 0)
    else
      var d := if 2 * s.lastDuration <= s.maxDuration then 2 * s.lastDuration else s.maxDuration;
      (s.(lastDuration := d, blockedUntil := Some(now + d)), d)
  }

  /** Unblock; the next block starts again from the minimum duration. */
  function Unblock(s: BlockingStatus): (r: BlockingStatus)
    ensures r.blockedUntil.None?
    ensures r.minDuration == s.minDuration && r.maxDuration == s.maxDuration
    ensures r.lastDuration == s.lastDuration
  {
    s.(blockedUntil := None)
  }

  predicate IsBlocked(s: BlockingStatus, now: Time) {
    s.blockedUntil.Some? && s.blockedUntil.value > now
  }

  /** A block of positive duration makes the battery blocked right away;
      unblocking always clears it. */
  lemma BlockThenBlocked(s: BlockingStatus, now: Time)
    requires s.minDuration > 0
    ensures var r := Block(s, now); r.1 > 0 ==> IsBlocked(r.0, now)
    ensures !IsBlocked(s, now) && s.lastDuration > 0 && s.maxDuration > 0
            ==> IsBlocked(Block(s, now).0, now)
    ensures IsBlocked(s, now) ==> Block(s, now).0 == s
    ensures !IsBlocked(Unblock(s), now)
  {
  }

  /** With `0 <= minDuration <= maxDuration`, a duration never exceeds the
      maximum and never falls below the minimum. */
  ghost predicate DurationInRange(s: BlockingStatus) {
    s.minDuration <= s.lastDuration <= s.maxDuration
  }

  lemma BlockKeepsDurationInRange(s: BlockingStatus, now: Time)
    requires s.minDuration <= s.maxDuration && DurationInRange(s)
    ensures DurationInRange(Block(s, now).0)
    ensures Block(s, now).1 <= s.maxDuration
    ensures DurationInRange(Unblock(s))
  {
  }

  function Pow2(k: nat): (r: nat)
    ensures r >= 1
  {
    if k == 0 then 1 else 2 * Pow2(k - 1)
  }

  /** The duration of the `k`-th consecutive block (counting from zero). */
  function Backoff(minDuration: nat, maxDuration: nat, k: nat): nat {
    Min(minDuration * Pow2(k), maxDuration)
  }

  /** The durations of `k` blocks, each made at the moment the previous one expires. */
  function Durations(s: BlockingStatus, now: Time, k: nat): (r: seq<nat>)
    ensures |r| == k
    decreases k
  {
    if k == 0 then []
    else
      var (s', d) := Block(s, now);
      [d] + Durations(s', s'.blockedUntil.value, k - 1)
  }

  lemma {:induction false} DurationsAfterExpiry(s: BlockingStatus, now: Time, j: nat, k: nat)
    requires s.minDuration <= s.maxDuration
    requires s.blockedUntil == Some(now)
    requires s.lastDuration == Backoff(s.minDuration, s.maxDuration, j)
    ensures forall i :: 0 <= i < k ==>
              Durations(s, now, k)[i] == Backoff(s.minDuration, s.maxDuration, j + 1 + i)
    decreases k
  {
    if k > 0 {
      var (s', d) := Block(s, now);
      assert d == Backoff(s.minDuration, s.maxDuration, j + 1) by {
        assert Pow2(j + 1) == 2 * Pow2(j);
        assert s.minDuration * Pow2(j + 1) == 2 * (s.minDuration * Pow2(j));
      }
      DurationsAfterExpiry(s', s'.blockedUntil.value, j + 1, k - 1);
      var r := Durations(s, now, k);
      assert r == [d] + Durations(s', s'.blockedUntil.value, k - 1);
      forall i | 0 <= i < k
        ensures r[i] == Backoff(s.minDuration, s.maxDuration, j + 1 + i)
      {
        if i > 0 {
          assert r[i] == Durations(s', s'.blockedUntil.value, k - 1)[i - 1];
        }
      }
    }
  }

  /** Exponential backoff: from an unblocked status, the `i`-th block made as
      soon as the previous one expires lasts `min(minDuration * 2^i, maxDuration)`. */
  lemma {:induction false} BlockingBackoff(s: BlockingStatus, now: Time, k: nat)
    requires s.blockedUntil.None? && s.minDuration <= s.maxDuration
    ensures forall i :: 0 <= i < k ==>
              Durations(s, now, k)[i] == Backoff(s.minDuration, s.maxDuration, i)
  {
    if k > 0 {
      var (s', d) := Block(s, now);
      assert d == Backoff(s.minDuration, s.maxDuration, 0);
      DurationsAfterExpiry(s', s'.blockedUntil.value, 0, k - 1);
      var r := Durations(s, now, k);
      forall i | 0 <= i < k
        ensures r[i] == Backoff(s.minDuration, s.maxDuration, i)
      {
        if i > 0 {
          assert r[i] == Durations(s', s'.blockedUntil.value, k - 1)[i - 1];
        }
      }
    }
  }

  const Second: nat := 1_000_000

  /** With a one-second minimum and a thirty-second maximum, seven blocks
      last 1, 2, 4, 8, 16, 30 and 30 seconds. */
  lemma BlockingBackoffExample(now: Time)
    ensures Durations(NewBlockingStatus(Second, 30 * Second), now, 7)
            == [1 * Second, 2 * Second, 4 * Second, 8 * Second, 16 * Second, 30 * Second, 30 * Second]
  {
    var s := NewBlockingStatus(Second, 30 * Second);
    BlockingBackoff(s, now, 7);
    assert Pow2(1) == 2 && Pow2(2) == 4 && Pow2(3) == 8 && Pow2(4) == 16 && Pow2(5) == 32 && Pow2(6) == 64;
  }

  // ---------------------------------------------------------------------
  // Messages and their validity

  datatype BatteryComponentState =
    | BatteryIdle | BatteryCharging | BatteryDischarging
    | BatteryOtherState(code: int)

  datatype BatteryRelayState = RelayClosed | RelayOtherState(code: int)

  datatype InverterComponentState =
    | InverterStandby | InverterIdle | InverterCharging
    | InverterOtherState(code: int)

  datatype ErrorLevel = LevelUnspecified | LevelWarn | LevelCritical

  datatype BatteryMsg = BatteryMsg(
    timestamp: Time,
    state: BatteryComponentState,
    relay: BatteryRelayState,
    errors: seq<ErrorLevel>)

  datatype InverterMsg = InverterMsg(
    timestamp: Time,
    state: InverterComponentState,
    errors: seq<ErrorLevel>)

  predicate NoCriticalError(errors: seq<ErrorLevel>) {
    LevelCritical !in errors
  }

  /** The battery state is one of idle, charging, discharging, and the relay is closed. */
  predicate IsBatteryStateCorrect(m: BatteryMsg) {
    m.state in {BatteryIdle, BatteryCharging, BatteryDischarging} && m.relay == RelayClosed
  }

  predicate IsInverterStateCorrect(m: InverterMsg) {
    m.state in {InverterStandby, InverterIdle, InverterCharging}
  }

  /** A message is reliable unless it is strictly older than `maxDataAge`. */
  predicate IsMessageReliable(timestamp: Time, now: Time, maxDataAge: int) {
    !(now - timestamp > maxDataAge)
  }

  /** The timestamp of the older of the two messages (the inverter's on a tie). */
  function OlderTimestamp(bat: BatteryMsg, inv: InverterMsg): (r: Time)
    ensures r <= bat.timestamp && r <= inv.timestamp
    ensures r == bat.timestamp || r == inv.timestamp
  {
    if bat.timestamp < inv.timestamp then bat.timestamp else inv.timestamp
  }

  /** The combined check of the two messages. */
  predicate IsMsgOk(bat: BatteryMsg, inv: InverterMsg, now: Time, maxDataAge: int) {
    && IsMessageReliable(OlderTimestamp(bat, inv), now, maxDataAge)
    && IsBatteryStateCorrect(bat)
    && IsInverterStateCorrect(inv)
    && NoCriticalError(bat.errors)
    && NoCriticalError(inv.errors)
  }

  /** Checking only the older message is enough: it is reliable exactly when
      both messages are. */
  lemma OlderMessageDecides(bat: BatteryMsg, inv: InverterMsg, now: Time, maxDataAge: int)
    ensures IsMessageReliable(OlderTimestamp(bat, inv), now, maxDataAge)
            <==> IsMessageReliable(bat.timestamp, now, maxDataAge)
                 && IsMessageReliable(inv.timestamp, now, maxDataAge)
  {
  }

  // ---------------------------------------------------------------------
  // The tracker

  datatype Tracker = Tracker(
    lastStatus: Status,
    blocking: BlockingStatus,
    maxDataAge: int)

  /** A new tracker starts as working, with blocks from one second up to
      `maxBlockingDuration`. */
  function NewTracker(maxDataAge: int, maxBlockingDuration: nat): (t: Tracker)
    ensures t.lastStatus == Working && t.maxDataAge == maxDataAge
    ensures t.blocking == NewBlockingStatus(Second, maxBlockingDuration)
  {
    Tracker(Working, NewBlockingStatus(Second, maxBlockingDuration), maxDataAge)
  }

  /** `_get_current_status`: the status for the given message verdict, and
      the blocking status after it (a recovery unblocks). */
  function GetCurrentStatus(t: Tracker, isMsgCorrect: bool, now: Time): (r: (BlockingStatus, Status))
    ensures !isMsgCorrect ==> r == (t.blocking, NotWorking)
    ensures isMsgCorrect && t.lastStatus == NotWorking ==> r == (Unblock(t.blocking), Working)
    ensures isMsgCorrect && t.lastStatus != NotWorking ==>
              r.0 == t.blocking && (r.1 == Uncertain <==> IsBlocked(t.blocking, now))
    ensures r.1 == NotWorking <==> !isMsgCorrect
  {
    if !isMsgCorrect then (t.blocking, NotWorking)
    else if t.lastStatus == NotWorking then (Unblock(t.blocking), Working)
    else if IsBlocked(t.blocking, now) then (t.blocking, Uncertain)
    else (t.blocking, Working)
  }

  /** `get_status`: the status from the latest messages (absent when none
      arrived yet), remembered as the tracker's last status. */
  function GetStatus(t: Tracker, bat: Option<BatteryMsg>, inv: Option<InverterMsg>, now: Time)
    : (r: (Tracker, Status))
    ensures r.0.lastStatus == r.1 && r.0.maxDataAge == t.maxDataAge
    ensures bat.None? || inv.None? ==> r.1 == NotWorking && r.0.blocking == t.blocking
    ensures r.1 == NotWorking <==>
              bat.None? || inv.None? || !IsMsgOk(bat.value, inv.value, now, t.maxDataAge)
    ensures r.1 == Uncertain ==> IsBlocked(t.blocking, now) && t.lastStatus != NotWorking
    ensures r.1 == Working ==> t.lastStatus == NotWorking || !IsBlocked(t.blocking, now)
    // Only a recovery from not working changes the blocking status, by unblocking.
    ensures r.0.blocking == (if r.1 == Working && t.lastStatus == NotWorking then Unblock(t.blocking)
                             else t.blocking)
  {
    if bat.None? || inv.None? then (t.(lastStatus := NotWorking), NotWorking)
    else
      var ok := IsMsgOk(bat.value, inv.value, now, t.maxDataAge);
      var (blocking, status) := GetCurrentStatus(t, ok, now);
      (t.(lastStatus := status, blocking := blocking), status)
  }

  /** A battery reported working or uncertain has both messages, both fresh
      enough, both components in an accepted state and no critical error. */
  lemma UsableMeansValid(t: Tracker, bat: Option<BatteryMsg>, inv: Option<InverterMsg>, now: Time)
    requires GetStatus(t, bat, inv, now).1 != NotWorking
    ensures bat.Some? && inv.Some?
    ensures IsMessageReliable(bat.value.timestamp, now, t.maxDataAge)
    ensures IsMessageReliable(inv.value.timestamp, now, t.maxDataAge)
    ensures bat.value.state in {BatteryIdle, BatteryCharging, BatteryDischarging}
    ensures bat.value.relay == RelayClosed
    ensures inv.value.state in {InverterStandby, InverterIdle, InverterCharging}
    ensures LevelCritical !in bat.value.errors && LevelCritical !in inv.value.errors
  {
    OlderMessageDecides(bat.value, inv.value, now, t.maxDataAge);
  }
}

=== FILE: component_status.dfy ===
/** The working and uncertain components of a pool, and how status events
    from the per-component trackers update them. */
module ComponentStatus {
  import opened Wrappers
  import BatteryStatus

  type Status = BatteryStatus.Status

  datatype ComponentPoolStatus = ComponentPoolStatus(working: set<int>, uncertain: set<int>)

  /** The working components among `components`; only when none of them is
      working, the uncertain ones. */
  function GetWorkingComponents(s: ComponentPoolStatus, components: set<int>): (r: set<int>)
    ensures r <= components
    ensures s.working * components != {} ==> r == s.working * components
    ensures s.working * components == {} ==> r == s.uncertain * components
    ensures r <= s.working || r <= s.uncertain
  {
    var working := s.working * components;
    if |working| > 0 then working else s.uncertain * components
  }

  /** The choice prefers working components: an uncertain one is returned
      only when no requested component is working, and a working one is
      never left out. */
  lemma GetWorkingComponentsPrefersWorking(s: ComponentPoolStatus, components: set<int>, c: int)
    ensures c in components && c in s.working ==> c in GetWorkingComponents(s, components)
    ensures c in GetWorkingComponents(s, components) && c !in s.working
            ==> c in s.uncertain && forall w :: w in components ==> w !in s.working
  {
    if c in components && c in s.working {
      assert c in s.working * components;
    }
    if s.working * components == {} {
      forall w | w in components ensures w !in s.working {
        assert w !in s.working * components;
      }
    }
  }

  // ---------------------------------------------------------------------
  // The pool tracker

  datatype StatusEvent = StatusEvent(componentId: int, value: Status)

  /** At first no component is known to work. */
  function InitialPoolStatus(): (s: ComponentPoolStatus)
    ensures s.working == {} && s.uncertain == {}
  {
    ComponentPoolStatus({}, {})
  }

  predicate Disjoint(s: ComponentPoolStatus) {
    s.working * s.uncertain == {}
  }

  /** One status event: the component moves to the set its status names. */
  function UpdateStatus(s: ComponentPoolStatus, e: StatusEvent): (r: ComponentPoolStatus)
    ensures e.value == BatteryStatus.Working ==>
              e.componentId in r.working && e.componentId !in r.uncertain
    ensures e.value == BatteryStatus.Uncertain ==>
              e.componentId !in r.working && e.componentId in r.uncertain
    ensures e.value == BatteryStatus.NotWorking ==>
              e.componentId !in r.working && e.componentId !in r.uncertain
    // Every other component keeps its place.
    ensures forall c :: c != e.componentId ==>
              (c in r.working <==> c in s.working) && (c in r.uncertain <==> c in s.uncertain)
    ensures Disjoint(s) ==> Disjoint(r)
  {
    var id := e.componentId;
    match e.value
    case Working => ComponentPoolStatus(s.working + {id}, s.uncertain - {id})
    case Uncertain => ComponentPoolStatus(s.working - {id}, s.uncertain + {id})
    case NotWorking => ComponentPoolStatus(s.working - {id}, s.uncertain - {id})
  }

  /** The events applied in order. */
  function ApplyEvents(s: ComponentPoolStatus, events: seq<StatusEvent>): ComponentPoolStatus
    decreases |events|
  {
    if |events| == 0 then s
    else UpdateStatus(ApplyEvents(s, events[..|events| - 1]), events[|events| - 1])
  }

  /** The status the last event about `c` reported, if any. */
  function LastStatus(events: seq<StatusEvent>, c: int): Option<Status>
    decreases |events|
  {
    if |events| == 0 then None
    else if events[|events| - 1].componentId == c then Some(events[|events| - 1].value)
    else LastStatus(events[..|events| - 1], c)
  }

  /** Starting from the initial status, a component is working exactly when
      the last event about it said working, and uncertain exactly when it
      said uncertain; the two sets stay disjoint. */
  lemma {:induction false} ApplyEventsFollowsLastEvent(events: seq<StatusEvent>, c: int)
    ensures var s := ApplyEvents(InitialPoolStatus(), events);
            && (c in s.working <==> LastStatus(events, c) == Some(BatteryStatus.Working))
            && (c in s.uncertain <==> LastStatus(events, c) == Some(BatteryStatus.Uncertain))
            && Disjoint(s)
    decreases |events|
  {
    if |events| > 0 {
      ApplyEventsFollowsLastEvent(events[..|events| - 1], c);
    }
  }

  datatype PoolTracker = PoolTracker(componentIds: set<int>, current: ComponentPoolStatus)

  function NewPoolTracker(componentIds: set<int>): (t: PoolTracker)
    ensures t.componentIds == componentIds && t.current == InitialPoolStatus()
  {
    PoolTracker(componentIds, InitialPoolStatus())
  }

  /** The tracker after one event; the updated status is also what it sends. */
  function TrackerUpdate(t: PoolTracker, e: StatusEvent): (r: (PoolTracker, ComponentPoolStatus))
    ensures r.0.componentIds == t.componentIds && r.1 == r.0.current
    ensures r.0.current == UpdateStatus(t.current, e)
  {
    var s := UpdateStatus(t.current, e);
    (t.(current := s), s)
  }

  /** The tracker answers with the rule of its current status. */
  function TrackerGetWorkingComponents(t: PoolTracker, components: set<int>): (r: set<int>)
    ensures r == GetWorkingComponents(t.current, components)
    ensures r <= components
  {
    GetWorkingComponents(t.current, components)
  }

  /** A fresh tracker reports no component as working. */
  lemma NewTrackerHasNoWorking(componentIds: set<int>, components: set<int>)
    ensures TrackerGetWorkingComponents(NewPoolTracker(componentIds), components) == {}
  {
  }
}

=== FILE: components.dfy ===
/** Microgrid components and the component graph the formula generators
    walk.  The graph's sets are iterated in some order; a sequence stands for
    that order. */
module Components {
  import opened Wrappers

  datatype ComponentCategory =
    | GridPoint
    | Meter
    | Inverter
    | Battery
    | EvCharger
    | OtherCategory(code: int)

  /** The fuse protecting the grid connection, by its maximum current in amperes. */
  datatype Fuse = Fuse(maxCurrent: real)

  datatype GridMetadata = GridMetadata(fuse: Option<Fuse>)

  datatype Component = Component(componentId: int, category: ComponentCategory, metadata: Option<GridMetadata>)

  /** The components, and the connections as (from, to) pairs of ids. */
  datatype ComponentGraph = ComponentGraph(components: seq<Component>, connections: set<(int, int)>)

  /** The components of `cs` that `from` connects to, in order. */
  function ConnectedFrom(cs: seq<Component>, connections: set<(int, int)>, from: int): (r: seq<Component>)
    ensures forall c :: c in r <==> c in cs && (from, c.componentId) in connections
    ensures |r| <= |cs|
  {
    if |cs| == 0 then []
    else
      assert cs == [cs[0]] + cs[1..];
      (if (from, cs[0].componentId) in connections then [cs[0]] else []) + ConnectedFrom(cs[1..], connections, from)
  }

  /** The components of `cs` that connect to `to`, in order. */
  function ConnectedTo(cs: seq<Component>, connections: set<(int, int)>, to: int): (r: seq<Component>)
    ensures forall c :: c in r <==> c in cs && (c.componentId, to) in connections
    ensures |r| <= |cs|
  {
    if |cs| == 0 then []
    else
      assert cs == [cs[0]] + cs[1..];
      (if (cs[0].componentId, to) in connections then [cs[0]] else []) + ConnectedTo(cs[1..], connections, to)
  }

  function Successors(g: ComponentGraph, id: int): (r: seq<Component>)
    ensures forall c :: c in r <==> c in g.components && (id, c.componentId) in g.connections
  {
    ConnectedFrom(g.components, g.connections, id)
  }

  function Predecessors(g: ComponentGraph, id: int): (r: seq<Component>)
    ensures forall c :: c in r <==> c in g.components && (c.componentId, id) in g.connections
  {
    ConnectedTo(g.components, g.connections, id)
  }

  /** The components of category `cat`, in order. */
  function OfCategory(cs: seq<Component>, cat: ComponentCategory): (r: seq<Component>)
    ensures forall c :: c in r <==> c in cs && c.category == cat
    ensures |r| == 0 <==> forall c :: c in cs ==> c.category != cat
    ensures |r| <= |cs|
  {
    if |cs| == 0 then []
    else
      assert cs == [cs[0]] + cs[1..];
      (if cs[0].category == cat then [cs[0]] else []) + OfCategory(cs[1..], cat)
  }

  /** The first component of category `cat`, if any: the one no earlier
      component of that category precedes. */
  function FirstOfCategory(cs: seq<Component>, cat: ComponentCategory): (r: Option<Component>)
    ensures r.None? <==> forall i :: 0 <= i < |cs| ==> cs[i].category != cat
    ensures r.Some? ==> exists i :: 0 <= i < |cs| && cs[i] == r.value && r.value.category == cat
                                    && forall j :: 0 <= j < i ==> cs[j].category != cat
  {
    if |cs| == 0 then None
    else if cs[0].category == cat then Some(cs[0])
    else
      var r := FirstOfCategory(cs[1..], cat);
      assert forall i :: 1 <= i < |cs| ==> cs[i] == cs[1..][i - 1];
      if r.Some? then
        var k :| 0 <= k < |cs[1..]| && cs[1..][k] == r.value && r.value.category == cat
                  && forall j :: 0 <= j < k ==> cs[1..][j].category != cat;
        assert cs[k + 1] == r.value;
        r
      else r
  }
}

=== FILE: formula_generators.dfy ===
/** The formula generators: each builds the token sequence of a formula
    that adds up one metric of several components.  A formula is a sequence
    of component-metric tokens and "+" operators; a well-formed one is
    "metric (+ metric)*". */
module FormulaGenerators {
  import opened Wrappers
  import opened Components

  /** A component referred to by a formula; `NonExisting` is the id no
      component has, subscribed to so that the formula still produces values. */
  datatype ComponentRef = Id(id: int) | NonExisting

  datatype MetricId = ActivePower | CurrentPhase1 | CurrentPhase2 | CurrentPhase3

  datatype Token =
    | Metric(component: ComponentRef, metric: MetricId, nonesAreZeros: bool)
    | Plus

  datatype Formula = Formula(name: string, metric: MetricId, tokens: seq<Token>)

  datatype Formula3Phase = Formula3Phase(name: string, phase1: Formula, phase2: Formula, phase3: Formula)

  datatype FormulaError =
    | ComponentNotFound
    | FormulaGenerationError
    /** A `StopIteration` escaping a generator expression, which Python
        turns into a `RuntimeError`. */
    | StopIterationInGenerator

  // ---------------------------------------------------------------------
  // Joining operands with "+" and reading them back

  /** The loop every generator runs: before every operand after the first a
      "+", then the operand. */
  function Join(ops: seq<Token>): (r: seq<Token>)
    ensures |ops| == 0 <==> |r| == 0
    ensures |ops| > 0 ==> |r| == 2 * |ops| - 1
    ensures forall k :: 0 <= k < |ops| ==> r[2 * k] == ops[k]
    ensures forall k :: 0 <= k < |ops| - 1 ==> r[2 * k + 1] == Plus
    decreases |ops|
  {
    if |ops| == 0 then []
    else
      var init := Join(ops[..|ops| - 1]);
      var r := init + (if |ops| > 1 then [Plus] else []) + [ops[|ops| - 1]];
      assert forall k :: 0 <= k < |ops| - 1 ==> r[2 * k] == init[2 * k] == ops[k];
      r
  }

  /** The operands of a well-formed formula "metric (+ metric)*", or `None`
      for any other token sequence. */
  function Operands(f: seq<Token>): (r: Option<seq<Token>>)
    ensures r.Some? ==> |r.value| > 0 && forall i :: 0 <= i < |r.value| ==> r.value[i].Metric?
    decreases |f|
  {
    if |f| == 1 then
      if f[0].Metric? then Some([f[0]]) else None
    else if |f| >= 3 && f[|f| - 1].Metric? && f[|f| - 2] == Plus then
      match Operands(f[..|f| - 2])
      case Some(ops) => Some(ops + [f[|f| - 1]])
      case None => None
    else None
  }

  predicate WellFormed(f: seq<Token>) {
    Operands(f).Some?
  }

  predicate AllMetrics(ops: seq<Token>) {
    forall i :: 0 <= i < |ops| ==> ops[i].Metric?
  }

  /** Joining metric operands gives a well-formed formula that reads back
      as those operands. */
  lemma {:induction false} JoinOperandsRoundTrip(ops: seq<Token>)
    requires |ops| > 0 && AllMetrics(ops)
    ensures Operands(Join(ops)) == Some(ops)
    decreases |ops|
  {
    if |ops| > 1 {
      var init := ops[..|ops| - 1];
      var last := ops[|ops| - 1];
      JoinOperandsRoundTrip(init);
      var f := Join(ops);
      assert f == Join(init) + [Plus, last];
      assert f[..|f| - 2] == Join(init);
      assert last.Metric? && f[|f| - 1] == last && f[|f| - 2] == Plus;
      assert Operands(f) == Some(init + [last]);
      assert init + [last] == ops;
    } else {
      assert Join(ops) == [ops[0]];
      assert ops[0].Metric?;
      assert Operands([ops[0]]) == Some([ops[0]]);
      assert [ops[0]] == ops;
    }
  }

  /** A well-formed formula is the join of its operands. */
  lemma {:induction false} OperandsJoinRoundTrip(f: seq<Token>)
    requires WellFormed(f)
    ensures Join(Operands(f).value) == f
    decreases |f|
  {
    if |f| != 1 {
      var init := f[..|f| - 2];
      OperandsJoinRoundTrip(init);
      var ops := Operands(f).value;
      assert ops[..|ops| - 1] == Operands(init).value;
      assert f == init + [Plus] + [f[|f| - 1]];
    }
  }

  /** One metric token per id, in order. */
  function MetricsOf(ids: seq<int>, m: MetricId, nonesAreZeros: bool): (r: seq<Token>)
    ensures |r| == |ids| && AllMetrics(r)
    ensures forall i :: 0 <= i < |ids| ==> r[i] == Metric(Id(ids[i]), m, nonesAreZeros)
  {
    seq(|ids|, i requires 0 <= i < |ids| => Metric(Id(ids[i]), m, nonesAreZeros))
  }

  /** The formula that adds up metric `m` of `ids`, treating missing values as zeros. */
  function SumFormula(name: string, ids: seq<int>, m: MetricId): (r: Formula)
    requires |ids| > 0
    ensures r.name == name && r.metric == m
    ensures Operands(r.tokens) == Some(MetricsOf(ids, m, true))
    ensures |r.tokens| == 2 * |ids| - 1
  {
    JoinOperandsRoundTrip(MetricsOf(ids, m, true));
    Formula(name, m, Join(MetricsOf(ids, m, true)))
  }

  /** The formula subscribed when there are no components: the non-existing
      component, whose missing values count as zeros. */
  function NonExistingFormula(name: string, m: MetricId): (r: Formula)
    ensures r.name == name && r.metric == m
    ensures Operands(r.tokens) == Some([Metric(NonExisting, m, true)]) && |r.tokens| == 1
  {
    Formula(name, m, [Metric(NonExisting, m, true)])
  }

  // ---------------------------------------------------------------------
  // EV chargers

  /** Total EV charger active power over `ids` (in iteration order). */
  function EvChargerPower(ids: seq<int>): (r: Formula)
    ensures r.name == "ev-power" && r.metric == ActivePower
    ensures |ids| == 0 ==> r.tokens == [Metric(NonExisting, ActivePower, true)]
    ensures |ids| > 0 ==> Operands(r.tokens) == Some(MetricsOf(ids, ActivePower, true))
    ensures |ids| > 0 ==> |r.tokens| == 2 * |ids| - 1
  {
    if |ids| == 0 then NonExistingFormula("ev-power", ActivePower)
    else SumFormula("ev-power", ids, ActivePower)
  }

  /** Total EV charger current per phase.  With no chargers the same
      formula, on the active-power metric, serves all three phases. */
  function EvChargerCurrent(ids: seq<int>): (r: Formula3Phase)
    ensures r.name == "ev-current"
    ensures |ids| == 0 ==> r.phase1 == r.phase2 == r.phase3 == NonExistingFormula("ev-current", ActivePower)
    ensures |ids| > 0 ==>
              && r.phase1.metric == CurrentPhase1 && r.phase2.metric == CurrentPhase2 && r.phase3.metric == CurrentPhase3
              && Operands(r.phase1.tokens) == Some(MetricsOf(ids, CurrentPhase1, true))
              && Operands(r.phase2.tokens) == Some(MetricsOf(ids, CurrentPhase2, true))
              && Operands(r.phase3.tokens) == Some(MetricsOf(ids, CurrentPhase3, true))
  {
    if |ids| == 0 then
      var engine := NonExistingFormula("ev-current", ActivePower);
      Formula3Phase("ev-current", engine, engine, engine)
    else
      Formula3Phase("ev-current",
                    SumFormula("ev-current", ids, CurrentPhase1),
                    SumFormula("ev-current", ids, CurrentPhase2),
                    SumFormula("ev-current", ids, CurrentPhase3))
  }

  /** The components a formula reads, in order. */
  function Refs(ops: seq<Token>): (r: seq<ComponentRef>)
    requires AllMetrics(ops)
    ensures |r| == |ops| && forall i :: 0 <= i < |ops| ==> r[i] == ops[i].component
  {
    seq(|ops|, i requires 0 <= i < |ops| && AllMetrics(ops) => ops[i].component)
  }

  /** The three phase formulas read the same chargers in the same order,
      each exactly once per id. */
  lemma EvChargerCurrentSameComponents(ids: seq<int>)
    requires |ids| > 0
    ensures var r := EvChargerCurrent(ids);
            && Refs(Operands(r.phase1.tokens).value) == Refs(Operands(r.phase2.tokens).value)
            && Refs(Operands(r.phase2.tokens).value) == Refs(Operands(r.phase3.tokens).value)
            && Refs(Operands(r.phase1.tokens).value) == seq(|ids|, i requires 0 <= i < |ids| => Id(ids[i]))
  {
  }

  // ---------------------------------------------------------------------
  // Grid current

  /** The metric a grid successor contributes: inverters and EV chargers
      with missing values as zeros, meters with missing values propagated,
      anything else nothing. */
  function SuccessorMetric(c: Component, m: MetricId): (r: seq<Token>)
    ensures c.category in {Inverter, EvCharger} ==> r == [Metric(Id(c.componentId), m, true)]
    ensures c.category == Meter ==> r == [Metric(Id(c.componentId), m, false)]
    ensures c.category !in {Inverter, EvCharger, Meter} ==> r == []
    ensures |r| <= 1 && AllMetrics(r)
  {
    match c.category
    case Inverter => [Metric(Id(c.componentId), m, true)]
    case EvCharger => [Metric(Id(c.componentId), m, true)]
    case Meter => [Metric(Id(c.componentId), m, false)]
    case _ => []
  }

  /** The metrics of the successors that contribute one, in order. */
  function Contributing(succ: seq<Component>, m: MetricId): (r: seq<Token>)
    ensures AllMetrics(r) && |r| <= |succ|
    ensures (forall i :: 0 <= i < |succ| ==> succ[i].category in {Inverter, EvCharger, Meter}) ==> |r| == |succ|
    decreases |succ|
  {
    if |succ| == 0 then []
    else Contributing(succ[..|succ| - 1], m) + SuccessorMetric(succ[|succ| - 1], m)
  }

  /** The metric tokens of a token sequence, in order. */
  function MetricTokens(f: seq<Token>): (r: seq<Token>)
    ensures AllMetrics(r) && |r| <= |f|
    decreases |f|
  {
    if |f| == 0 then []
    else MetricTokens(f[..|f| - 1]) + (if f[|f| - 1].Metric? then [f[|f| - 1]] else [])
  }

  /** The number of "+" tokens. */
  function PlusCount(f: seq<Token>): (r: nat)
    ensures r <= |f|
    decreases |f|
  {
    if |f| == 0 then 0
    else PlusCount(f[..|f| - 1]) + (if f[|f| - 1] == Plus then 1 else 0)
  }

  lemma {:induction false} MetricTokensAppend(a: seq<Token>, b: seq<Token>)
    ensures MetricTokens(a + b) == MetricTokens(a) + MetricTokens(b)
    ensures PlusCount(a + b) == PlusCount(a) + PlusCount(b)
    decreases |b|
  {
    if |b| > 0 {
      assert (a + b)[..|a + b| - 1] == a + b[..|b| - 1];
      MetricTokensAppend(a, b[..|b| - 1]);
    } else {
      assert a + b == a;
    }
  }

  /** One phase of the grid current formula as written: the "+" is pushed
      for every successor after the first before its category is looked at,
      so a skipped successor still leaves its "+" behind. */
  function GridPhaseTokens(succ: seq<Component>, m: MetricId): (r: seq<Token>)
    decreases |succ|
  {
    if |succ| == 0 then []
    else GridPhaseTokens(succ[..|succ| - 1], m) + (if |succ| > 1 then [Plus] else [])
         + SuccessorMetric(succ[|succ| - 1], m)
  }

  /** The metric tokens and "+" count of at most one token. */
  lemma MetricTokensSingle(t: seq<Token>)
    requires |t| <= 1
    ensures MetricTokens(t) == if |t| == 1 && t[0].Metric? then t else []
    ensures PlusCount(t) == if |t| == 1 && t[0] == Plus then 1 else 0
  {
    if |t| == 1 {
      assert t[..0] == [];
    }
  }

  /** Appending an optional "+" and at most one metric adds that metric. */
  lemma MetricTokensStep(prefix: seq<Token>, plus: seq<Token>, last: seq<Token>)
    requires plus == [] || plus == [Plus]
    requires |last| <= 1 && AllMetrics(last)
    ensures MetricTokens(prefix + plus + last) == MetricTokens(prefix) + last
  {
    MetricTokensAppend(prefix, plus);
    MetricTokensAppend(prefix + plus, last);
    MetricTokensSingle(plus);
    MetricTokensSingle(last);
    assert MetricTokens(prefix) + [] + last == MetricTokens(prefix) + last;
  }

  /** Appending an optional "+" and at most one metric adds that "+". */
  lemma PlusCountStep(prefix: seq<Token>, plus: seq<Token>, last: seq<Token>)
    requires plus == [] || plus == [Plus]
    requires |last| <= 1 && AllMetrics(last)
    ensures PlusCount(prefix + plus + last) == PlusCount(prefix) + |plus|
  {
    MetricTokensAppend(prefix, plus);
    MetricTokensAppend(prefix + plus, last);
    MetricTokensSingle(plus);
    MetricTokensSingle(last);
  }

  /** As written, one phase holds exactly the contributing metrics, in order. */
  lemma {:induction false} GridPhaseTokensMetrics(succ: seq<Component>, m: MetricId)
    ensures MetricTokens(GridPhaseTokens(succ, m)) == Contributing(succ, m)
    decreases |succ|
  {
    if |succ| > 0 {
      var init := succ[..|succ| - 1];
      GridPhaseTokensMetrics(init, m);
      var plus: seq<Token> := if |succ| > 1 then [Plus] else [];
      var last := SuccessorMetric(succ[|succ| - 1], m);
      var prefix := GridPhaseTokens(init, m);
      assert GridPhaseTokens(succ, m) == prefix + plus + last;
      MetricTokensStep(prefix, plus, last);
    }
  }

  /** As written, one phase holds one "+" per successor after the first,
      whether that successor contributes a metric or not. */
  lemma {:induction false} GridPhaseTokensPluses(succ: seq<Component>, m: MetricId)
    ensures PlusCount(GridPhaseTokens(succ, m)) == if |succ| == 0 then 0 else |succ| - 1
    decreases |succ|
  {
    if |succ| > 0 {
      var init := succ[..|succ| - 1];
      GridPhaseTokensPluses(init, m);
      var plus: seq<Token> := if |succ| > 1 then [Plus] else [];
      var last := SuccessorMetric(succ[|succ| - 1], m);
      var prefix := GridPhaseTokens(init, m);
      assert PlusCount(GridPhaseTokens(succ, m)) == PlusCount(prefix) + |plus| by {
        assert GridPhaseTokens(succ, m) == prefix + plus + last;
        PlusCountStep(prefix, plus, last);
      }
    }
  }

  /** A meter followed by a battery: the phase formula ends in a dangling
      "+" and is not well-formed. */
  lemma GridPhaseDanglingPlus()
    ensures var succ := [Component(1, Meter, None), Component(2, Battery, None)];
            && GridPhaseTokens(succ, CurrentPhase1) == [Metric(Id(1), CurrentPhase1, false), Plus]
            && !WellFormed(GridPhaseTokens(succ, CurrentPhase1))
            && GridPhaseTokensCorrected(succ, CurrentPhase1) == [Metric(Id(1), CurrentPhase1, false)]
  {
    var succ := [Component(1, Meter, None), Component(2, Battery, None)];
    assert succ[..1] == [succ[0]] && [succ[0]][..0] == [];
    assert Contributing(succ, CurrentPhase1) == [Metric(Id(1), CurrentPhase1, false)];
  }

  /** The evidently intended phase formula: "+" only between the metrics
      that are actually pushed. */
  function GridPhaseTokensCorrected(succ: seq<Component>, m: MetricId): (r: seq<Token>)
    ensures |Contributing(succ, m)| == 0 ==> r == []
    ensures |Contributing(succ, m)| > 0 ==> Operands(r) == Some(Contributing(succ, m))
    ensures PlusCount(r) == if |Contributing(succ, m)| == 0 then 0 else |Contributing(succ, m)| - 1
  {
    var ops := Contributing(succ, m);
    if |ops| == 0 then []
    else
      JoinOperandsRoundTrip(ops);
      JoinPlusCount(ops);
      Join(ops)
  }

  lemma {:induction false} JoinPlusCount(ops: seq<Token>)
    requires AllMetrics(ops)
    ensures PlusCount(Join(ops)) == if |ops| == 0 then 0 else |ops| - 1
    decreases |ops|
  {
    if |ops| > 0 {
      var init := ops[..|ops| - 1];
      JoinPlusCount(init);
      var plus: seq<Token> := if |ops| > 1 then [Plus] else [];
      MetricTokensAppend(Join(init), plus);
      MetricTokensAppend(Join(init) + plus, [ops[|ops| - 1]]);
      assert [Plus][..0] == [] && [ops[|ops| - 1]][..0] == [];
    }
  }

  /** When every successor contributes a metric, the code as written and the
      corrected formula coincide. */
  lemma {:induction false} GridPhaseAgreesWhenAllContribute(succ: seq<Component>, m: MetricId)
    requires forall i :: 0 <= i < |succ| ==> succ[i].category in {Inverter, EvCharger, Meter}
    ensures GridPhaseTokens(succ, m) == GridPhaseTokensCorrected(succ, m)
    decreases |succ|
  {
    if |succ| > 0 {
      var init := succ[..|succ| - 1];
      GridPhaseAgreesWhenAllContribute(init, m);
      assert Contributing(succ, m)[..|succ| - 1] == Contributing(init, m);
    }
  }

  /** The grid current formula: no grid connection is an error; otherwise
      one formula per phase over the grid's successors. */
  function GridCurrent(g: ComponentGraph): (r: Result<Formula3Phase, FormulaError>)
    ensures r.Failure? <==> forall i :: 0 <= i < |g.components| ==> g.components[i].category != GridPoint
    ensures r.Failure? ==> r.error == ComponentNotFound
    ensures r.Success? ==>
              var grid := FirstOfCategory(g.components, GridPoint).value;
              var succ := Successors(g, grid.componentId);
              && r.value.name == "grid-current"
              && r.value.phase1 == Formula("grid-current", CurrentPhase1, GridPhaseTokens(succ, CurrentPhase1))
              && r.value.phase2 == Formula("grid-current", CurrentPhase2, GridPhaseTokens(succ, CurrentPhase2))
              && r.value.phase3 == Formula("grid-current", CurrentPhase3, GridPhaseTokens(succ, CurrentPhase3))
  {
    match FirstOfCategory(g.components, GridPoint)
    case None => Failure(ComponentNotFound)
    case Some(grid) =>
      var succ := Successors(g, grid.componentId);
      Success(Formula3Phase("grid-current",
                            Formula("grid-current", CurrentPhase1, GridPhaseTokens(succ, CurrentPhase1)),
                            Formula("grid-current", CurrentPhase2, GridPhaseTokens(succ, CurrentPhase2)),
                            Formula("grid-current", CurrentPhase3, GridPhaseTokens(succ, CurrentPhase3))))
  }

  /** The grid current formula built with the corrected phase formula: every
      phase is well-formed as soon as one successor contributes. */
  function GridCurrentCorrected(g: ComponentGraph): (r: Result<Formula3Phase, FormulaError>)
    ensures r.Failure? <==> GridCurrent(g).Failure?
    ensures r.Failure? ==> r.error == ComponentNotFound
    ensures r.Success? ==>
              var grid := FirstOfCategory(g.components, GridPoint).value;
              var succ := Successors(g, grid.componentId);
              && (|Contributing(succ, CurrentPhase1)| > 0 ==> WellFormed(r.value.phase1.tokens))
              && (|Contributing(succ, CurrentPhase2)| > 0 ==> WellFormed(r.value.phase2.tokens))
              && (|Contributing(succ, CurrentPhase3)| > 0 ==> WellFormed(r.value.phase3.tokens))
  {
    match FirstOfCategory(g.components, GridPoint)
    case None => Failure(ComponentNotFound)
    case Some(grid) =>
      var succ := Successors(g, grid.componentId);
      Success(Formula3Phase("grid-current",
                            Formula("grid-current", CurrentPhase1, GridPhaseTokensCorrected(succ, CurrentPhase1)),
                            Formula("grid-current", CurrentPhase2, GridPhaseTokensCorrected(succ, CurrentPhase2)),
                            Formula("grid-current", CurrentPhase3, GridPhaseTokensCorrected(succ, CurrentPhase3))))
  }

  // ---------------------------------------------------------------------
  // Battery power

  /** The first predecessor of every battery, in order; `None` as soon as
      one battery has no predecessor at all. */
  function FirstPredecessors(g: ComponentGraph, ids: seq<int>): (r: Option<seq<Component>>)
    ensures r.None? <==> exists i :: 0 <= i < |ids| && |Predecessors(g, ids[i])| == 0
    ensures r.Some? ==> |r.value| == |ids|
                        && forall i :: 0 <= i < |ids| ==> r.value[i] == Predecessors(g, ids[i])[0]
    decreases |ids|
  {
    if |ids| == 0 then Some([])
    else
      var preds := Predecessors(g, ids[|ids| - 1]);
      match FirstPredecessors(g, ids[..|ids| - 1])
      case None => None
      case Some(init) => if |preds| == 0 then None else Some(init + [preds[0]])
  }

  function InverterMetrics(invs: seq<Component>): (r: seq<Token>)
    ensures |r| == |invs| && AllMetrics(r)
    ensures forall i :: 0 <= i < |invs| ==> r[i] == Metric(Id(invs[i].componentId), ActivePower, true)
  {
    seq(|invs|, i requires 0 <= i < |invs| => Metric(Id(invs[i].componentId), ActivePower, true))
  }

  /** The battery power formula as written: the active power of the first
      predecessor of every battery.  A battery without a predecessor makes
      the lookup raise `StopIteration`, and the length comparison that was
      meant to report it can never fail. */
  function BatteryPower(g: ComponentGraph, ids: seq<int>): (r: Result<Formula, FormulaError>)
    ensures |ids| == 0 ==> r == Success(NonExistingFormula("battery-power", ActivePower))
    ensures |ids| > 0 ==>
              (r.Failure? <==> exists i :: 0 <= i < |ids| && |Predecessors(g, ids[i])| == 0)
    ensures r.Failure? ==> r.error == StopIterationInGenerator
    ensures |ids| > 0 && r.Success? ==>
              && r.value.name == "battery-power" && r.value.metric == ActivePower
              && Operands(r.value.tokens) == Some(InverterMetrics(FirstPredecessors(g, ids).value))
  {
    if |ids| == 0 then Success(NonExistingFormula("battery-power", ActivePower))
    else
      match FirstPredecessors(g, ids)
      case None => Failure(StopIterationInGenerator)
      case Some(inverters) =>
        if |ids| != |inverters| then Failure(ComponentNotFound)
        else
          JoinOperandsRoundTrip(InverterMetrics(inverters));
          Success(Formula("battery-power", ActivePower, Join(InverterMetrics(inverters))))
  }

  /** As written, the documented `ComponentNotFound` is never raised; a
      battery with no inverter in front of it raises a `RuntimeError`. */
  lemma BatteryPowerNeverReportsNotFound(g: ComponentGraph, ids: seq<int>)
    ensures BatteryPower(g, ids) != Failure(ComponentNotFound)
    ensures BatteryPower(ComponentGraph([Component(7, Battery, None)], {}), [7]) == Failure(StopIterationInGenerator)
  {
    var lone := ComponentGraph([Component(7, Battery, None)], {});
    assert |Predecessors(lone, [7][0])| == 0;
  }

  /** `ops` has one operand per battery, each the active power of an
      inverter that feeds that battery. */
  predicate FedByInverters(g: ComponentGraph, ids: seq<int>, ops: seq<Token>) {
    && |ops| == |ids|
    && forall i :: 0 <= i < |ids| ==>
         exists c :: c in Predecessors(g, ids[i]) && c.category == Inverter
                     && ops[i] == Metric(Id(c.componentId), ActivePower, true)
  }

  /** The evidently intended battery power formula: a battery with no
      predecessor is reported as a missing component, and one whose
      predecessor is not an inverter as a generation error. */
  function BatteryPowerCorrected(g: ComponentGraph, ids: seq<int>): (r: Result<Formula, FormulaError>)
    ensures |ids| == 0 ==> r == Success(NonExistingFormula("battery-power", ActivePower))
    ensures r == Failure(ComponentNotFound) <==>
              exists i :: 0 <= i < |ids| && |Predecessors(g, ids[i])| == 0
    ensures r == Failure(FormulaGenerationError) <==>
              && (forall i :: 0 <= i < |ids| ==> |Predecessors(g, ids[i])| > 0)
              && exists i :: 0 <= i < |ids| && Predecessors(g, ids[i])[0].category != Inverter
    ensures r.Failure? ==> r.error in {ComponentNotFound, FormulaGenerationError}
    // Every metric of the formula is an inverter feeding the battery at the same position.
    ensures |ids| > 0 && r.Success? ==>
              Operands(r.value.tokens).Some? && FedByInverters(g, ids, Operands(r.value.tokens).value)
  {
    if |ids| == 0 then Success(NonExistingFormula("battery-power", ActivePower))
    else
      match FirstPredecessors(g, ids)
      case None => Failure(ComponentNotFound)
      case Some(inverters) =>
        if exists i :: 0 <= i < |inverters| && inverters[i].category != Inverter then
          Failure(FormulaGenerationError)
        else
          InvertersFeedBatteries(g, ids, inverters);
          Success(Formula("battery-power", ActivePower, Join(InverterMetrics(inverters))))
  }

  /** The joined inverter metrics parse back, one per battery, each an
      inverter feeding that battery. */
  lemma InvertersFeedBatteries(g: ComponentGraph, ids: seq<int>, inverters: seq<Component>)
    requires |ids| > 0 && FirstPredecessors(g, ids) == Some(inverters)
    requires forall i :: 0 <= i < |inverters| ==> inverters[i].category == Inverter
    ensures Operands(Join(InverterMetrics(inverters))) == Some(InverterMetrics(inverters))
    ensures FedByInverters(g, ids, InverterMetrics(inverters))
  {
    var ms := InverterMetrics(inverters);
    JoinOperandsRoundTrip(ms);
    forall i | 0 <= i < |ids|
      ensures exists c :: c in Predecessors(g, ids[i]) && c.category == Inverter
                          && ms[i] == Metric(Id(c.componentId), ActivePower, true)
    {
      assert inverters[i] == Predecessors(g, ids[i])[0];
      assert inverters[i] in Predecessors(g, ids[i]);
    }
  }

  /** Where every battery's first predecessor is an inverter, the code as
      written and the corrected formula agree. */
  lemma BatteryPowerAgreesWithInverters(g: ComponentGraph, ids: seq<int>)
    requires forall i :: 0 <= i < |ids| ==> |Predecessors(g, ids[i])| > 0
    requires forall i :: 0 <= i < |ids| ==> Predecessors(g, ids[i])[0].category == Inverter
    ensures BatteryPower(g, ids) == BatteryPowerCorrected(g, ids)
    ensures BatteryPower(g, ids).Success?
  {
  }
}

=== FILE: grid.dfy ===
/** The grid connection point: found among the microgrid's components when
    the SDK starts, and kept for later lookup.  The stored grid is passed in
    and out explicitly. */
module Grid {
  import opened Wrappers
  import opened Components

  /** A grid connection point, by the fuse that protects it. */
  datatype Grid = Grid(fuse: Fuse)

  datatype GridError =
    | TooManyGridConnections(count: nat)
    | NoGridMetadata
    | NoGridFuse

  /** `initialize`: the grid to store after looking at `components`, or the
      error raised.  With no grid connection the stored grid stays as it was. */
  function Initialize(stored: Option<Grid>, components: seq<Component>): (r: Result<Option<Grid>, GridError>)
    ensures |OfCategory(components, GridPoint)| == 0 ==> r == Success(stored)
    ensures |OfCategory(components, GridPoint)| > 1 <==> r.Failure? && r.error.TooManyGridConnections?
    ensures r.Failure? && r.error.TooManyGridConnections? ==> r.error.count == |OfCategory(components, GridPoint)|
    // With exactly one grid connection: its fuse is installed, or the missing
    // part is reported.
    ensures |OfCategory(components, GridPoint)| == 1 ==>
              var g := OfCategory(components, GridPoint)[0];
              && g in components && g.category == GridPoint
              && (g.metadata.None? ==> r == Failure(NoGridMetadata))
              && (g.metadata.Some? && g.metadata.value.fuse.None? ==> r == Failure(NoGridFuse))
              && (g.metadata.Some? && g.metadata.value.fuse.Some? ==>
                    r == Success(Some(Grid(g.metadata.value.fuse.value))))
  {
    var grids := OfCategory(components, GridPoint);
    if |grids| == 0 then Success(stored)
    else if |grids| > 1 then Failure(TooManyGridConnections(|grids|))
    else
      assert grids[0] in grids;
      if grids[0].metadata.None? then Failure(NoGridMetadata)
      else if grids[0].metadata.value.fuse.None? then Failure(NoGridFuse)
      else Success(Some(Grid(grids[0].metadata.value.fuse.value)))
  }

  /** The stored grid after `initialize`: unchanged when it raised. */
  function AfterInitialize(stored: Option<Grid>, components: seq<Component>): (r: Option<Grid>)
    ensures Initialize(stored, components).Failure? ==> r == stored
    ensures Initialize(stored, components).Success? ==> r == Initialize(stored, components).value
  {
    match Initialize(stored, components)
    case Success(g) => g
    case Failure(_) => stored
  }

  /** `get`: whatever is stored, `None` for an islanded microgrid. */
  function Get(stored: Option<Grid>): (r: Option<Grid>)
    ensures r == stored
  {
    stored
  }

  /** Initializing twice with the same components stores the same grid as
      initializing once. */
  lemma InitializeIdempotent(stored: Option<Grid>, components: seq<Component>)
    ensures AfterInitialize(AfterInitialize(stored, components), components) == AfterInitialize(stored, components)
  {
  }

  /** Whatever was stored before, a successful initialization with a grid
      connection decides the stored grid alone. */
  lemma InitializeForgetsPrior(a: Option<Grid>, b: Option<Grid>, components: seq<Component>)
    requires |OfCategory(components, GridPoint)| > 0
    ensures Initialize(a, components) == Initialize(b, components)
  {
  }

  /** The islanded, the doubly connected and the fused connection point, in
      that order, starting from no grid. */
  lemma InitializeExamples()
    ensures var s1 := AfterInitialize(None, [Component(2, Meter, None)]);
            && Get(s1) == None
            && var two := [Component(1, GridPoint, Some(GridMetadata(Some(Fuse(123.0))))),
                           Component(2, GridPoint, Some(GridMetadata(Some(Fuse(345.0))))),
                           Component(3, Meter, None)];
               && Initialize(s1, two) == Failure(TooManyGridConnections(2))
               && var s2 := AfterInitialize(s1, two);
                  && Get(s2) == None
                  && var one := [Component(1, GridPoint, Some(GridMetadata(Some(Fuse(123.0))))),
                                 Component(2, Meter, None)];
                     Get(AfterInitialize(s2, one)) == Some(Grid(Fuse(123.0)))
  {
    var two := [Component(1, GridPoint, Some(GridMetadata(Some(Fuse(123.0))))),
                Component(2, GridPoint, Some(GridMetadata(Some(Fuse(345.0))))),
                Component(3, Meter, None)];
    assert OfCategory(two[2..], GridPoint) == [];
    assert |OfCategory(two, GridPoint)| == 2;
    var one := [Component(1, GridPoint, Some(GridMetadata(Some(Fuse(123.0))))),
                Component(2, Meter, None)];
    assert OfCategory(one[1..], GridPoint) == [];
    assert OfCategory(one, GridPoint) == [one[0]];
  }
}

=== FILE: ingestion_resampler.dfy ===
/** The older per-metric resampler and its group: each time series keeps a
    buffer of samples in arrival order, outdated samples are dropped from the
    front, and what remains is handed to a resampling function.  Timestamps
    are integers in microseconds; the resampling period is in seconds. */
module IngestionResampler {
  import opened Wrappers
  import BaseTypes

  type Sample = BaseTypes.Sample
  type Time = int

  const MicrosPerSecond: real := 1_000_000.0

  /** The resampling function: the buffered samples and the period in
      seconds give one value. */
  type ResamplingFunction = (seq<Sample>, real) -> real

  datatype MetricResampler = MetricResampler(
    periodS: real,
    maxDataAgeInPeriods: real,
    buffer: seq<Sample>,
    f: ResamplingFunction)

  function NewMetricResampler(periodS: real, maxAge: real, f: ResamplingFunction): (r: MetricResampler)
    ensures r.buffer == [] && r.periodS == periodS && r.maxDataAgeInPeriods == maxAge && r.f == f
  {
    MetricResampler(periodS, maxAge, [], f)
  }

  /** `add_sample`: the sample goes to the end of the buffer, unconditionally. */
  function AddSample(m: MetricResampler, s: Sample): (r: MetricResampler)
    ensures |r.buffer| == |m.buffer| + 1 && r.buffer[..|m.buffer|] == m.buffer
    ensures r.buffer[|m.buffer|] == s
    ensures r.periodS == m.periodS && r.maxDataAgeInPeriods == m.maxDataAgeInPeriods && r.f == m.f
  {
    m.(buffer := m.buffer + [s])
  }

  /** A sample is outdated when it lies strictly before the threshold. */
  predicate Outdated(s: Sample, threshold: real) {
    (s.timestamp as real) < threshold
  }

  /** Reference definition: drop outdated samples from the front until the
      first one that is not outdated. */
  function DropOutdated(b: seq<Sample>, threshold: real): seq<Sample>
  {
    if |b| == 0 || !Outdated(b[0], threshold) then b
    else DropOutdated(b[1..], threshold)
  }

  /** `remove_outdated_samples`: the same walk as a loop over the front of
      the buffer. */
  method RemoveOutdatedSamples(b: seq<Sample>, threshold: real) returns (r: seq<Sample>)
    ensures r == DropOutdated(b, threshold)
    // What is left is a suffix; everything removed was outdated, and the
    // new front (if any) is not.
    ensures exists k :: 0 <= k <= |b| && r == b[k..]
    ensures |r| > 0 ==> !Outdated(r[0], threshold)
  {
    var i := 0;
    while i < |b| && Outdated(b[i], threshold)
      invariant 0 <= i <= |b|
      invariant DropOutdated(b[i..], threshold) == DropOutdated(b, threshold)
    {
      assert b[i..][1..] == b[i + 1..];
      i := i + 1;
    }
    r := b[i..];
    DropOutdatedIsSuffix(b, threshold);
  }

  /** The reference definition leaves a suffix whose front is not outdated,
      and removes only outdated samples. */
  lemma {:induction false} DropOutdatedIsSuffix(b: seq<Sample>, threshold: real)
    ensures exists k :: 0 <= k <= |b| && DropOutdated(b, threshold) == b[k..]
                        && (forall i :: 0 <= i < k ==> Outdated(b[i], threshold))
    ensures |DropOutdated(b, threshold)| > 0 ==> !Outdated(DropOutdated(b, threshold)[0], threshold)
    decreases |b|
  {
    if |b| == 0 || !Outdated(b[0], threshold) {
      assert b == b[0..];
    } else {
      DropOutdatedIsSuffix(b[1..], threshold);
      var k :| 0 <= k <= |b[1..]| && DropOutdated(b[1..], threshold) == b[1..][k..]
               && (forall i :: 0 <= i < k ==> Outdated(b[1..][i], threshold));
      assert b[1..][k..] == b[k + 1..];
      forall i | 0 <= i < k + 1 ensures Outdated(b[i], threshold) {
        if i > 0 {
          assert b[i] == b[1..][i - 1];
        }
      }
    }
  }

  predicate SortedByTime(b: seq<Sample>) {
    forall i, j :: 0 <= i < j < |b| ==> b[i].timestamp <= b[j].timestamp
  }

  /** On a buffer in timestamp order, dropping from the front removes exactly
      the outdated samples: what is left is every sample at or after the
      threshold. */
  lemma {:induction false} DropOutdatedOnSorted(b: seq<Sample>, threshold: real)
    requires SortedByTime(b)
    ensures forall s :: s in DropOutdated(b, threshold) <==> s in b && !Outdated(s, threshold)
    decreases |b|
  {
    if |b| == 0 {
    } else if !Outdated(b[0], threshold) {
      forall s | s in b ensures !Outdated(s, threshold) {
        var i :| 0 <= i < |b| && b[i] == s;
        assert b[0].timestamp <= b[i].timestamp;
      }
    } else {
      DropOutdatedOnSorted(b[1..], threshold);
      assert b == [b[0]] + b[1..];
    }
  }

  /** The age threshold at `now`: `maxDataAgeInPeriods` periods earlier. */
  function Threshold(m: MetricResampler, now: Time): (t: real)
    ensures m.maxDataAgeInPeriods * m.periodS >= 0.0 ==> t <= now as real
    ensures t + m.maxDataAgeInPeriods * m.periodS * MicrosPerSecond == now as real
  {
    now as real - m.maxDataAgeInPeriods * m.periodS * MicrosPerSecond
  }

  /** `resample` at `now`: outdated samples are dropped for good; no value
      when nothing is left, otherwise the resampling function of what is. */
  method Resample(m: MetricResampler, now: Time) returns (r: MetricResampler, value: Option<real>)
    ensures r == m.(buffer := DropOutdated(m.buffer, Threshold(m, now)))
    ensures value.None? <==> r.buffer == []
    ensures value.Some? ==> value.value == m.f(r.buffer, m.periodS)
    ensures forall i :: 0 <= i < |r.buffer| && SortedByTime(m.buffer)
              ==> !Outdated(r.buffer[i], Threshold(m, now))
  {
    var remaining := RemoveOutdatedSamples(m.buffer, Threshold(m, now));
    r := m.(buffer := remaining);
    if |remaining| == 0 {
      value := None;
    } else {
      value := Some(m.f(remaining, m.periodS));
    }
    if SortedByTime(m.buffer) {
      DropOutdatedOnSorted(m.buffer, Threshold(m, now));
      assert forall i :: 0 <= i < |r.buffer| ==> r.buffer[i] in remaining;
    }
  }

  // ---------------------------------------------------------------------
  // The group of resamplers

  datatype GroupResampler = GroupResampler(
    periodS: real,
    maxDataAgeInPeriods: real,
    initialFunction: ResamplingFunction,
    resamplers: map<string, MetricResampler>)

  datatype GroupError = NoResamplerFor(timeSeriesId: string)

  function NewGroup(periodS: real, f: ResamplingFunction, maxAge: real): (g: GroupResampler)
    ensures g.resamplers == map[] && g.periodS == periodS && g.initialFunction == f
    ensures g.maxDataAgeInPeriods == maxAge
  {
    GroupResampler(periodS, maxAge, f, map[])
  }

  /** The default age limit of a group: three periods. */
  const DefaultMaxDataAgeInPeriods: real := 3.0

  /** `add_time_series`: an existing resampler is kept as it is; otherwise a
      new one with the group's settings and an empty buffer. */
  function AddTimeSeries(g: GroupResampler, id: string): (r: GroupResampler)
    ensures id in g.resamplers ==> r == g
    ensures id !in g.resamplers ==>
              r.resamplers == g.resamplers[id := NewMetricResampler(g.periodS, g.maxDataAgeInPeriods, g.initialFunction)]
    ensures id in r.resamplers && r.resamplers.Keys == g.resamplers.Keys + {id}
    ensures r.periodS == g.periodS && r.maxDataAgeInPeriods == g.maxDataAgeInPeriods
    ensures r.initialFunction == g.initialFunction
  {
    if id in g.resamplers then g
    else g.(resamplers := g.resamplers[id := NewMetricResampler(g.periodS, g.maxDataAgeInPeriods, g.initialFunction)])
  }

  /** `remove_timeseries`: a key error for an unknown series. */
  function RemoveTimeseries(g: GroupResampler, id: string): (r: Result<GroupResampler, GroupError>)
    ensures r.Failure? <==> id !in g.resamplers
    ensures r.Failure? ==> r.error == NoResamplerFor(id)
    ensures r.Success? ==> r.value.resamplers.Keys == g.resamplers.Keys - {id}
                           && (forall k :: k in r.value.resamplers ==> r.value.resamplers[k] == g.resamplers[k])
                           && r.value.periodS == g.periodS && r.value.initialFunction == g.initialFunction
                           && r.value.maxDataAgeInPeriods == g.maxDataAgeInPeriods
  {
    if id !in g.resamplers then Failure(NoResamplerFor(id))
    else Success(g.(resamplers := map k | k in g.resamplers && k != id :: g.resamplers[k]))
  }

  /** `add_sample` of the group: a key error for an unknown series, otherwise
      only that series' buffer grows. */
  function GroupAddSample(g: GroupResampler, id: string, s: Sample): (r: Result<GroupResampler, GroupError>)
    ensures r.Failure? <==> id !in g.resamplers
    ensures r.Failure? ==> r.error == NoResamplerFor(id)
    ensures r.Success? ==> r.value.resamplers.Keys == g.resamplers.Keys
                           && r.value.resamplers[id].buffer == g.resamplers[id].buffer + [s]
                           && (forall k :: k in g.resamplers && k != id ==> r.value.resamplers[k] == g.resamplers[k])
  {
    if id !in g.resamplers then Failure(NoResamplerFor(id))
    else Success(g.(resamplers := g.resamplers[id := AddSample(g.resamplers[id], s)]))
  }

  /** Adding a series and removing it again gives back the group, when the
      series was not there before. */
  lemma AddRemoveRoundTrip(g: GroupResampler, id: string)
    requires id !in g.resamplers
    ensures RemoveTimeseries(AddTimeSeries(g, id), id) == Success(g)
  {
    var r := RemoveTimeseries(AddTimeSeries(g, id), id).value;
    assert r.resamplers == g.resamplers;
  }

  /** Adding a series twice is adding it once. */
  lemma AddTimeSeriesIdempotent(g: GroupResampler, id: string)
    ensures AddTimeSeries(AddTimeSeries(g, id), id) == AddTimeSeries(g, id)
  {
  }

  /** One series resampled at `now`: the trimmed resampler and the sample
      the group yields for it. */
  function ResampleOne(m: MetricResampler, now: Time): (r: (MetricResampler, Sample))
    ensures r.0 == m.(buffer := DropOutdated(m.buffer, Threshold(m, now)))
    ensures r.1.timestamp == now
    ensures r.1.value.None? <==> r.0.buffer == []
    ensures r.1.value.Some? ==> r.1.value.value == m.f(r.0.buffer, m.periodS)
  {
    var rest := DropOutdated(m.buffer, Threshold(m, now));
    (m.(buffer := rest), BaseTypes.Sample(now, if |rest| == 0 then None else Some(m.f(rest, m.periodS))))
  }

  /** The group's `resample` at one instant `now`: every series yields a
      sample stamped `now`, and every buffer is trimmed. */
  function GroupResample(g: GroupResampler, now: Time): (r: (GroupResampler, map<string, Sample>))
    ensures r.0.resamplers.Keys == g.resamplers.Keys && r.1.Keys == g.resamplers.Keys
    ensures forall id :: id in r.1 ==> r.1[id].timestamp == now
    ensures forall id :: id in r.1 ==>
              (r.0.resamplers[id], r.1[id]) == ResampleOne(g.resamplers[id], now)
    ensures r.0.periodS == g.periodS && r.0.initialFunction == g.initialFunction
  {
    (g.(resamplers := map id | id in g.resamplers :: ResampleOne(g.resamplers[id], now).0),
     map id | id in g.resamplers :: ResampleOne(g.resamplers[id], now).1)
  }

  /** Resampling twice at the same instant trims nothing more: dropping
      outdated samples is idempotent. */
  lemma {:induction false} DropOutdatedIdempotent(b: seq<Sample>, threshold: real)
    ensures DropOutdated(DropOutdated(b, threshold), threshold) == DropOutdated(b, threshold)
    decreases |b|
  {
    if |b| > 0 && Outdated(b[0], threshold) {
      DropOutdatedIdempotent(b[1..], threshold);
    }
  }
}

=== FILE: matryoshka.dfy ===
/** The matryoshka power-arbitration algorithm.

    Proposals for one set of batteries live in a bucket ordered by
    priority.  The bucket is walked from the highest priority down; every
    proposal's preferred power is clamped into the interval that is still
    open, and its bounds then narrow that interval for the proposals below
    it.  An exclusion zone reported by the system is respected along the
    way.  The algorithm state is an explicit record: the buckets and the
    last target power sent for each of them. */
module Matryoshka {
  import opened Wrappers
  import opened PowerBase

  // ---------------------------------------------------------------------
  // Interval helpers

  /** `x` lies strictly inside the exclusion zone, if there is one. */
  predicate StrictlyInside(x: Power, exclusion: Option<Bounds>) {
    exclusion.Some? && exclusion.value.lower < x < exclusion.value.upper
  }

  /** Which of the two given bounds are trapped inside the exclusion zone. */
  function CheckExclusionBoundsOverlap(
    lower: Power, upper: Power, exclusion: Option<Bounds>): (r: (bool, bool))
    ensures r == (StrictlyInside(lower, exclusion), StrictlyInside(upper, exclusion))
    ensures exclusion.None? ==> r == (false, false)
  {
    if exclusion.None? then (false, false)
    else
      var e := exclusion.value;
      var boundedLower := if e.lower < lower < e.upper then true else false;
      var boundedUpper := if e.lower < upper < e.upper then true else false;
      (boundedLower, boundedUpper)
  }

  /** Clamp `value` into `[lower, upper]`, keeping it out of the exclusion zone. */
  function ClampToBounds(
    value: Power, lower: Power, upper: Power, exclusion: Option<Bounds>): (r: Power)
    // Without an exclusion zone: an ordinary clamp.
    ensures exclusion.None? && lower <= upper ==> lower <= r <= upper
    ensures exclusion.None? && lower <= value <= upper ==> r == value
    // Both bounds trapped inside the exclusion zone: nothing usable is left.
    ensures StrictlyInside(lower, exclusion) && StrictlyInside(upper, exclusion) ==> r == 0.0
    // One-sided overlap: a value on the trapped side goes to the exclusion edge.
    ensures (StrictlyInside(lower, exclusion) && !StrictlyInside(upper, exclusion)
             && value < exclusion.value.upper) ==> r == exclusion.value.upper
    ensures (!StrictlyInside(lower, exclusion) && StrictlyInside(upper, exclusion)
             && value > exclusion.value.lower) ==> r == exclusion.value.lower
    // Exclusion zone inside the bounds: the result is in the bounds and never
    // strictly inside the zone; an interior value goes to the nearer edge,
    // a tie to the upper edge.
    ensures exclusion.Some? && lower <= exclusion.value.lower && exclusion.value.upper <= upper
            && lower <= upper
            ==> lower <= r <= upper && !StrictlyInside(r, exclusion)
    ensures exclusion.Some? && lower <= exclusion.value.lower && exclusion.value.upper <= upper
            && StrictlyInside(value, exclusion)
            ==> r == (if value - exclusion.value.lower < exclusion.value.upper - value
                      then exclusion.value.lower else exclusion.value.upper)
  {
    var overlap := CheckExclusionBoundsOverlap(lower, upper, exclusion);
    if exclusion.Some? && overlap == (true, true) then 0.0
    else if exclusion.Some? && overlap == (true, false) && value < exclusion.value.upper then
      exclusion.value.upper
    else if exclusion.Some? && overlap == (false, true) && value > exclusion.value.lower then
      exclusion.value.lower
    else if value < lower then lower
    else if value > upper then upper
    else if exclusion.Some? && exclusion.value.lower < value < exclusion.value.upper then
      if value - exclusion.value.lower < exclusion.value.upper - value then exclusion.value.lower
      else exclusion.value.upper
    else value
  }

  /** Trim `[lower, upper]` so that its ends are out of the exclusion zone. */
  function AdjustExclusionBounds(
    lower: Power, upper: Power, exclusion: Option<Bounds>): (r: (Power, Power))
    ensures exclusion.None? ==> r == (lower, upper)
    ensures StrictlyInside(lower, exclusion) && StrictlyInside(upper, exclusion) ==> r == (0.0, 0.0)
    ensures StrictlyInside(lower, exclusion) && !StrictlyInside(upper, exclusion)
            ==> r == (exclusion.value.upper, upper)
    ensures !StrictlyInside(lower, exclusion) && StrictlyInside(upper, exclusion)
            ==> r == (lower, exclusion.value.lower)
    ensures !StrictlyInside(lower, exclusion) && !StrictlyInside(upper, exclusion) ==> r == (lower, upper)
    // Unless it collapses to zero, the result only trims the interval and
    // neither of its ends is left inside the zone.
    ensures r == (0.0, 0.0)
            || (!StrictlyInside(r.0, exclusion) && !StrictlyInside(r.1, exclusion))
    ensures !(StrictlyInside(lower, exclusion) && StrictlyInside(upper, exclusion))
            ==> lower <= r.0 && r.1 <= upper
  {
    if exclusion.None? then (lower, upper)
    else
      match CheckExclusionBoundsOverlap(lower, upper, exclusion)
      case (true, true) => (0.0, 0.0)
      case (false, true) => (lower, exclusion.value.lower)
      case (true, false) => (exclusion.value.upper, upper)
      case _ => (lower, upper)
  }

  /** The exclusion zone the algorithm honours: an all-zero zone counts as none. */
  function EffectiveExclusion(exclusion: Option<Bounds>): (r: Option<Bounds>)
    ensures r.Some? <==> exclusion.Some? && (exclusion.value.lower != 0.0 || exclusion.value.upper != 0.0)
    ensures r.Some? ==> r == exclusion
  {
    if exclusion.Some? && (exclusion.value.lower != 0.0 || exclusion.value.upper != 0.0) then exclusion
    else None
  }

  // ---------------------------------------------------------------------
  // Buckets: proposals sorted by `ProposalLess`, one per source id

  ghost predicate Sorted(b: seq<Proposal>) {
    forall i, j :: 0 <= i < j < |b| ==> ProposalLess(b[i], b[j])
  }

  ghost predicate UniqueSources(b: seq<Proposal>) {
    forall i, j :: 0 <= i < j < |b| ==> b[i].sourceId != b[j].sourceId
  }

  ghost predicate ValidBucket(b: seq<Proposal>) {
    Sorted(b) && UniqueSources(b)
  }

  /** The bucket without the proposal of `source`, order kept. */
  function RemoveSource(b: seq<Proposal>, source: string): (r: seq<Proposal>)
    ensures forall q :: q in r <==> q in b && q.sourceId != source
    ensures |r| <= |b|
  {
    if |b| == 0 then []
    else if b[0].sourceId == source then RemoveSource(b[1..], source)
    else [b[0]] + RemoveSource(b[1..], source)
  }

  /** A proposal below every proposal of a valid bucket, and of a different
      source, can go in front of it. */
  lemma ConsValid(x: Proposal, rest: seq<Proposal>)
    requires ValidBucket(rest)
    requires forall q :: q in rest ==> ProposalLess(x, q) && q.sourceId != x.sourceId
    ensures ValidBucket([x] + rest)
  {
    var r := [x] + rest;
    forall i, j | 0 <= i < j < |r|
      ensures ProposalLess(r[i], r[j]) && r[i].sourceId != r[j].sourceId
    {
      if i == 0 {
        assert r[j] == rest[j - 1] && r[j] in rest;
      } else {
        assert r[i] == rest[i - 1] && r[j] == rest[j - 1];
      }
    }
  }

  /** Removing a source keeps a bucket sorted with one proposal per source. */
  lemma {:induction false} RemoveSourceValid(b: seq<Proposal>, source: string)
    requires ValidBucket(b)
    ensures ValidBucket(RemoveSource(b, source))
  {
    if |b| > 0 {
      var tail := b[1..];
      assert ValidBucket(tail) by {
        forall i, j | 0 <= i < j < |tail|
          ensures ProposalLess(tail[i], tail[j]) && tail[i].sourceId != tail[j].sourceId
        {
          assert tail[i] == b[i + 1] && tail[j] == b[j + 1];
        }
      }
      RemoveSourceValid(tail, source);
      var rest := RemoveSource(tail, source);
      if b[0].sourceId != source {
        forall q | q in rest ensures ProposalLess(b[0], q) && q.sourceId != b[0].sourceId {
          var k :| 0 <= k < |tail| && tail[k] == q;
          assert b[k + 1] == q;
        }
        ConsValid(b[0], rest);
      }
    }
  }

  /** Insert `p` at its place in a sorted bucket. */
  function InsertSorted(b: seq<Proposal>, p: Proposal): (r: seq<Proposal>)
    ensures multiset(r) == multiset(b) + multiset{p}
    ensures forall q :: q in r <==> q in b || q == p
  {
    if |b| == 0 then [p]
    else if ProposalLess(p, b[0]) then [p] + b
    else
      assert b == [b[0]] + b[1..];
      [b[0]] + InsertSorted(b[1..], p)
  }

  lemma {:induction false} SortedPrepend(p: Proposal, b: seq<Proposal>)
    requires Sorted(b)
    requires |b| > 0 ==> ProposalLess(p, b[0])
    ensures Sorted([p] + b)
  {
    forall i, j | 0 <= i < j < |[p] + b|
      ensures ProposalLess(([p] + b)[i], ([p] + b)[j])
    {
      if i == 0 && j > 1 {
        ProposalLessTransitive(p, b[0], b[j - 1]);
      }
    }
  }

  /** Inserting a proposal whose key is new keeps the bucket sorted. */
  lemma {:induction false} InsertSortedSorted(b: seq<Proposal>, p: Proposal)
    requires Sorted(b)
    requires forall q :: q in b ==> SortKey(q) != SortKey(p)
    ensures Sorted(InsertSorted(b, p))
  {
    if |b| == 0 {
    } else if ProposalLess(p, b[0]) {
      SortedPrepend(p, b);
    } else {
      var tail := b[1..];
      assert forall q :: q in tail ==> q in b;
      assert Sorted(tail);
      InsertSortedSorted(tail, p);
      var rest := InsertSorted(tail, p);
      ProposalLessConnected(b[0], p);
      if |rest| > 0 {
        assert rest[0] in rest;
        if rest[0] != p {
          var k :| 0 <= k < |tail| && tail[k] == rest[0];
          assert b[k + 1] == rest[0];
        }
      }
      SortedPrepend(b[0], rest);
    }
  }

  /** `SortedSet.insert` with one proposal per source: a re-proposal replaces
      the earlier proposal of the same source. */
  function InsertProposal(b: seq<Proposal>, p: Proposal): (r: seq<Proposal>)
    ensures p in r
    ensures forall q :: q in r <==> q == p || (q in b && q.sourceId != p.sourceId)
  {
    InsertSorted(RemoveSource(b, p.sourceId), p)
  }

  /** Inserting keeps a bucket sorted with one proposal per source. */
  lemma InsertProposalValid(b: seq<Proposal>, p: Proposal)
    requires ValidBucket(b)
    ensures ValidBucket(InsertProposal(b, p))
  {
    var rest := RemoveSource(b, p.sourceId);
    var r := InsertSorted(rest, p);
    RemoveSourceValid(b, p.sourceId);
    InsertSortedSorted(rest, p);
    forall i, j | 0 <= i < j < |r|
      ensures r[i].sourceId != r[j].sourceId
    {
      assert r[i] in r && r[j] in r;
      if r[i] == p && r[j] == p {
        assert p !in rest;
        MultisetTwoIndices(r, i, j);
        assert false;
      } else if r[i] != p && r[j] != p {
        assert r[i] in rest && r[j] in rest;
        var a :| 0 <= a < |rest| && rest[a] == r[i];
        var c :| 0 <= c < |rest| && rest[c] == r[j];
        if a == c {
          MultisetTwoIndices(r, i, j);
          assert multiset(r)[r[i]] == multiset(rest)[r[i]];
          MultisetAtMostOne(rest, a);
          assert false;
        }
      }
    }
  }

  /** Two distinct indices holding the same element make it occur twice. */
  lemma MultisetTwoIndices<T>(s: seq<T>, i: int, j: int)
    requires 0 <= i < j < |s| && s[i] == s[j]
    ensures multiset(s)[s[i]] >= 2
  {
    var x := s[i];
    assert s == s[..i] + [x] + (s[i + 1..j] + [x] + s[j + 1..]);
    assert s[i + 1..] == s[i + 1..j] + [x] + s[j + 1..];
    calc {
      multiset(s)[x];
      == { assert s == s[..i] + [x] + s[i + 1..]; }
      multiset(s[..i])[x] + 1 + multiset(s[i + 1..])[x];
      >= 1 + multiset(s[i + 1..])[x];
      == { assert s[i + 1..] == s[i + 1..j] + [x] + s[j + 1..]; }
      1 + multiset(s[i + 1..j])[x] + 1 + multiset(s[j + 1..])[x];
      >= 2;
    }
  }

  /** In a bucket with unique sources every proposal occurs once. */
  lemma MultisetAtMostOne(b: seq<Proposal>, a: int)
    requires UniqueSources(b) && 0 <= a < |b|
    ensures multiset(b)[b[a]] == 1
  {
    var x := b[a];
    assert b == b[..a] + [x] + b[a + 1..];
    assert x !in b[..a] by {
      forall k | 0 <= k < a ensures b[..a][k] != x { assert b[k].sourceId != x.sourceId; }
    }
    assert x !in b[a + 1..] by {
      forall k | a + 1 <= k < |b| ensures b[k] != x {
        assert b[k].sourceId != x.sourceId;
      }
    }
  }

  // ---------------------------------------------------------------------
  // Target power

  datatype State = State(
    buckets: map<set<int>, seq<Proposal>>,
    targets: map<set<int>, Power>)

  datatype Error = OverlappingBuckets(batteryIds: set<int>)

  /** The empty algorithm state (`Matryoshka.__init__`). */
  function Init(): (s: State)
    ensures s.buckets == map[] && s.targets == map[]
  {
    State(map[], map[])
  }

  /** The walk of `_calc_target_power`: proposals are taken from the end of
      `ps` (highest priority first) while the open interval is non-empty. */
  function WalkTarget(
    ps: seq<Proposal>, lower: Power, upper: Power, exclusion: Option<Bounds>, target: Power): Power
    decreases |ps|
  {
    if |ps| == 0 || upper < lower then target
    else
      var p := ps[|ps| - 1];
      var rest := ps[..|ps| - 1];
      var target' :=
        if p.preferredPower.Some? then ClampToBounds(p.preferredPower.value, lower, upper, exclusion)
        else target;
      var pl := p.bounds.lower.GetOr(lower);
      var pu := p.bounds.upper.GetOr(upper);
      if CheckExclusionBoundsOverlap(pl, pu, exclusion) == (true, true) then
        // Bounds lying wholly inside the exclusion zone do not narrow anything.
        WalkTarget(rest, lower, upper, exclusion, target')
      else
        var adjusted := AdjustExclusionBounds(MaxR(lower, pl), MinR(upper, pu), exclusion);
        WalkTarget(rest, adjusted.0, adjusted.1, exclusion, target')
  }

  /** `_calc_target_power`: the target for a bucket under the system bounds.
      Without system inclusion bounds the interval starts as `[0, 0]`. */
  function CalcTargetPower(proposals: seq<Proposal>, system: SystemBounds): Power {
    var lower := if system.inclusion.Some? then system.inclusion.value.lower else 0.0;
    var upper := if system.inclusion.Some? then system.inclusion.value.upper else 0.0;
    WalkTarget(proposals, lower, upper, EffectiveExclusion(system.exclusion), 0.0)
  }

  /** Without an exclusion zone every value the walk produces is either the
      value it started with or lies inside the interval it started with. */
  lemma {:induction false} WalkTargetWithin(
    ps: seq<Proposal>, lower: Power, upper: Power, target: Power, t0: Power, lo: Power, hi: Power)
    requires lo <= lower && upper <= hi
    requires target == t0 || lo <= target <= hi
    ensures var r := WalkTarget(ps, lower, upper, None, target); r == t0 || lo <= r <= hi
    ensures |ps| > 0 && lower <= upper && ps[|ps| - 1].preferredPower.Some?
            ==> lo <= WalkTarget(ps, lower, upper, None, target) <= hi
    decreases |ps|
  {
    if |ps| > 0 && lower <= upper {
      var p := ps[|ps| - 1];
      var target' :=
        if p.preferredPower.Some? then ClampToBounds(p.preferredPower.value, lower, upper, None)
        else target;
      var pl := p.bounds.lower.GetOr(lower);
      var pu := p.bounds.upper.GetOr(upper);
      WalkTargetWithin(ps[..|ps| - 1], MaxR(lower, pl), MinR(upper, pu), target', t0, lo, hi);
      if p.preferredPower.Some? {
        WalkTargetInside(ps[..|ps| - 1], MaxR(lower, pl), MinR(upper, pu), target', lo, hi);
      }
    }
  }

  /** Once the walk's target is inside `[lo, hi]` it stays there. */
  lemma {:induction false} WalkTargetInside(
    ps: seq<Proposal>, lower: Power, upper: Power, target: Power, lo: Power, hi: Power)
    requires lo <= lower && upper <= hi
    requires lo <= target <= hi
    ensures lo <= WalkTarget(ps, lower, upper, None, target) <= hi
    decreases |ps|
  {
    if |ps| > 0 && lower <= upper {
      var p := ps[|ps| - 1];
      var target' :=
        if p.preferredPower.Some? then ClampToBounds(p.preferredPower.value, lower, upper, None)
        else target;
      var pl := p.bounds.lower.GetOr(lower);
      var pu := p.bounds.upper.GetOr(upper);
      WalkTargetInside(ps[..|ps| - 1], MaxR(lower, pl), MinR(upper, pu), target', lo, hi);
    }
  }

  /** With usable system bounds and no exclusion zone, the target is inside
      the system bounds, or zero when no proposal expressed a preference; when
      the highest-priority proposal has a preference it is always inside. */
  lemma CalcTargetPowerWithinSystemBounds(proposals: seq<Proposal>, system: SystemBounds)
    requires system.inclusion.Some? && system.inclusion.value.lower <= system.inclusion.value.upper
    requires EffectiveExclusion(system.exclusion).None?
    ensures var r := CalcTargetPower(proposals, system);
            r == 0.0 || system.inclusion.value.lower <= r <= system.inclusion.value.upper
    ensures |proposals| > 0 && proposals[|proposals| - 1].preferredPower.Some?
            ==> system.inclusion.value.lower <= CalcTargetPower(proposals, system)
                <= system.inclusion.value.upper
  {
    var b := system.inclusion.value;
    WalkTargetWithin(proposals, b.lower, b.upper, 0.0, 0.0, b.lower, b.upper);
  }

  /** A single proposal gets its preferred power clamped into the system bounds. */
  lemma CalcTargetPowerSingle(p: Proposal, system: SystemBounds)
    requires p.preferredPower.Some? && system.inclusion.Some?
    requires system.inclusion.value.lower <= system.inclusion.value.upper
    ensures CalcTargetPower([p], system)
            == ClampToBounds(p.preferredPower.value, system.inclusion.value.lower,
                             system.inclusion.value.upper, EffectiveExclusion(system.exclusion))
  {
    var b := system.inclusion.value;
    var e := EffectiveExclusion(system.exclusion);
    var t := ClampToBounds(p.preferredPower.value, b.lower, b.upper, e);
    assert [p][..0] == [];
    assert forall l, u :: WalkTarget([], l, u, e, t) == t;
    assert CalcTargetPower([p], system) == WalkTarget([p], b.lower, b.upper, e, 0.0);
  }

  /** The walk with no usable interval keeps the target at zero: `[0, 0]`
      only ever narrows to `[0, 0]` or to an empty interval. */
  lemma {:induction false} WalkTargetZero(
    ps: seq<Proposal>, lower: Power, upper: Power, exclusion: Option<Bounds>)
    requires (lower == 0.0 && upper == 0.0) || upper < lower
    ensures WalkTarget(ps, lower, upper, exclusion, 0.0) == 0.0
    decreases |ps|
  {
    if |ps| > 0 && lower <= upper {
      var p := ps[|ps| - 1];
      var target' :=
        if p.preferredPower.Some? then ClampToBounds(p.preferredPower.value, lower, upper, exclusion)
        else 0.0;
      assert target' == 0.0;
      var pl := p.bounds.lower.GetOr(lower);
      var pu := p.bounds.upper.GetOr(upper);
      if CheckExclusionBoundsOverlap(pl, pu, exclusion) == (true, true) {
        WalkTargetZero(ps[..|ps| - 1], lower, upper, exclusion);
      } else {
        var adjusted := AdjustExclusionBounds(MaxR(lower, pl), MinR(upper, pu), exclusion);
        WalkTargetZero(ps[..|ps| - 1], adjusted.0, adjusted.1, exclusion);
      }
    }
  }

  /** When the system bounds are unavailable the target is forced to zero,
      whatever the proposals and the exclusion zone. */
  lemma CalcTargetPowerZeroWithoutBounds(proposals: seq<Proposal>, system: SystemBounds)
    requires system.inclusion.None?
    ensures CalcTargetPower(proposals, system) == 0.0
  {
    WalkTargetZero(proposals, 0.0, 0.0, EffectiveExclusion(system.exclusion));
  }

  /** `v` respects the bounds a proposal sets (an open side respects anything). */
  predicate Admits(p: Proposal, v: Power) {
    (p.bounds.lower.Some? ==> p.bounds.lower.value <= v)
    && (p.bounds.upper.Some? ==> v <= p.bounds.upper.value)
  }

  lemma {:induction false} WalkTargetLowestWins(
    ps: seq<Proposal>, lower: Power, upper: Power, target: Power, v: Power)
    requires |ps| > 0 && ps[0].preferredPower == Some(v)
    requires lower <= v <= upper
    requires forall i :: 0 <= i < |ps| ==> Admits(ps[i], v)
    ensures WalkTarget(ps, lower, upper, None, target) == v
    decreases |ps|
  {
    var p := ps[|ps| - 1];
    var target' :=
      if p.preferredPower.Some? then ClampToBounds(p.preferredPower.value, lower, upper, None)
      else target;
    var pl := p.bounds.lower.GetOr(lower);
    var pu := p.bounds.upper.GetOr(upper);
    if |ps| > 1 {
      var rest := ps[..|ps| - 1];
      assert forall i :: 0 <= i < |rest| ==> rest[i] == ps[i];
      WalkTargetLowestWins(rest, MaxR(lower, pl), MinR(upper, pu), target', v);
    }
  }

  /** The preferred power of the lowest-priority proposal wins whenever it
      respects the bounds of every proposal above it and the system bounds
      (no exclusion zone). */
  lemma CalcTargetPowerLowestPriorityWins(proposals: seq<Proposal>, system: SystemBounds, v: Power)
    requires |proposals| > 0 && proposals[0].preferredPower == Some(v)
    requires system.inclusion.Some? && system.inclusion.value.lower <= v <= system.inclusion.value.upper
    requires EffectiveExclusion(system.exclusion).None?
    requires forall i :: 0 <= i < |proposals| ==> Admits(proposals[i], v)
    ensures CalcTargetPower(proposals, system) == v
  {
    WalkTargetLowestWins(proposals, system.inclusion.value.lower, system.inclusion.value.upper, 0.0, v);
  }

  /** The lower bound left after the proposals of `ps` narrow `lower`, taken
      from the end as the walk takes them (no exclusion zone). */
  function NarrowLower(ps: seq<Proposal>, lower: Power): (r: Power)
    ensures lower <= r
    ensures forall i :: 0 <= i < |ps| && ps[i].bounds.lower.Some? ==> ps[i].bounds.lower.value <= r
    decreases |ps|
  {
    if |ps| == 0 then lower
    else
      var p := ps[|ps| - 1];
      var r := NarrowLower(ps[..|ps| - 1], MaxR(lower, p.bounds.lower.GetOr(lower)));
      assert forall i :: 0 <= i < |ps| - 1 ==> ps[..|ps| - 1][i] == ps[i];
      r
  }

  /** The upper bound left after the proposals of `ps` narrow `upper`. */
  function NarrowUpper(ps: seq<Proposal>, upper: Power): (r: Power)
    ensures r <= upper
    ensures forall i :: 0 <= i < |ps| && ps[i].bounds.upper.Some? ==> r <= ps[i].bounds.upper.value
    decreases |ps|
  {
    if |ps| == 0 then upper
    else
      var p := ps[|ps| - 1];
      var r := NarrowUpper(ps[..|ps| - 1], MinR(upper, p.bounds.upper.GetOr(upper)));
      assert forall i :: 0 <= i < |ps| - 1 ==> ps[..|ps| - 1][i] == ps[i];
      r
  }

  /** Without an exclusion zone, when the higher-priority proposals leave a
      non-empty interval, the target is the lowest-priority preference clamped
      into that interval. */
  lemma {:induction false} WalkTargetClosest(
    ps: seq<Proposal>, lower: Power, upper: Power, target: Power, v: Power)
    requires |ps| > 0 && ps[0].preferredPower == Some(v)
    requires NarrowLower(ps[1..], lower) <= NarrowUpper(ps[1..], upper)
    ensures WalkTarget(ps, lower, upper, None, target)
            == ClampToBounds(v, NarrowLower(ps[1..], lower), NarrowUpper(ps[1..], upper), None)
    decreases |ps|
  {
    var p := ps[|ps| - 1];
    var rest := ps[..|ps| - 1];
    var target' :=
      if p.preferredPower.Some? then ClampToBounds(p.preferredPower.value, lower, upper, None)
      else target;
    var pl := p.bounds.lower.GetOr(lower);
    var pu := p.bounds.upper.GetOr(upper);
    assert lower <= upper;
    if |ps| == 1 {
      assert ps[1..] == [] && rest == [];
    } else {
      assert ps[1..] == rest[1..] + [p];
      assert ps[1..][..|ps[1..]| - 1] == rest[1..];
      WalkTargetClosest(rest, MaxR(lower, pl), MinR(upper, pu), target', v);
    }
  }

  /** Distance between two powers. */
  function Distance(a: Power, b: Power): Power {
    if a >= b then a - b else b - a
  }

  /** The documented conflict rule: when the lowest-priority proposal prefers a
      power outside the bounds the others leave, the target is the value within
      those bounds closest to the preference (no exclusion zone). */
  lemma CalcTargetPowerClosest(proposals: seq<Proposal>, system: SystemBounds, v: Power)
    requires |proposals| > 0 && proposals[0].preferredPower == Some(v)
    requires system.inclusion.Some? && EffectiveExclusion(system.exclusion).None?
    requires NarrowLower(proposals[1..], system.inclusion.value.lower)
             <= NarrowUpper(proposals[1..], system.inclusion.value.upper)
    ensures var lo := NarrowLower(proposals[1..], system.inclusion.value.lower);
            var hi := NarrowUpper(proposals[1..], system.inclusion.value.upper);
            var r := CalcTargetPower(proposals, system);
            && lo <= r <= hi
            && (v < lo ==> r == lo) && (hi < v ==> r == hi) && (lo <= v <= hi ==> r == v)
            && forall x :: lo <= x <= hi ==> Distance(r, v) <= Distance(x, v)
  {
    WalkTargetClosest(proposals, system.inclusion.value.lower, system.inclusion.value.upper, 0.0, v);
  }

  /** A bucket may be created for `ids` only if no existing bucket shares a battery. */
  predicate OverlapsExisting(s: State, ids: set<int>) {
    exists b :: b in s.buckets && b * ids != {}
  }

  /** `_validate_battery_ids`: `Success(false)` means "ignore the call". */
  function ValidateBatteryIds(
    s: State, ids: set<int>, proposal: Option<Proposal>, system: SystemBounds): (r: Result<bool, Error>)
    ensures ids in s.buckets ==> r == Success(true)
    ensures ids !in s.buckets && system.inclusion.None? && system.exclusion.None?
            ==> r == Success(false)
    ensures ids !in s.buckets && (system.inclusion.Some? || system.exclusion.Some?)
            ==> (r.Failure? <==> OverlapsExisting(s, ids))
    ensures r.Success? ==> r.value || ids !in s.buckets
  {
    if ids in s.buckets then Success(true)
    else if system.inclusion.None? && system.exclusion.None? then Success(false)
    else if OverlapsExisting(s, ids) then Failure(OverlappingBuckets(ids))
    else Success(true)
  }

  /** Adds a proposal to the bucket of `ids`, creating the bucket when it is
      missing; the proposal replaces any earlier one from the same source. */
  function AddToBucket(buckets: map<set<int>, seq<Proposal>>, ids: set<int>, p: Proposal)
    : (r: map<set<int>, seq<Proposal>>)
    ensures r.Keys == buckets.Keys + {ids}
    ensures p in r[ids]
    ensures forall q :: q in r[ids] <==> q == p || (ids in buckets && q in buckets[ids] && q.sourceId != p.sourceId)
    ensures forall k :: k in buckets && k != ids ==> r[k] == buckets[k]
  {
    buckets[ids := InsertProposal(if ids in buckets then buckets[ids] else [], p)]
  }

  /** `calculate_target_power`: add the proposal (if any) to its bucket,
      recompute the target, and return it only when it changed or when the
      caller insists. */
  function CalculateTargetPower(
    s: State, ids: set<int>, proposal: Option<Proposal>, system: SystemBounds,
    mustReturnPower: bool): (r: Result<(State, Option<Power>), Error>)
    // Nothing known and nothing to go on: nothing happens.
    ensures ids !in s.buckets && system.inclusion.None? && system.exclusion.None?
            ==> r == Success((s, None))
    // A new bucket that would overlap an existing one is refused.
    ensures (ids !in s.buckets && (system.inclusion.Some? || system.exclusion.Some?)
             && OverlapsExisting(s, ids)) ==> r.Failure?
    ensures r.Failure? ==> ids !in s.buckets && OverlapsExisting(s, ids)
    // Whatever is returned is also what is remembered.
    ensures r.Success? && r.value.1.Some?
            ==> ids in r.value.0.targets && r.value.0.targets[ids] == r.value.1.value
    // Unless forced, only a change is returned.
    ensures r.Success? && r.value.1.Some? && !mustReturnPower
            ==> ids !in s.targets || s.targets[ids] != r.value.1.value
    ensures r.Success? && r.value.1.None? && ids in r.value.0.buckets
            ==> !mustReturnPower && ids in s.targets
                && s.targets[ids] == CalcTargetPower(r.value.0.buckets[ids], system)
    // A forced call on a known bucket always returns a power.
    ensures r.Success? && mustReturnPower && ids in s.buckets ==> r.value.1.Some?
    // A proposal, once accepted, is in its bucket; other buckets are untouched.
    ensures r.Success? && r.value.0 != s && proposal.Some?
            ==> ids in r.value.0.buckets && proposal.value in r.value.0.buckets[ids]
    ensures r.Success? ==> forall k :: k in s.buckets && k != ids
                                       ==> k in r.value.0.buckets && r.value.0.buckets[k] == s.buckets[k]
    // The bucket gains the accepted proposal, and nothing else changes in it.
    ensures r.Success? && proposal.Some? && ValidateBatteryIds(s, ids, proposal, system) == Success(true)
            ==> r.value.0.buckets == AddToBucket(s.buckets, ids, proposal.value)
    ensures r.Success? && proposal.None? ==> r.value.0.buckets == s.buckets
    // The remembered and returned target is the one the proposals give.
    ensures r.Success? && ids in r.value.0.buckets
            ==> ids in r.value.0.targets && r.value.0.targets[ids] == CalcTargetPower(r.value.0.buckets[ids], system)
    ensures r.Success? && r.value.1.Some?
            ==> ids in r.value.0.buckets && r.value.1.value == CalcTargetPower(r.value.0.buckets[ids], system)
    // The targets of other buckets are untouched.
    ensures r.Success? ==> forall k :: k != ids && k in s.targets
                                       ==> k in r.value.0.targets && r.value.0.targets[k] == s.targets[k]
  {
    var valid :- ValidateBatteryIds(s, ids, proposal, system);
    if !valid then Success((s, None))
    else
      var buckets := if proposal.Some? then AddToBucket(s.buckets, ids, proposal.value) else s.buckets;
      if ids !in buckets then Success((State(buckets, s.targets), None))
      else
        var target := CalcTargetPower(buckets[ids], system);
        if mustReturnPower || ids !in s.targets || s.targets[ids] != target then
          Success((State(buckets, s.targets[ids := target]), Some(target)))
        else
          Success((State(buckets, s.targets), None))
  }

  /** The algorithm's invariant: buckets are well formed and pairwise disjoint,
      and targets exist only for buckets. */
  ghost predicate Invariant(s: State) {
    && (forall k :: k in s.buckets ==> ValidBucket(s.buckets[k]))
    && (forall k1, k2 :: k1 in s.buckets && k2 in s.buckets && k1 != k2 ==> k1 * k2 == {})
    && s.targets.Keys <= s.buckets.Keys
  }

  lemma CalculateTargetPowerPreservesInvariant(
    s: State, ids: set<int>, proposal: Option<Proposal>, system: SystemBounds, mustReturnPower: bool)
    requires Invariant(s)
    ensures var r := CalculateTargetPower(s, ids, proposal, system, mustReturnPower);
            r.Success? ==> Invariant(r.value.0)
  {
    var r := CalculateTargetPower(s, ids, proposal, system, mustReturnPower);
    if r.Success? && proposal.Some? && ValidateBatteryIds(s, ids, proposal, system) == Success(true) {
      AddToBucketPreservesInvariant(s, ids, proposal.value);
    }
  }

  lemma AddToBucketPreservesInvariant(s: State, ids: set<int>, p: Proposal)
    requires Invariant(s)
    requires ids in s.buckets || !OverlapsExisting(s, ids)
    ensures Invariant(State(AddToBucket(s.buckets, ids, p), s.targets))
  {
    var buckets := AddToBucket(s.buckets, ids, p);
    InsertProposalValid(if ids in s.buckets then s.buckets[ids] else [], p);
    forall k1, k2 | k1 in buckets && k2 in buckets && k1 != k2
      ensures k1 * k2 == {}
    {
      if k1 == ids && ids !in s.buckets {
        assert !(k2 in s.buckets && k2 * ids != {});
      } else if k2 == ids && ids !in s.buckets {
        assert !(k1 in s.buckets && k1 * ids != {});
      }
    }
  }

  // ---------------------------------------------------------------------
  // Status reports

  /** The walk of `get_status`: only proposals of strictly higher priority
      narrow the bounds; an empty intersection stops the walk. */
  function WalkStatus(
    ps: seq<Proposal>, priority: int, lower: Power, upper: Power, exclusion: Option<Bounds>): Bounds
    decreases |ps|
  {
    if |ps| == 0 then Bounds(lower, upper)
    else
      var p := ps[|ps| - 1];
      if p.priority <= priority then Bounds(lower, upper)
      else
        var pl := p.bounds.lower.GetOr(lower);
        var pu := p.bounds.upper.GetOr(upper);
        if CheckExclusionBoundsOverlap(pl, pu, exclusion) == (true, true) then
          WalkStatus(ps[..|ps| - 1], priority, lower, upper, exclusion)
        else
          var cl := MaxR(lower, pl);
          var cu := MinR(upper, pu);
          if cl <= cu then
            var adjusted := AdjustExclusionBounds(cl, cu, exclusion);
            WalkStatus(ps[..|ps| - 1], priority, adjusted.0, adjusted.1, exclusion)
          else Bounds(lower, upper)
  }

  /** `get_status`: the target power and the bounds still open to `priority`. */
  function GetStatus(s: State, ids: set<int>, priority: int, system: SystemBounds): (r: Report)
    ensures r.targetPower == (if ids in s.targets then Some(s.targets[ids]) else None)
    ensures r.exclusion == system.exclusion
    ensures r.inclusion.Some? <==> system.inclusion.Some?
    // A priority at or above every proposal sees the system bounds unchanged.
    ensures system.inclusion.Some?
            && (ids in s.buckets ==> forall p :: p in s.buckets[ids] ==> p.priority <= priority)
            ==> r.inclusion == system.inclusion
  {
    var target := if ids in s.targets then Some(s.targets[ids]) else None;
    if system.inclusion.None? then Report(target, None, system.exclusion)
    else
      var bucket := if ids in s.buckets then s.buckets[ids] else [];
      assert |bucket| > 0 ==> bucket[|bucket| - 1] in bucket;
      var b := WalkStatus(bucket, priority, system.inclusion.value.lower,
                          system.inclusion.value.upper, EffectiveExclusion(system.exclusion));
      Report(target, Some(b), system.exclusion)
  }

  predicate Within(inner: Bounds, outer: Bounds) {
    outer.lower <= inner.lower && inner.upper <= outer.upper
  }

  /** Without an exclusion zone the status walk only narrows a non-empty interval. */
  lemma {:induction false} WalkStatusNarrows(ps: seq<Proposal>, priority: int, lower: Power, upper: Power)
    requires lower <= upper
    ensures var b := WalkStatus(ps, priority, lower, upper, None);
            b.lower <= b.upper && Within(b, Bounds(lower, upper))
    decreases |ps|
  {
    if |ps| > 0 && ps[|ps| - 1].priority > priority {
      var p := ps[|ps| - 1];
      var cl := MaxR(lower, p.bounds.lower.GetOr(lower));
      var cu := MinR(upper, p.bounds.upper.GetOr(upper));
      if cl <= cu {
        WalkStatusNarrows(ps[..|ps| - 1], priority, cl, cu);
      }
    }
  }

  /** Without an exclusion zone, a lower priority's status walk ends within
      the bounds of a higher priority's walk. */
  lemma {:induction false} WalkStatusNested(
    ps: seq<Proposal>, low: int, high: int, lower: Power, upper: Power)
    requires low <= high && lower <= upper
    ensures Within(WalkStatus(ps, low, lower, upper, None), WalkStatus(ps, high, lower, upper, None))
    decreases |ps|
  {
    if |ps| > 0 {
      var p := ps[|ps| - 1];
      var cl := MaxR(lower, p.bounds.lower.GetOr(lower));
      var cu := MinR(upper, p.bounds.upper.GetOr(upper));
      if p.priority <= low {
      } else if p.priority <= high {
        WalkStatusNarrows(ps, low, lower, upper);
      } else if cl <= cu {
        WalkStatusNested(ps[..|ps| - 1], low, high, cl, cu);
      }
    }
  }

  /** The nesting the algorithm is named after: without an exclusion zone,
      the bounds reported to a lower priority lie within those reported to a
      higher one, and all of them within the system bounds. */
  lemma GetStatusNested(s: State, ids: set<int>, low: int, high: int, system: SystemBounds)
    requires low <= high
    requires system.inclusion.Some? && system.inclusion.value.lower <= system.inclusion.value.upper
    requires EffectiveExclusion(system.exclusion).None?
    ensures var rl := GetStatus(s, ids, low, system);
            var rh := GetStatus(s, ids, high, system);
            rl.inclusion.Some? && rh.inclusion.Some?
            && Within(rl.inclusion.value, rh.inclusion.value)
            && Within(rh.inclusion.value, system.inclusion.value)
            && rl.inclusion.value.lower <= rl.inclusion.value.upper
  {
    var bucket := if ids in s.buckets then s.buckets[ids] else [];
    var b := system.inclusion.value;
    WalkStatusNested(bucket, low, high, b.lower, b.upper);
    WalkStatusNarrows(bucket, high, b.lower, b.upper);
    WalkStatusNarrows(bucket, low, b.lower, b.upper);
  }

  /** Without an exclusion zone, when every proposal has a higher priority
      and together they leave a non-empty interval, the status walk reports
      exactly the bounds the proposals narrow to. */
  lemma {:induction false} WalkStatusAbove(ps: seq<Proposal>, priority: int, lower: Power, upper: Power)
    requires forall i :: 0 <= i < |ps| ==> ps[i].priority > priority
    requires NarrowLower(ps, lower) <= NarrowUpper(ps, upper)
    ensures WalkStatus(ps, priority, lower, upper, None) == Bounds(NarrowLower(ps, lower), NarrowUpper(ps, upper))
    decreases |ps|
  {
    if |ps| > 0 {
      var p := ps[|ps| - 1];
      var rest := ps[..|ps| - 1];
      var cl := MaxR(lower, p.bounds.lower.GetOr(lower));
      var cu := MinR(upper, p.bounds.upper.GetOr(upper));
      assert NarrowLower(ps, lower) == NarrowLower(rest, cl);
      assert NarrowUpper(ps, upper) == NarrowUpper(rest, cu);
      assert cl <= cu;
      assert forall i :: 0 <= i < |rest| ==> rest[i] == ps[i];
      WalkStatusAbove(rest, priority, cl, cu);
    }
  }

  /** The status walk stops at the first proposal (from the end) whose
      priority is not above the asked one: what lies before it is never read. */
  lemma {:induction false} WalkStatusStopsAtPriority(
    pre: seq<Proposal>, suf: seq<Proposal>, priority: int, lower: Power, upper: Power,
    exclusion: Option<Bounds>)
    requires |pre| == 0 || pre[|pre| - 1].priority <= priority
    ensures WalkStatus(pre + suf, priority, lower, upper, exclusion)
            == WalkStatus(suf, priority, lower, upper, exclusion)
    decreases |suf|
  {
    var ps := pre + suf;
    if |suf| > 0 {
      assert ps[|ps| - 1] == suf[|suf| - 1];
      assert ps[..|ps| - 1] == pre + suf[..|suf| - 1];
      var p := suf[|suf| - 1];
      var pl := p.bounds.lower.GetOr(lower);
      var pu := p.bounds.upper.GetOr(upper);
      if p.priority > priority {
        if CheckExclusionBoundsOverlap(pl, pu, exclusion) == (true, true) {
          WalkStatusStopsAtPriority(pre, suf[..|suf| - 1], priority, lower, upper, exclusion);
        } else if MaxR(lower, pl) <= MinR(upper, pu) {
          var adjusted := AdjustExclusionBounds(MaxR(lower, pl), MinR(upper, pu), exclusion);
          WalkStatusStopsAtPriority(pre, suf[..|suf| - 1], priority, adjusted.0, adjusted.1, exclusion);
        }
      }
    } else {
      assert ps == pre;
    }
  }

  /** What `get_status` promises an actor: without an exclusion zone, when the
      proposals above its priority form the end `b[k..]` of the bucket and
      leave a non-empty interval, the reported inclusion bounds are the system
      bounds narrowed by exactly those proposals. */
  lemma GetStatusReportsHigherBounds(s: State, ids: set<int>, priority: int, system: SystemBounds, k: nat)
    requires ids in s.buckets && k <= |s.buckets[ids]|
    requires forall i :: 0 <= i < k ==> s.buckets[ids][i].priority <= priority
    requires forall i :: k <= i < |s.buckets[ids]| ==> s.buckets[ids][i].priority > priority
    requires system.inclusion.Some? && EffectiveExclusion(system.exclusion).None?
    requires NarrowLower(s.buckets[ids][k..], system.inclusion.value.lower)
             <= NarrowUpper(s.buckets[ids][k..], system.inclusion.value.upper)
    ensures GetStatus(s, ids, priority, system).inclusion
            == Some(Bounds(NarrowLower(s.buckets[ids][k..], system.inclusion.value.lower),
                           NarrowUpper(s.buckets[ids][k..], system.inclusion.value.upper)))
  {
    var b := s.buckets[ids];
    var sys := system.inclusion.value;
    assert b == b[..k] + b[k..];
    WalkStatusStopsAtPriority(b[..k], b[k..], priority, sys.lower, sys.upper, None);
    WalkStatusAbove(b[k..], priority, sys.lower, sys.upper);
  }

  /** The bounds the test suite expects: with proposals of priority 2 bounded
      to [25, 50] and of priority 3 bounded to [10, 15] under system bounds
      [-200, 200], priority 3 sees the system bounds, priority 2 sees [10, 15],
      and so does priority 1, whose walk stops at the empty intersection. */
  lemma WalkStatusExample()
    ensures var p2 := NewProposal("actor-2", Some(25.0), ProposalBounds(Some(25.0), Some(50.0)), {1}, 2);
            var p3 := NewProposal("actor-3", Some(10.0), ProposalBounds(Some(10.0), Some(15.0)), {1}, 3);
            && WalkStatus([p2, p3], 3, -200.0, 200.0, None) == Bounds(-200.0, 200.0)
            && WalkStatus([p2, p3], 2, -200.0, 200.0, None) == Bounds(10.0, 15.0)
            && WalkStatus([p2, p3], 1, -200.0, 200.0, None) == Bounds(10.0, 15.0)
  {
  }
}

=== FILE: power_base.dfy ===
/** Records shared by the power manager: bounds, system bounds, proposals,
    reports and report requests, and the ordering of proposals inside a
    bucket.  Power is a real number of watts; time is an integer number of
    microseconds. */
module PowerBase {
  import opened Wrappers

  type Power = real
  type Time = int

  /** An inclusive interval of power values. */
  datatype Bounds = Bounds(lower: Power, upper: Power)

  predicate Contains(b: Bounds, x: Power) {
    b.lower <= x <= b.upper
  }

  /** The bounds carried by a proposal: either side may be left open. */
  datatype ProposalBounds = ProposalBounds(lower: Option<Power>, upper: Option<Power>)

  /** The power bounds of a set of batteries as reported by the system
      (`PowerMetrics` / `SystemBounds`). */
  datatype SystemBounds = SystemBounds(
    timestamp: Time,
    inclusion: Option<Bounds>,
    exclusion: Option<Bounds>)

  /** What the algorithm reports to an actor of a given priority. */
  datatype Report = Report(
    targetPower: Option<Power>,
    inclusion: Option<Bounds>,
    exclusion: Option<Bounds>)

  datatype Proposal = Proposal(
    sourceId: string,
    preferredPower: Option<Power>,
    bounds: ProposalBounds,
    batteryIds: set<int>,
    priority: int,
    requestTimeout: Time,
    includeBrokenBatteries: bool)

  datatype ReportRequest = ReportRequest(sourceId: string, batteryIds: set<int>, priority: int)

  /** The only algorithm the power manager knows. */
  datatype Algorithm = Matryoshka

  /** Five seconds, in microseconds. */
  const DefaultRequestTimeout: Time := 5_000_000

  /** A proposal built with the dataclass defaults for the optional fields. */
  function NewProposal(
    sourceId: string, preferredPower: Option<Power>, bounds: ProposalBounds,
    batteryIds: set<int>, priority: int): (p: Proposal)
    ensures p.requestTimeout == 5_000_000
    ensures !p.includeBrokenBatteries
    ensures p.sourceId == sourceId && p.preferredPower == preferredPower
    ensures p.bounds == bounds && p.batteryIds == batteryIds && p.priority == priority
  {
    Proposal(sourceId, preferredPower, bounds, batteryIds, priority, DefaultRequestTimeout, false)
  }

  /** The name of a report channel, kept as the two values it is formatted from. */
  datatype ChannelName = ChannelName(batteryIds: set<int>, priority: int)

  function GetChannelName(r: ReportRequest): ChannelName {
    ChannelName(r.batteryIds, r.priority)
  }

  /** Two report requests share a channel exactly when they agree on the
      batteries and the priority; the source id plays no part. */
  lemma ChannelNameIgnoresSource(r1: ReportRequest, r2: ReportRequest)
    ensures GetChannelName(r1) == GetChannelName(r2)
            <==> r1.batteryIds == r2.batteryIds && r1.priority == r2.priority
    ensures r1.batteryIds == r2.batteryIds && r1.priority == r2.priority
            ==> GetChannelName(r1) == GetChannelName(r2)
  {
  }

  // ---------------------------------------------------------------------
  // Ordering

  /** Python's `<` on `str`: lexicographic on code points, a proper prefix
      being smaller. */
  predicate StrLess(a: string, b: string)
    decreases |a|
  {
    if |a| == 0 then |b| > 0
    else if |b| == 0 then false
    else if a[0] != b[0] then a[0] < b[0]
    else StrLess(a[1..], b[1..])
  }

  lemma {:induction false} StrLessIrreflexive(a: string)
    ensures !StrLess(a, a)
    decreases |a|
  {
    if |a| > 0 {
      StrLessIrreflexive(a[1..]);
    }
  }

  lemma {:induction false} StrLessTransitive(a: string, b: string, c: string)
    requires StrLess(a, b) && StrLess(b, c)
    ensures StrLess(a, c)
    decreases |a|
  {
    if |a| > 0 && |b| > 0 && |c| > 0 && a[0] == b[0] && b[0] == c[0] {
      StrLessTransitive(a[1..], b[1..], c[1..]);
    }
  }

  lemma {:induction false} StrLessTotal(a: string, b: string)
    requires a != b
    ensures StrLess(a, b) || StrLess(b, a)
    decreases |a|
  {
    if |a| > 0 && |b| > 0 && a[0] == b[0] {
      assert a == [a[0]] + a[1..] && b == [b[0]] + b[1..];
      StrLessTotal(a[1..], b[1..]);
    }
  }

  /** `Proposal.__lt__`: by priority, ties broken by source id. */
  predicate ProposalLess(p: Proposal, q: Proposal) {
    p.priority < q.priority || (p.priority == q.priority && StrLess(p.sourceId, q.sourceId))
  }

  /** The ordering key: two proposals are ordered the same way as their keys. */
  function SortKey(p: Proposal): (int, string) {
    (p.priority, p.sourceId)
  }

  lemma ProposalLessIrreflexive(p: Proposal)
    ensures !ProposalLess(p, p)
  {
    StrLessIrreflexive(p.sourceId);
  }

  lemma ProposalLessTransitive(p: Proposal, q: Proposal, r: Proposal)
    requires ProposalLess(p, q) && ProposalLess(q, r)
    ensures ProposalLess(p, r)
  {
    if p.priority == q.priority == r.priority {
      StrLessTransitive(p.sourceId, q.sourceId, r.sourceId);
    }
  }

  /** Proposals with different keys are always comparable one way or the other;
      a higher priority is always the greater one. */
  lemma ProposalLessConnected(p: Proposal, q: Proposal)
    requires SortKey(p) != SortKey(q)
    ensures ProposalLess(p, q) || ProposalLess(q, p)
    ensures p.priority > q.priority ==> ProposalLess(q, p) && !ProposalLess(p, q)
  {
    if p.priority == q.priority {
      StrLessTotal(p.sourceId, q.sourceId);
    }
  }

  lemma ProposalLessAsymmetric(p: Proposal, q: Proposal)
    requires ProposalLess(p, q)
    ensures !ProposalLess(q, p)
  {
    if ProposalLess(q, p) {
      ProposalLessTransitive(p, q, p);
      ProposalLessIrreflexive(p);
    }
  }
}

=== FILE: power_managing_actor.dfy ===
/** The pure decision rules of the power-managing actor: the algorithm check
    at construction, the bounds left over once a target is applied, and how
    the targets of the shifting and the non-shifting group combine. */
module PowerManagingActor {
  import opened Wrappers
  import opened PowerBase

  /** The algorithm argument: the known enum member, or anything else. */
  datatype AlgorithmArg = Known(algorithm: Algorithm) | Unknown(name: string)

  datatype Error = UnknownAlgorithm(name: string)

  /** The check in the constructor: only the matryoshka algorithm is accepted. */
  function CheckAlgorithm(arg: AlgorithmArg): (r: Result<Algorithm, Error>)
    ensures r.Success? <==> arg == Known(Matryoshka)
    ensures r.Success? ==> r.value == Matryoshka
    ensures arg.Unknown? ==> r == Failure(UnknownAlgorithm(arg.name))
  {
    match arg
    case Known(Matryoshka) => Success(Matryoshka)
    case Unknown(name) => Failure(UnknownAlgorithm(name))
  }

  /** The bounds that remain once `target` is applied: what can still be
      added to it while staying inside the system bounds. */
  function RemainingBounds(bounds: SystemBounds, target: Option<Power>): (r: SystemBounds)
    ensures target.None? ==> r == bounds
    ensures r.timestamp == bounds.timestamp && r.exclusion == bounds.exclusion
    ensures r.inclusion.Some? <==> bounds.inclusion.Some?
    // A shift `x` is admissible exactly when `x + target` was admissible.
    ensures target.Some? && r.inclusion.Some? ==>
              forall x: Power :: Contains(r.inclusion.value, x) <==> Contains(bounds.inclusion.value, x + target.value)
  {
    if target.None? then bounds
    else
      var inclusion :=
        if bounds.inclusion.Some? then
          Some(Bounds(bounds.inclusion.value.lower - target.value,
                      bounds.inclusion.value.upper - target.value))
        else None;
      SystemBounds(bounds.timestamp, inclusion, bounds.exclusion)
  }

  /** Shifting back by the opposite target restores the original bounds. */
  lemma RemainingBoundsRoundTrip(bounds: SystemBounds, t: Power)
    ensures RemainingBounds(RemainingBounds(bounds, Some(t)), Some(-t)) == bounds
  {
  }

  /** Shifting twice is shifting once by the sum. */
  lemma RemainingBoundsCompose(bounds: SystemBounds, t1: Power, t2: Power)
    ensures RemainingBounds(RemainingBounds(bounds, Some(t1)), Some(t2))
            == RemainingBounds(bounds, Some(t1 + t2))
  {
  }

  /** The two rows of the table in the documentation of the rule. */
  lemma RemainingBoundsExamples()
    ensures RemainingBounds(SystemBounds(0, Some(Bounds(-100.0, 100.0)), None), Some(70.0))
            == SystemBounds(0, Some(Bounds(-170.0, 30.0)), None)
    ensures RemainingBounds(SystemBounds(0, Some(Bounds(-100.0, 100.0)), None), Some(-50.0))
            == SystemBounds(0, Some(Bounds(-50.0, 150.0)), None)
  {
  }

  /** The actor's target: the shifting target on top of the non-shifting one. */
  function CombineTargets(shift: Option<Power>, noShift: Option<Power>): (r: Option<Power>)
    ensures r.None? <==> shift.None? && noShift.None?
    ensures shift.Some? && noShift.Some? ==> r == Some(shift.value + noShift.value)
    ensures shift.Some? && noShift.None? ==> r == shift
    ensures shift.None? ==> r == noShift
  {
    if shift.Some? && noShift.Some? then Some(shift.value + noShift.value)
    else if shift.Some? then shift
    else noShift
  }

  /** An absent target counts as zero in the combination, and the order of
      the two groups does not matter. */
  lemma CombineTargetsAsSum(shift: Option<Power>, noShift: Option<Power>)
    ensures var r := CombineTargets(shift, noShift);
            r.Some? ==> r.value == shift.GetOr(0.0) + noShift.GetOr(0.0)
    ensures CombineTargets(shift, noShift) == CombineTargets(noShift, shift)
  {
  }

  /** A combined target whose shifting part was computed inside the remaining
      bounds lies inside the system bounds. */
  lemma CombinedTargetWithinSystemBounds(bounds: SystemBounds, noShift: Power, shift: Power)
    requires bounds.inclusion.Some?
    requires var rb := RemainingBounds(bounds, Some(noShift));
             rb.inclusion.value.lower <= shift <= rb.inclusion.value.upper
    ensures var c := CombineTargets(Some(shift), Some(noShift)).value;
            bounds.inclusion.value.lower <= c <= bounds.inclusion.value.upper
  {
  }
}

=== FILE: resampler.dfy ===
/** The resampler's registry of sources: one helper per source, added and
    removed by source identity, and the first window end computed when the
    resampler is created. */
module Resampler {
  import opened Wrappers
  import opened ResamplingConfig
  import opened ResamplingHelper

  /** Sources are compared by identity; an integer stands for that identity. */
  type SourceId = int

  datatype Resampler = Resampler(
    config: ResamplerConfig,
    helpers: map<SourceId, Helper>,
    windowEnd: Time,
    startDelay: int)

  /** A new resampler created at `now`: no sources, and the first window end. */
  function NewResampler(config: ResamplerConfig, now: Time): (r: Result<Resampler, WindowError>)
    requires ConfigValid(config)
    ensures r.Success? <==> CalculateWindowEnd(config, now).Success?
    ensures r.Success? ==> r.value.helpers == map[] && r.value.config == config
                           && (r.value.windowEnd, r.value.startDelay) == CalculateWindowEnd(config, now).value
  {
    var (windowEnd, delay) :- CalculateWindowEnd(config, now);
    Success(Resampler(config, map[], windowEnd, delay))
  }

  /** `add_timeseries`: refused (false, nothing changes) for a source that is
      already resampled; otherwise a fresh helper is registered. */
  function AddTimeseries(r: Resampler, name: string, source: SourceId): (res: (Resampler, bool))
    requires ConfigValid(r.config)
    ensures source in r.helpers ==> res == (r, false)
    ensures source !in r.helpers ==>
              && res.1
              && res.0.helpers == r.helpers[source := NewHelper(name, r.config)]
              && res.0.config == r.config && res.0.windowEnd == r.windowEnd
    ensures source in res.0.helpers
  {
    if source in r.helpers then (r, false)
    else (r.(helpers := r.helpers[source := NewHelper(name, r.config)]), true)
  }

  /** `remove_timeseries`: false for an unknown source; otherwise only that
      source's helper is dropped. */
  function RemoveTimeseries(r: Resampler, source: SourceId): (res: (Resampler, bool))
    ensures res.1 <==> source in r.helpers
    ensures !res.1 ==> res.0 == r
    ensures source !in res.0.helpers
    ensures res.0.helpers.Keys == r.helpers.Keys - {source}
    ensures forall s :: s in res.0.helpers ==> res.0.helpers[s] == r.helpers[s]
    ensures res.0.config == r.config && res.0.windowEnd == r.windowEnd
  {
    if source !in r.helpers then (r, false)
    else (r.(helpers := map s | s in r.helpers && s != source :: r.helpers[s]), true)
  }

  /** Adding a new source and removing it again restores the resampler. */
  lemma AddRemoveRoundTrip(r: Resampler, name: string, source: SourceId)
    requires ConfigValid(r.config) && source !in r.helpers
    ensures RemoveTimeseries(AddTimeseries(r, name, source).0, source) == (r, true)
  {
    var r1 := AddTimeseries(r, name, source).0;
    var r2 := RemoveTimeseries(r1, source).0;
    assert r2.helpers == r.helpers;
  }
}

=== FILE: resampling_config.dfy ===
/** The resampler's configuration, its validation, and the arithmetic that
    aligns the first resampling window.  Durations and timestamps are
    integers in microseconds; `alignTo` is a timestamp. */
module ResamplingConfig {
  import opened Wrappers

  type Time = int

  const DefaultBufferLenInit: int := 16
  const DefaultBufferLenMax: int := 1024
  const DefaultBufferLenWarn: int := 128
  const DefaultMaxDataAgeInPeriods: real := 3.0

  /** The UNIX epoch, the default alignment. */
  const UnixEpoch: Time := 0

  datatype ResamplerConfig = ResamplerConfig(
    resamplingPeriod: int,
    maxDataAgeInPeriods: real,
    initialBufferLen: int,
    warnBufferLen: int,
    maxBufferLen: int,
    alignTo: Option<Time>)

  /** A configuration with every optional field at its default. */
  function DefaultConfig(resamplingPeriod: int): (c: ResamplerConfig)
    ensures c.resamplingPeriod == resamplingPeriod
    ensures c.maxDataAgeInPeriods == 3.0 && c.alignTo == Some(0)
    ensures c.initialBufferLen == 16 && c.warnBufferLen == 128 && c.maxBufferLen == 1024
  {
    ResamplerConfig(resamplingPeriod, DefaultMaxDataAgeInPeriods, DefaultBufferLenInit,
                    DefaultBufferLenWarn, DefaultBufferLenMax, Some(UnixEpoch))
  }

  datatype ConfigError =
    | NegativePeriod
    | MaxDataAgeTooSmall
    | WarnBufferLenTooSmall
    | MaxBufferLenNotAboveWarn
    | InitialBufferLenTooSmall
    | InitialBufferLenAboveMax
    | NonPositivePeriod

  /** Every condition the configuration is checked against. */
  predicate ConfigValid(c: ResamplerConfig) {
    && c.resamplingPeriod >= 0
    && c.maxDataAgeInPeriods >= 1.0
    && c.warnBufferLen >= 1
    && c.maxBufferLen > c.warnBufferLen
    && 1 <= c.initialBufferLen <= c.maxBufferLen
  }

  /** The checks of `__post_init__`, in order; the first failing one decides the error. */
  function ValidateConfig(c: ResamplerConfig): (r: Result<ResamplerConfig, ConfigError>)
    ensures r.Success? <==> ConfigValid(c)
    ensures r.Success? ==> r.value == c
    ensures c.resamplingPeriod < 0 ==> r == Failure(NegativePeriod)
    ensures c.resamplingPeriod >= 0 && c.maxDataAgeInPeriods < 1.0 ==> r == Failure(MaxDataAgeTooSmall)
    ensures r.Failure? ==> r.error != NonPositivePeriod
    // A valid configuration gives a buffer of at least one sample, at most the maximum.
    ensures r.Success? ==> 1 <= c.initialBufferLen <= c.maxBufferLen && c.maxBufferLen >= 2
  {
    if c.resamplingPeriod < 0 then Failure(NegativePeriod)
    else if c.maxDataAgeInPeriods < 1.0 then Failure(MaxDataAgeTooSmall)
    else if c.warnBufferLen < 1 then Failure(WarnBufferLenTooSmall)
    else if c.maxBufferLen <= c.warnBufferLen then Failure(MaxBufferLenNotAboveWarn)
    else if c.initialBufferLen < 1 then Failure(InitialBufferLenTooSmall)
    else if c.initialBufferLen > c.maxBufferLen then Failure(InitialBufferLenAboveMax)
    else Success(c)
  }

  /** The defaults are valid for every non-negative period. */
  lemma DefaultConfigValid(resamplingPeriod: int)
    ensures ValidateConfig(DefaultConfig(resamplingPeriod)).Success? <==> resamplingPeriod >= 0
  {
  }

  /** Python's `%` (floored): the result has the sign of the divisor. */
  function PyMod(a: int, b: int): (r: int)
    requires b != 0
    ensures b > 0 ==> 0 <= r < b && r == a % b
    ensures b < 0 ==> b < r <= 0 && (a - r) % b == 0
  {
    var m := a % b;
    assert b < 0 ==> (a - m) % b == 0 && (a - (m + b)) % b == 0 by {
      if b < 0 {
        MultipleMod(b, a / b);
        MultipleMod(b, a / b - 1);
        assert a - (m + b) == b * (a / b - 1);
      }
    }
    if b < 0 && m != 0 then m + b else m
  }

  datatype WindowError = ZeroDivision

  /** A multiple of `p` leaves no remainder. */
  lemma MultipleMod(p: int, k: int)
    requires p != 0
    ensures (p * k) % p == 0
  {
    var d := (p * k) / p;
    var m := (p * k) % p;
    assert p * k == p * d + m;
    var x := k - d;
    assert p * x == m;
    var q := if p > 0 then p else -p;
    assert p * x == q * x || p * x == q * -x;
    if x >= 1 {
      MulAtLeast(q, x);
      assert false;
    } else if x <= -1 {
      MulAtLeast(q, -x);
      assert false;
    }
  }

  lemma MulAtLeast(p: int, x: int)
    requires p > 0 && x >= 1
    ensures p * x >= p && p * -x <= -p
  {
    assert p * x == p + p * (x - 1);
  }

  /** The end of the first resampling window and the delay to align the
      timer to it, for a resampler created at `now`. */
  function CalculateWindowEnd(c: ResamplerConfig, now: Time): (r: Result<(Time, int), WindowError>)
    // Without alignment, or when already aligned, one period from now.
    ensures c.alignTo.None? ==> r == Success((now + c.resamplingPeriod, 0))
    ensures c.alignTo.Some? && c.resamplingPeriod > 0
            && (now - c.alignTo.value) % c.resamplingPeriod == 0
            ==> r == Success((now + c.resamplingPeriod, 0))
    // Otherwise aligned to `alignTo`, strictly between one and two periods ahead.
    ensures c.alignTo.Some? && c.resamplingPeriod > 0 ==>
              && r.Success?
              && now + c.resamplingPeriod <= r.value.0 < now + 2 * c.resamplingPeriod
              && r.value.1 == r.value.0 - now - c.resamplingPeriod
              && 0 <= r.value.1 < c.resamplingPeriod
    // A zero period cannot be aligned.
    ensures c.alignTo.Some? && c.resamplingPeriod == 0 ==> r == Failure(ZeroDivision)
  {
    var period := c.resamplingPeriod;
    if c.alignTo.None? then Success((now + period, 0))
    else if period == 0 then Failure(ZeroDivision)
    else
      var elapsed := PyMod(now - c.alignTo.value, period);
      if elapsed == 0 then Success((now + period, 0))
      else Success((now + period * 2 - elapsed, period - elapsed))
  }

  /** Moving `now` back by its remainder and forward by whole periods lands
      on an aligned time. */
  lemma WindowEndAligned(now: Time, alignTo: Time, period: int, extra: int)
    requires period > 0
    ensures (now + period + extra * period - PyMod(now - alignTo, period) - alignTo) % period == 0
  {
    var q := (now - alignTo) / period;
    var e := (now - alignTo) % period;
    assert now - alignTo == period * q + e;
    assert now + period + extra * period - e - alignTo == period * (q + 1 + extra);
    MultipleMod(period, q + 1 + extra);
  }

  /** The window end is a whole number of periods away from `alignTo`. */
  lemma WindowEndIsAligned(c: ResamplerConfig, now: Time)
    requires c.alignTo.Some? && c.resamplingPeriod > 0
    ensures (CalculateWindowEnd(c, now).value.0 - c.alignTo.value) % c.resamplingPeriod == 0
  {
    var elapsed := PyMod(now - c.alignTo.value, c.resamplingPeriod);
    WindowEndAligned(now, c.alignTo.value, c.resamplingPeriod, if elapsed == 0 then 0 else 1);
  }

  /** As written, a zero period passes validation (only a negative one is
      refused), and the default alignment then makes the window arithmetic
      divide by zero. */
  lemma ZeroPeriodAccepted(now: Time)
    ensures ValidateConfig(DefaultConfig(0)).Success?
    ensures CalculateWindowEnd(DefaultConfig(0), now).Failure?
  {
  }

  /** The evidently intended validation: the period must be positive. */
  function ValidateConfigCorrected(c: ResamplerConfig): (r: Result<ResamplerConfig, ConfigError>)
    ensures r.Success? <==> ConfigValid(c) && c.resamplingPeriod > 0
    ensures r.Success? ==> r.value == c
    ensures c.resamplingPeriod <= 0 ==> r == Failure(NonPositivePeriod)
  {
    if c.resamplingPeriod <= 0 then Failure(NonPositivePeriod)
    else ValidateConfig(c)
  }

  /** With the corrected validation, the window end always exists. */
  lemma CorrectedConfigHasWindowEnd(c: ResamplerConfig, now: Time)
    requires ValidateConfigCorrected(c).Success?
    ensures CalculateWindowEnd(c, now).Success?
    ensures ValidateConfig(c).Success?
  {
  }
}

=== FILE: resampling_helper.dfy ===
/** The per-source resampling helper: a bounded buffer of the newest samples,
    the estimate of the source's own sampling period, the buffer resize that
    follows it, and the choice of the samples relevant for one resampled
    value.  Sampling periods are real numbers of microseconds. */
module ResamplingHelper {
  import opened Wrappers
  import BaseTypes
  import opened ResamplingConfig

  type Sample = BaseTypes.Sample

  datatype SourceProperties = SourceProperties(
    samplingStart: Option<Time>,
    receivedSamples: nat,
    samplingPeriod: Option<real>)

  datatype Helper = Helper(
    name: string,
    config: ResamplerConfig,
    buffer: seq<Sample>,
    maxlen: nat,
    props: SourceProperties)

  /** What every reachable helper satisfies: the buffer fits, a start time is
      known exactly when samples arrived, and a known period is positive. */
  ghost predicate Valid(h: Helper) {
    && ConfigValid(h.config)
    && 1 <= h.maxlen <= h.config.maxBufferLen
    && |h.buffer| <= h.maxlen
    && (h.props.samplingStart.Some? <==> h.props.receivedSamples > 0)
    && (h.props.samplingPeriod.Some? ==> h.props.samplingPeriod.value > 0.0)
  }

  /** A new helper: an empty buffer of the configured initial length. */
  function NewHelper(name: string, config: ResamplerConfig): (h: Helper)
    requires ConfigValid(config)
    ensures Valid(h) && h.buffer == [] && h.maxlen == config.initialBufferLen
    ensures h.props == SourceProperties(None, 0, None)
  {
    Helper(name, config, [], config.initialBufferLen, SourceProperties(None, 0, None))
  }

  /** The newest `n` elements of `b` (all of them when there are fewer). */
  function Newest<T>(b: seq<T>, n: nat): (r: seq<T>)
    ensures |r| == Min(|b|, n)
    ensures forall i :: 0 <= i < |r| ==> r[i] == b[|b| - |r| + i]
  {
    if |b| <= n then b else b[|b| - n..]
  }

  /** `deque.append` on a deque with a maximum length: the oldest element
      falls out when the deque is full. */
  function BoundedAppend<T>(b: seq<T>, x: T, maxlen: nat): (r: seq<T>)
    requires |b| <= maxlen
    ensures maxlen > 0 ==> |r| == Min(|b| + 1, maxlen) && r[|r| - 1] == x
    ensures r == Newest(b + [x], maxlen)
  {
    Newest(b + [x], maxlen)
  }

  /** `add_sample`: buffer the sample and count it; the first sample marks
      the start of sampling. */
  function AddSample(h: Helper, s: Sample): (r: Helper)
    requires Valid(h)
    ensures Valid(r)
    ensures r.buffer == BoundedAppend(h.buffer, s, h.maxlen) && r.buffer[|r.buffer| - 1] == s
    ensures r.props.receivedSamples == h.props.receivedSamples + 1
    ensures r.props.samplingStart
            == (if h.props.samplingStart.None? then Some(s.timestamp) else h.props.samplingStart)
    ensures r.props.samplingPeriod == h.props.samplingPeriod
    ensures r.maxlen == h.maxlen && r.config == h.config && r.name == h.name
  {
    var start := if h.props.samplingStart.None? then Some(s.timestamp) else h.props.samplingStart;
    h.(buffer := BoundedAppend(h.buffer, s, h.maxlen),
       props := h.props.(samplingStart := start, receivedSamples := h.props.receivedSamples + 1))
  }

  /** The period in seconds, as the source compares it with sample counts. */
  function PeriodSeconds(c: ResamplerConfig): real {
    c.resamplingPeriod as real / 1_000_000.0
  }

  /** The conditions under which the source's sampling period is estimated. */
  predicate ReadyForPeriodEstimate(h: Helper, now: Time) {
    && h.props.samplingPeriod.None?
    && h.props.samplingStart.Some?
    && !(h.props.receivedSamples as real < PeriodSeconds(h.config) * h.config.maxDataAgeInPeriods)
    && !(|h.buffer| < h.maxlen)
    && !(now <= h.props.samplingStart.value)
  }

  /** `_update_source_sample_period`: estimate the source's sampling period
      once, as the time since the first sample divided by the samples seen. */
  function UpdateSourceSamplePeriod(h: Helper, now: Time): (r: (Helper, bool))
    requires Valid(h)
    ensures Valid(r.0)
    ensures r.1 <==> ReadyForPeriodEstimate(h, now)
    ensures !r.1 ==> r.0 == h
    ensures r.1 ==> r.0 == h.(props := h.props.(samplingPeriod := r.0.props.samplingPeriod))
    ensures r.1 ==> r.0.props.samplingPeriod.Some?
                    && r.0.props.samplingPeriod.value * h.props.receivedSamples as real
                       == (now - h.props.samplingStart.value) as real
    // The estimate is made at most once.
    ensures h.props.samplingPeriod.Some? ==> r == (h, false)
  {
    if !ReadyForPeriodEstimate(h, now) then (h, false)
    else
      var elapsed := (now - h.props.samplingStart.value) as real;
      var period := elapsed / h.props.receivedSamples as real;
      (h.(props := h.props.(samplingPeriod := Some(period))), true)
  }

  /** The smallest integer not below `x` (`math.ceil`). */
  function Ceil(x: real): (r: int)
    ensures r as real - 1.0 < x <= r as real
  {
    if x.Floor as real == x then x.Floor else x.Floor + 1
  }

  /** The buffer length wanted for a source of the given sampling period:
      enough samples to cover `maxDataAgeInPeriods` periods. */
  function WantedBufferLen(c: ResamplerConfig, samplingPeriod: real): int
    requires samplingPeriod > 0.0
  {
    if samplingPeriod > c.resamplingPeriod as real then
      Ceil(samplingPeriod / 1_000_000.0 * c.maxDataAgeInPeriods)
    else
      Ceil(c.resamplingPeriod as real / samplingPeriod * c.maxDataAgeInPeriods)
  }

  /** The wanted length clamped into `[1, maxBufferLen]`. */
  function ClampBufferLen(raw: int, c: ResamplerConfig): (r: int)
    requires ConfigValid(c)
    ensures 1 <= r <= c.maxBufferLen
    ensures 1 <= raw <= c.maxBufferLen ==> r == raw
    ensures raw > c.maxBufferLen ==> r == c.maxBufferLen
    ensures raw < 1 ==> r == 1
  {
    var n := Max(1, raw);
    if n > c.maxBufferLen then c.maxBufferLen else n
  }

  /** `_update_buffer_len`: resize the buffer to the clamped wanted length,
      keeping the newest samples; reports whether the length changed. */
  function UpdateBufferLen(h: Helper): (r: (Helper, bool))
    requires Valid(h) && h.props.samplingPeriod.Some?
    ensures Valid(r.0)
    ensures r.0.maxlen == ClampBufferLen(WantedBufferLen(h.config, h.props.samplingPeriod.value), h.config)
    ensures r.1 <==> r.0.maxlen != h.maxlen
    ensures !r.1 ==> r.0 == h
    ensures r.0.buffer == Newest(h.buffer, r.0.maxlen)
    ensures r.0.props == h.props && r.0.config == h.config && r.0.name == h.name
  {
    var n := ClampBufferLen(WantedBufferLen(h.config, h.props.samplingPeriod.value), h.config);
    if n == h.maxlen then (h, false)
    else (h.(buffer := Newest(h.buffer, n), maxlen := n), true)
  }

  // ---------------------------------------------------------------------
  // Choosing the relevant samples

  ghost predicate SortedByTime(b: seq<Sample>) {
    forall i, j :: 0 <= i < j < |b| ==> b[i].timestamp <= b[j].timestamp
  }

  /** `bisect.bisect_right` keyed on the timestamp, searching `b[lo..hi]`. */
  function BisectRight(b: seq<Sample>, x: real, lo: nat, hi: nat): (r: nat)
    requires lo <= hi <= |b|
    ensures lo <= r <= hi
    decreases hi - lo
  {
    if lo < hi then
      var mid := (lo + hi) / 2;
      if x < b[mid].timestamp as real then BisectRight(b, x, lo, mid)
      else BisectRight(b, x, mid + 1, hi)
    else lo
  }

  /** `i` splits `b` into the samples at or before `x` and those after it. */
  ghost predicate SplitsAt(b: seq<Sample>, x: real, i: int) {
    && 0 <= i <= |b|
    && (forall k :: 0 <= k < i ==> b[k].timestamp as real <= x)
    && (forall k :: i <= k < |b| ==> b[k].timestamp as real > x)
  }

  lemma {:induction false} BisectRightSplits(b: seq<Sample>, x: real, lo: nat, hi: nat)
    requires SortedByTime(b) && lo <= hi <= |b|
    requires forall k :: 0 <= k < lo ==> b[k].timestamp as real <= x
    requires forall k :: hi <= k < |b| ==> b[k].timestamp as real > x
    ensures SplitsAt(b, x, BisectRight(b, x, lo, hi))
    decreases hi - lo
  {
    if lo < hi {
      var mid := (lo + hi) / 2;
      if x < b[mid].timestamp as real {
        forall k | mid <= k < |b| ensures b[k].timestamp as real > x {
          assert b[mid].timestamp <= b[k].timestamp;
        }
        BisectRightSplits(b, x, lo, mid);
      } else {
        forall k | 0 <= k < mid + 1 ensures b[k].timestamp as real <= x {
          assert b[k].timestamp <= b[mid].timestamp;
        }
        BisectRightSplits(b, x, mid + 1, hi);
      }
    }
  }

  /** On a timestamp-sorted buffer the bisection finds the split point. */
  lemma BisectRightCorrect(b: seq<Sample>, x: real)
    requires SortedByTime(b)
    ensures SplitsAt(b, x, BisectRight(b, x, 0, |b|))
  {
    BisectRightSplits(b, x, 0, |b|);
  }

  /** The samples from index `lo` up to (excluding) `hi`, empty when `lo > hi`
      (`itertools.islice`). */
  function Slice(b: seq<Sample>, lo: nat, hi: nat): (r: seq<Sample>)
    requires lo <= |b| && hi <= |b|
    ensures lo <= hi ==> r == b[lo..hi]
    ensures lo > hi ==> r == []
  {
    if lo <= hi then b[lo..hi] else []
  }

  /** The period that decides relevance: the larger of the resampling
      period and the source's own period, once known. */
  function RelevancePeriod(c: ResamplerConfig, props: SourceProperties): (r: real)
    ensures r >= c.resamplingPeriod as real
    ensures props.samplingPeriod.Some? ==> r >= props.samplingPeriod.value
    ensures r == c.resamplingPeriod as real || (props.samplingPeriod.Some? && r == props.samplingPeriod.value)
  {
    if props.samplingPeriod.Some? then MaxR(c.resamplingPeriod as real, props.samplingPeriod.value)
    else c.resamplingPeriod as real
  }

  /** Samples strictly newer than this are relevant at `timestamp`. */
  function RelevanceThreshold(c: ResamplerConfig, props: SourceProperties, timestamp: Time): real {
    timestamp as real - RelevancePeriod(c, props) * c.maxDataAgeInPeriods
  }

  /** The relevant samples: those after the threshold and not after `timestamp`. */
  function RelevantSamples(b: seq<Sample>, threshold: real, timestamp: Time): (r: seq<Sample>)
  {
    Slice(b, BisectRight(b, threshold, 0, |b|), BisectRight(b, timestamp as real, 0, |b|))
  }

  /** Between the split points of `x` and `y` lie exactly the samples later
      than `x` and not later than `y`. */
  lemma SliceBetweenSplits(b: seq<Sample>, x: real, y: real, lo: nat, hi: nat)
    requires SplitsAt(b, x, lo) && SplitsAt(b, y, hi)
    ensures forall s :: s in Slice(b, lo, hi) <==> s in b && x < s.timestamp as real <= y
  {
    var r := Slice(b, lo, hi);
    forall s | s in b && x < s.timestamp as real <= y
      ensures s in r
    {
      var k :| 0 <= k < |b| && b[k] == s;
      assert lo <= k < hi;
      assert r[k - lo] == s;
    }
    forall s | s in r
      ensures s in b && x < s.timestamp as real <= y
    {
      var k :| 0 <= k < |r| && r[k] == s;
      assert lo <= hi && b[lo + k] == s;
    }
  }

  /** On a sorted buffer, the relevant samples are exactly the contiguous run
      whose timestamps lie in `(threshold, timestamp]`. */
  lemma RelevantSamplesWindow(b: seq<Sample>, threshold: real, timestamp: Time)
    requires SortedByTime(b)
    ensures var r := RelevantSamples(b, threshold, timestamp);
            forall s :: s in r <==> s in b && threshold < s.timestamp as real <= timestamp as real
    ensures exists i, j :: 0 <= i <= j <= |b| && RelevantSamples(b, threshold, timestamp) == b[i..j]
  {
    var lo := BisectRight(b, threshold, 0, |b|);
    var hi := BisectRight(b, timestamp as real, 0, |b|);
    BisectRightCorrect(b, threshold);
    BisectRightCorrect(b, timestamp as real);
    SliceBetweenSplits(b, threshold, timestamp as real, lo, hi);
    if lo <= hi {
      assert RelevantSamples(b, threshold, timestamp) == b[lo..hi];
    } else {
      assert RelevantSamples(b, threshold, timestamp) == b[0..0];
    }
  }

  /** `resample`: update the period estimate (and the buffer length when it
      changed), then apply `f` to the relevant samples; with none, the value
      is absent.  The result is stamped with `timestamp`. */
  function Resample(h: Helper, timestamp: Time, f: (seq<Sample>, ResamplerConfig, SourceProperties) -> real)
    : (r: (Helper, Sample))
    requires Valid(h)
    ensures Valid(r.0)
    ensures r.1.timestamp == timestamp
    ensures r.0.props == UpdateSourceSamplePeriod(h, timestamp).0.props
    ensures r.0.config == h.config && r.0.name == h.name
    // The buffer is resized only when the period estimate was just made.
    ensures r.0.maxlen == (if UpdateSourceSamplePeriod(h, timestamp).1
                           then UpdateBufferLen(UpdateSourceSamplePeriod(h, timestamp).0).0.maxlen
                           else h.maxlen)
    ensures r.0.buffer == Newest(h.buffer, r.0.maxlen)
    ensures var relevant := RelevantSamples(r.0.buffer, RelevanceThreshold(h.config, r.0.props, timestamp), timestamp);
            && (r.1.value.None? <==> relevant == [])
            && (r.1.value.Some? ==> r.1.value.value == f(relevant, h.config, r.0.props))
  {
    var (h1, changed) := UpdateSourceSamplePeriod(h, timestamp);
    var h2 := if changed then UpdateBufferLen(h1).0 else h1;
    var threshold := RelevanceThreshold(h2.config, h2.props, timestamp);
    var relevant := RelevantSamples(h2.buffer, threshold, timestamp);
    var value := if |relevant| > 0 then Some(f(relevant, h2.config, h2.props)) else None;
    (h2, BaseTypes.Sample(timestamp, value))
  }

  /** Keeping the newest samples keeps a sorted buffer sorted. */
  lemma NewestKeepsSorted(b: seq<Sample>, n: nat)
    requires SortedByTime(b)
    ensures SortedByTime(Newest(b, n))
  {
    if |b| > n {
      var k := |b| - n;
      assert Newest(b, n) == b[k..];
      forall i, j | 0 <= i < j < |b| - k
        ensures b[k..][i].timestamp <= b[k..][j].timestamp
      {
        assert b[k..][i] == b[k + i] && b[k..][j] == b[k + j];
      }
    }
  }

  /** Appending a sample no older than the newest one keeps the buffer sorted. */
  lemma AddSampleKeepsSorted(h: Helper, s: Sample)
    requires Valid(h) && SortedByTime(h.buffer)
    requires |h.buffer| > 0 ==> h.buffer[|h.buffer| - 1].timestamp <= s.timestamp
    ensures SortedByTime(AddSample(h, s).buffer)
  {
    var b := h.buffer;
    var c := b + [s];
    assert SortedByTime(c) by {
      forall i, j | 0 <= i < j < |c| ensures c[i].timestamp <= c[j].timestamp {
        if j == |b| {
          assert c[i] == b[i] && c[j] == s;
          assert b[i].timestamp <= b[|b| - 1].timestamp;
        } else {
          assert c[i] == b[i] && c[j] == b[j];
        }
      }
    }
    NewestKeepsSorted(c, h.maxlen);
  }
}

=== FILE: wrappers.dfy ===
/** Optional values and results with an error branch, shared by every module
    of the model.  Python's `None` becomes `None`, a raised exception becomes
    `Failure`. */
module Wrappers {

  datatype Option<+T> = None | Some(value: T) {

    /** The value, or `default` when absent: Python's `x if x is not None else default`. */
    function GetOr(default: T): T {
      match this
      case Some(v) => v
      case None => default
    }
  }

  datatype Result<+R, +E> = Success(value: R) | Failure(error: E) {

    predicate IsFailure() {
      Failure?
    }

    function PropagateFailure<U>(): Result<U, E>
      requires Failure?
    {
      Failure(error)
    }

    function Extract(): R
      requires Success?
    {
      value
    }
  }

  function Min(a: int, b: int): int {
    if a <= b then a else b
  }

  function Max(a: int, b: int): int {
    if a >= b then a else b
  }

  function MinR(a: real, b: real): real {
    if a <= b then a else b
  }

  function MaxR(a: real, b: real): real {
    if a >= b then a else b
  }
}
